=== FILE: README.md ===
# Support-ticket assistant core, modelled in Dafny

This project models the deterministic core of a retrieval-augmented assistant
for domain-registrar support tickets. A ticket is answered in five steps:

1. Relevant knowledge-base snippets are retrieved. Two legs are used: a
   semantic vector search and a BM25 keyword index. Their scores are fused
   per id by min-max normalisation and the weighted sum
   `alpha * semantic + (1 - alpha) * bm25`.
2. A prompt is built from the ticket and the snippets.
3. A language model is asked for a JSON reply, with one retry when the reply
   fails validation.
4. The reply's references are filtered against the retrieved snippet ids.
   When none survives, references to the first two snippets are used instead.
5. The model's suggested action passes through a fixed rule engine, in which
   keyword rules override the model.

On the ingestion side, the model covers how a document becomes payloads:
- splitting into sections at Markdown headings;
- splitting into blank-line paragraphs;
- chunking by word count with an overlap;
- numbering the chunks `para-0001`, `para-0002`, ….

Modules, one per source component:

| module | file | covers |
|---|---|---|
| `Wrappers`, `Strings`, `Runs`, `Numerals`, `Ranking`, `Hits` | `wrappers.dfy` … `hits.dfy` | Option/Result, whitespace strip, join and split, `splitlines`, maximal character runs (the tokenizer regex and `str.split()`), zero-padded decimals, a stable descending sort with Python slicing, and the hit records |
| `Bm25Store` | `bm25_store.dfy` | `_tok`, `build`, `add`, `search` |
| `MergedRetriever` | `merged_retriever.dfy` | `_minmax_norm`, `search_merged` |
| `Actions` | `actions.dfy` | the action literals and `enforce_action` |
| `Prompt` | `prompt.dfy` | `SCHEMA_HINT`, `build_user_prompt` |
| `Orchestrator` | `orchestrator.dfy` | `resolve_ticket`: the retry, reference filtering, the fallback and the answer strip |
| `FileIngest` | `file_ingest.dfy` | `_split_into_sections`, `_chunk_paragraphs`, payload numbering in `build_payloads_from_file` |

External effects become parameters:
- the BM25 formula is a `Scorer`;
- the semantic search is a function of its limit;
- the vector lookup-and-dot-product is a `VectorSimilarity`;
- the language model is an `Llm`;
- pydantic validation is a `Validator`;
- retrieval inside `resolve_ticket` is a `Retriever`.

Three behaviours of the code worth knowing:

- **Lexical-only snippets.** A snippet found only by BM25 has no `payload` key. `build_user_prompt` reads `sn['payload']`, so `resolve_ticket` raises rather than degrading. The model returns the fault `MissingPayload(id)` for the first such snippet (`Prompt.BuildUserPrompt`, `Orchestrator.ResolveTicket`).
- **Ties in the fused ranking.** Ties are broken by the order in which ids entered the candidate dictionary: semantic hits first, then new lexical ids. This comes from Python's stable sort; there is no explicit secondary key (`MergedRetriever.RankStable`, `MergedRetriever.SearchMergedTieOrder`, and at the `[:top_k]` cut `MergedRetriever.SearchMergedKeepsTop`). The BM25 leg breaks ties the same way, by ascending document index (`Bm25Store.SearchIndices`).
- **`build([])`.** Building from an empty list empties `ids` but keeps a previously built index. Search then returns nothing because `ids` is empty (`Bm25Store.Build`, `Bm25Store.SearchIndices`).

## Model

| member | source | states |
|---|---|---|
| `Bm25Store.Tok` | src/rag/bm25_store.py:5-8 | every token is a non-empty run of ASCII letters and digits |
| `Bm25Store.TokContent` | src/rag/bm25_store.py:5-8 | the tokens, concatenated, are exactly the token characters of the lower-cased text, in order: nothing is invented or dropped |
| `Bm25Store.TokCaseInsensitive` | src/rag/bm25_store.py:7-8 | tokenizing is blind to case: lower-casing first changes nothing |
| `Bm25Store.TokRoundTrip` | src/rag/bm25_store.py:5-8 | re-tokenizing the space-joined tokens gives the same tokens |
| `Bm25Store.TokSplitAt` | src/rag/bm25_store.py:5-8 | a character that is not a letter or digit once lower-cased splits the text: the tokens are those of the part before it followed by those of the part after it, so no token spans a separator |
| `Bm25Store.TokBlock` | src/rag/bm25_store.py:5-8 | a non-empty unbroken block of letters and digits is one token, its lower-cased self: runs are maximal |
| `Bm25Store.JoinNoUpper` | src/rag/bm25_store.py:7-8 | text made of tokens has no upper-case letter, so the lower-casing in `_tok` is the identity on it |
| `Bm25Store.NewStore` | src/rag/bm25_store.py:16-19 | a fresh store is aligned, empty and has no index |
| `Bm25Store.Build` | src/rag/bm25_store.py:21-26 | ids and token lists are replaced by those of the items, position by position; the index exists iff the items are non-empty or an index existed already |
| `Bm25Store.Add` | src/rag/bm25_store.py:28-32 | appends one id and its tokens, leaves earlier entries unchanged, keeps ids and token lists aligned, and always leaves an index |
| `Bm25Store.AddAfterBuild` | src/rag/bm25_store.py:21-32 | adding one item after a build gives the same store as building from the extended list |
| `Bm25Store.SearchIndices` | src/rag/bm25_store.py:34-40 | no result without an index or ids. Otherwise distinct in-range positions in descending score order, with equal scores in ascending index order. There are `min(top_k, n)` of them, or `max(n + top_k, 0)` for a negative `top_k`. Every kept position ranks ahead of every omitted one: a higher score, or an equal score and a lower index |
| `Bm25Store.Search` | src/rag/bm25_store.py:34-41 | at most `top_k` hits, each naming a stored id with its score, in descending score order |
| `MergedRetriever.MinOf` | src/rag/merged_retriever.py:11 | the minimum is a member of the column and no member is below it |
| `MergedRetriever.MaxOf` | src/rag/merged_retriever.py:11 | the maximum is a member of the column and no member is above it |
| `MergedRetriever.Rescale` | src/rag/merged_retriever.py:14 | the result `x` satisfies `x * (max - min) == v - min`, lies in [0, 1], and sends the minimum to 0 and the maximum to 1 |
| `MergedRetriever.RescaleMonotone` | src/rag/merged_retriever.py:14 | the rescaling preserves order |
| `MergedRetriever.RescaleStrict` | src/rag/merged_retriever.py:14 | the rescaling preserves strict order |
| `MergedRetriever.MinMaxNorm` | src/rag/merged_retriever.py:8-14 | the length is kept and every value lands in [0, 1]; a constant column becomes all 1.0; otherwise every value `v` maps to the `r` with `r * (max - min) == v - min` (the affine map), so minima map to 0 and maxima to 1 |
| `MergedRetriever.MinMaxNormMonotone` | src/rag/merged_retriever.py:8-14 | normalisation never reverses the order of two values of a column |
| `MergedRetriever.MinMaxNormStrict` | src/rag/merged_retriever.py:8-14 | a strictly smaller value normalises strictly lower, so distinct values stay distinct |
| `MergedRetriever.ConstantColumn` | src/rag/merged_retriever.py:12-13 | a column of equal values, however written, normalises to all 1.0 |
| `MergedRetriever.PutSemanticFound` | src/rag/merged_retriever.py:32-34 | a semantic hit for an id already present overwrites that entry's score and payload and changes no other entry |
| `MergedRetriever.PutSemanticNew` | src/rag/merged_retriever.py:32-34 | a semantic hit for a new id appends one entry and keeps the others |
| `MergedRetriever.SemUnion` | src/rag/merged_retriever.py:31-34 | after the semantic loop: one entry per distinct hit id, holding the score and payload of that id's last hit (their order is `MergedRetriever.SemUnionOrder`) |
| `MergedRetriever.PutLexicalFound` | src/rag/merged_retriever.py:36-38 | a BM25 hit for a present id sets only that entry's `bm25` field |
| `MergedRetriever.PutLexicalNew` | src/rag/merged_retriever.py:36-38 | a BM25 hit for a new id appends an entry with no semantic score and no payload |
| `MergedRetriever.LexUnion` | src/rag/merged_retriever.py:36-38 | after the BM25 loop: ids stay unique, new ids are appended after the existing ones, and every entry's `bm25` is that id's last BM25 score or its earlier value (the order of the appended ids is `MergedRetriever.LexUnionOrder`) |
| `MergedRetriever.UnionSpec` | src/rag/merged_retriever.py:31-38 | the candidates are the union of both legs' ids, without repetition, semantic ids first; each field holds the last hit's value for that id and is absent otherwise |
| `MergedRetriever.InsertOrderFirst` | src/rag/merged_retriever.py:31-38 | inserting keys into an empty dict keeps each key once, and the keys are ordered by their first appearance in the inserted sequence |
| `MergedRetriever.InsertOrderAppend` | src/rag/merged_retriever.py:31-38 | inserting one key sequence and then another is inserting their concatenation |
| `MergedRetriever.PutSemanticOrder` | src/rag/merged_retriever.py:34 | `setdefault` on a semantic hit keeps a known id in place and appends a new id at the end |
| `MergedRetriever.PutLexicalOrder` | src/rag/merged_retriever.py:38 | `setdefault` on a BM25 hit keeps a known id in place and appends a new id at the end |
| `MergedRetriever.SemUnionOrder` | src/rag/merged_retriever.py:31-34 | the semantic candidates are in the dict insertion order of the semantic hit ids, i.e. by first appearance |
| `MergedRetriever.LexUnionOrder` | src/rag/merged_retriever.py:36-38 | the BM25 loop keeps the existing candidates in place and appends the new ids in first-appearance order of the BM25 hits |
| `MergedRetriever.UnionOrder` | src/rag/merged_retriever.py:31-38 | the candidate order is the insertion order of the semantic hit ids followed by the BM25 hit ids |
| `MergedRetriever.UnionFirstAppearance` | src/rag/merged_retriever.py:31-38 | candidate `i` comes before candidate `j` exactly as their ids first appear in the semantic hits followed by the BM25 hits, within each leg and across the two |
| `MergedRetriever.Backfill` | src/rag/merged_retriever.py:40-51 | every candidate ends with a semantic score: its own, or the vector similarity, or 0.0 when no vector is stored; nothing else changes |
| `MergedRetriever.BlendWithinUnit` | src/rag/merged_retriever.py:60 | for `alpha` in [0, 1], the weighted sum of two normalised scores stays in [0, 1] |
| `MergedRetriever.BlendMonotone` | src/rag/merged_retriever.py:60 | the weighted sum is monotone in both scores |
| `MergedRetriever.BlendStrict` | src/rag/merged_retriever.py:60 | the weighted sum rises strictly when a score of positive weight rises strictly and the other does not fall |
| `MergedRetriever.Fuse` | src/rag/merged_retriever.py:53-60 | each candidate keeps its id, BM25 score and payload; its merged score is `alpha` times its normalised semantic score plus `1 - alpha` times its normalised BM25 score, both normalised over all candidates; for `alpha` in [0, 1] it lies in [0, 1] |
| `MergedRetriever.FuseDominance` | src/rag/merged_retriever.py:53-60 | a candidate at least as good in both raw scores is merged at least as high |
| `MergedRetriever.FuseStrictDominance` | src/rag/merged_retriever.py:53-60 | a candidate no worse in both raw scores and strictly better in one of positive weight is merged strictly higher |
| `MergedRetriever.Rank` | src/rag/merged_retriever.py:62-63 | the result length follows Python slicing (negative `top_k` included); entries come from the candidates, best merged score first |
| `MergedRetriever.RankDistinct` | src/rag/merged_retriever.py:63 | the ranking never repeats a candidate |
| `MergedRetriever.RankStable` | src/rag/merged_retriever.py:63 | among equal merged scores, candidate-union order is kept, because the sort is stable |
| `MergedRetriever.RankKeepsTop` | src/rag/merged_retriever.py:63 | no candidate left out scores above one that was kept. With distinct ids, a left-out candidate with an equal score comes later in the candidate list than the kept one |
| `MergedRetriever.SearchMergedKeepsTop` | src/rag/merged_retriever.py:53-63 | a candidate cut off by `[:top_k]` has a merged score no higher than any returned hit. On an equal score, its id first appeared later in the semantic hits followed by the BM25 hits |
| `MergedRetriever.Candidates` | src/rag/merged_retriever.py:31-51 | backfilled candidates have unique ids and cover exactly the ids of both legs |
| `MergedRetriever.SearchMerged` | src/rag/merged_retriever.py:16-65 | returns `min(top_k, #candidates)` hits, best first, each with a merged score in [0, 1] when `alpha` is in [0, 1] |
| `MergedRetriever.SearchMergedProvenance` | src/rag/merged_retriever.py:24-51 | each hit comes from a leg. A semantic hit carries that leg's last score and payload. A BM25-only hit carries no payload and the backfilled similarity |
| `MergedRetriever.SearchMergedDistinct` | src/rag/merged_retriever.py:31-63 | a merged result never lists an id twice |
| `MergedRetriever.SearchMergedTieOrder` | src/rag/merged_retriever.py:31-63 | two results with equal merged score appear in the order in which their ids first appeared in the semantic hits followed by the BM25 hits |
| `Actions.FromName` | src/core/actions.py:4-10 | a string is recognised as an action exactly when it is one of the five literals, and it maps back to that literal |
| `Actions.NameRoundTrip` | src/core/actions.py:4-10 | every action round-trips through its literal name |
| `Actions.ActionNamesAreNames` | src/core/actions.py:4-10 | the five literals are listed in declaration order, one per action |
| `Actions.WordFrom` | src/core/actions.py:12-15 | the scanner finds `w` at or after `from` exactly when a `\b`-delimited occurrence exists there |
| `Actions.SearchWords` | src/core/actions.py:12-15 | the alternation regex matches exactly when some keyword occurs as a whole word |
| `Actions.TitleFlagged` | src/core/actions.py:26-27 | a snippet is flagged exactly when its lower-cased `doc` title contains "suspension" or "abuse" |
| `Actions.UntitledNotFlagged` | src/core/actions.py:26 | a snippet with no payload, or no `doc`, reads as the empty title and is never flagged |
| `Actions.EnforceAction` | src/core/actions.py:17-39 | the five rules in priority order: suspension or abuse words, then a flagged snippet title, then billing words, then identity words; otherwise the model's action, or `no_escalation_needed` when it is empty |
| `Actions.EnforceActionClosed` | src/core/actions.py:17-39 | given a valid or empty model action, the result is always one of the five actions |
| `Actions.EnforceActionCaseInsensitive` | src/core/actions.py:18 | the decision ignores the case of the ticket text |
| `Actions.ModelActionOnlyWhenNoRule` | src/core/actions.py:20-39 | the model's suggestion matters only when no keyword rule and no snippet title fires |
| `Actions.SuspensionWins` | src/core/actions.py:20-22 | any whole-word suspension keyword escalates to the abuse team, whatever the snippets and the model say |
| `Actions.SuspendedBeatsInvoice` | src/core/actions.py:20-32 | a ticket mentioning both "suspended" and "invoice" matches the billing rule, yet goes to the abuse team because rule 1 comes first |
| `Actions.ExampleSuspendedTicket` | src/core/actions.py:15-22 | "My domain was suspended …" is escalated to the abuse team |
| `Prompt.SchemaHintAlternatives` | src/core/prompt.py:13 | the `action_required` line lists the five quoted action literals, separated by a vertical bar with a space on each side, in declaration order |
| `Prompt.SchemaHintNamesEveryAction` | src/core/prompt.py:9-15 | the schema hint mentions every action, quoted |
| `Prompt.CollectPayloads` | src/core/prompt.py:21-26 | succeeds exactly when every snippet has a payload and returns those payloads; otherwise names the first snippet without one |
| `Prompt.Blocks` | src/core/prompt.py:21-26 | one block per snippet, numbered consecutively from the start number, or the fault of the first snippet missing a payload |
| `Prompt.Render` | src/core/prompt.py:21-26 | block `k` renders snippet `k` under number `n + k` |
| `Prompt.PromptLines` | src/core/prompt.py:17-32 | the line list exists exactly when every snippet has a payload; otherwise the first one missing is reported |
| `Prompt.BuildUserPrompt` | src/core/prompt.py:17-33 | the prompt exists exactly when every snippet has a payload; otherwise the first snippet without one is named |
| `Prompt.PromptFrame` | src/core/prompt.py:17-33 | the prompt opens with `TICKET:` and the stripped ticket, then `CONTEXT:`, and closes with the fixed instructions |
| `Prompt.PromptWithoutSnippets` | src/core/prompt.py:17-33 | with no snippets the prompt is the ticket header, `CONTEXT:` and the instructions, and nothing else |
| `Prompt.PromptShowsSnippet` | src/core/prompt.py:21-26 | every snippet's number `k + 1` (readable back as `k + 1`), id, title, section and quoted stripped text appear in the prompt |
| `Orchestrator.GenerateValidated` | src/core/orchestrator.py:42-55 | one or two model calls. The second happens exactly when the first output fails validation, and it uses the original messages plus the fix instruction. The result is the validation of the last output |
| `Orchestrator.GenerationOutcome` | src/core/orchestrator.py:45-55 | generation fails only when both the first and the retried outputs fail validation; a valid first output is never retried |
| `Orchestrator.LastDotUnique` | src/core/orchestrator.py:62 | a string has at most one last middle dot |
| `Orchestrator.RSplitTail` | src/core/orchestrator.py:62-63 | `rsplit("·", 1)` has two parts exactly when a middle dot occurs, and the tail is everything after the last one |
| `Orchestrator.GroundedSpec` | src/core/orchestrator.py:62-63 | a reference is kept exactly when the stripped text after its last middle dot is a retrieved snippet id |
| `Orchestrator.FilterReferences` | src/core/orchestrator.py:57-64 | the kept references are a subsequence of the model's, and a reference is kept iff it is grounded |
| `Orchestrator.FilterReferencesCounts` | src/core/orchestrator.py:60-64 | each grounded reference keeps its multiplicity; an ungrounded one disappears |
| `Orchestrator.FilterNothingAllowed` | src/core/orchestrator.py:58-64 | with no snippet ids, every reference is dropped |
| `Orchestrator.Fallback` | src/core/orchestrator.py:65-69 | formats `doc · section · id` for the first two snippets, or fewer when fewer exist, and fails on a snippet without a payload |
| `Orchestrator.GroundReferences` | src/core/orchestrator.py:57-69 | the grounded references when any survive, else the fallback |
| `Orchestrator.ReferencesNonEmptyIffSnippets` | src/core/orchestrator.py:57-69 | once every snippet has a payload, grounding succeeds, and its references are non-empty exactly when a snippet was retrieved |
| `Orchestrator.FallbackReferenceGrounded` | src/core/orchestrator.py:62-68 | a fallback reference built for a clean id would itself pass the filter |
| `Orchestrator.FilterKeepsGrounded` | src/core/orchestrator.py:60-64 | filtering an all-grounded list changes nothing |
| `Orchestrator.FallbackSurvivesFilter` | src/core/orchestrator.py:57-69 | for snippets with clean ids, the fallback references pass the filter unchanged |
| `Orchestrator.ResolveTicket` | src/core/orchestrator.py:29-79 | no model call and a `MissingPayload` fault for the first snippet without a payload. On success the prompt messages, the stripped answer, the rule-engine action and the grounded references are as described above |
| `Orchestrator.ResolveTicketSucceeds` | src/core/orchestrator.py:29-79 | with payloads present, a reply is produced exactly when the first or the retried output validates. Otherwise the fault is `InvalidOutput` after two calls. References are non-empty exactly when snippets were retrieved |
| `Orchestrator.ResolveTicketEnforcesSuspension` | src/core/orchestrator.py:72 | a ticket saying "suspended" is always escalated to the abuse team |
| `FileIngest.HashRun` | src/rag/file_ingest.py:11 | the leading `#` run is maximal |
| `FileIngest.MatchAfterHashes` | src/rag/file_ingest.py:11 | any match of the heading pattern uses the whole leading `#` run |
| `FileIngest.HeadingOfMatch` | src/rag/file_ingest.py:11 | whichever split the regex picks, the title is the stripped rest after the whitespace |
| `FileIngest.HeadingOfSpec` | src/rag/file_ingest.py:11 | a stripped line is a heading exactly when `^(#{1,6})\s+(.*)$` matches it |
| `FileIngest.HeadingTitleClean` | src/rag/file_ingest.py:47-50 | a heading title is non-empty and already stripped |
| `FileIngest.CleanPieces` | src/rag/file_ingest.py:42 | the kept pieces are non-empty, stripped paragraphs with no blank line |
| `FileIngest.Paragraphs` | src/rag/file_ingest.py:42 | every paragraph is non-empty, stripped and free of blank lines |
| `FileIngest.ParagraphsKeepWords` | src/rag/file_ingest.py:42 | paragraph splitting keeps exactly the words of the text, in order |
| `FileIngest.SingleParagraph` | src/rag/file_ingest.py:42 | a text with no blank line is one stripped paragraph |
| `FileIngest.GroupLines` | src/rag/file_ingest.py:39-53 | every group holds at least one non-heading line, and there is at most one group per heading plus one |
| `FileIngest.GroupLinesContent` | src/rag/file_ingest.py:39-53 | the groups hold exactly the non-heading lines, in order: heading lines are dropped, and no other line is lost or repeated |
| `FileIngest.GroupLinesTitles` | src/rag/file_ingest.py:36-50 | every group is titled by the starting title or by a heading read (which heading is `FileIngest.GroupLinesSplitAt`) |
| `FileIngest.GroupLinesNoHeading` | src/rag/file_ingest.py:39-53 | without headings, all lines form one group under the current title |
| `FileIngest.GroupLinesPlainPrefix` | src/rag/file_ingest.py:51-52 | non-heading lines are only buffered: reading them is the same as starting with them in the buffer |
| `FileIngest.GroupLinesSplitAt` | src/rag/file_ingest.py:46-52 | at a heading line the groups split: those of the lines before it, then those of the lines after it under the heading's title with an empty buffer |
| `FileIngest.HeadingBlock` | src/rag/file_ingest.py:46-53 | the non-heading lines that run up to the next heading (or the end) form one group under the current title |
| `FileIngest.SplitIntoSections` | src/rag/file_ingest.py:29-57 | there is always at least one section, and every section's paragraphs are non-empty, stripped and free of blank lines |
| `FileIngest.SectionTitles` | src/rag/file_ingest.py:36-56 | every section is titled "INTRO", "BODY" or a heading of the text |
| `FileIngest.SectionCount` | src/rag/file_ingest.py:46-53 | there are at most (number of heading lines + 1) sections |
| `FileIngest.SectionsFallback` | src/rag/file_ingest.py:54-56 | the "BODY" fallback applies exactly when the text has no non-heading line, and then splits the whole text |
| `FileIngest.SectionsSplitAt` | src/rag/file_ingest.py:46-53 | when the text has a non-heading line, a heading line splits the sections into those of the lines before it and those after it under its title |
| `FileIngest.IntroBeforeFirstHeading` | src/rag/file_ingest.py:36-53 | non-heading lines before the first heading form the first section, titled "INTRO", and the sections after it start under that heading's title |
| `FileIngest.SectionUnderHeading` | src/rag/file_ingest.py:46-53 | the non-heading lines between a heading and the next heading (or the end) form one section titled by that heading, placed between the sections before and after it |
| `FileIngest.NoHeadingsOneIntro` | src/rag/file_ingest.py:34-53 | a non-empty text without headings is a single "INTRO" section |
| `FileIngest.SectionsKeepWords` | src/rag/file_ingest.py:29-57 | the sections keep exactly the words of the non-heading lines (or, in the fallback, of the whole text), in order |
| `FileIngest.PySuffix` | src/rag/file_ingest.py:70 | `xs[a:]` as Python evaluates it for every integer `a`, negative included |
| `FileIngest.CarryIntended` | src/rag/file_ingest.py:69-71 | the intended overlap is the last `min(overlap, n)` words, and none for a non-positive overlap |
| `FileIngest.CarryAsWrittenNonPositive` | src/rag/file_ingest.py:70 | as written, `[-0:]` carries the whole chunk |
| `FileIngest.CarryAgrees` | src/rag/file_ingest.py:70 | for positive overlap, the code and the intended rule agree |
| `FileIngest.StepCuts` | src/rag/file_ingest.py:65-73 | a chunk is cut exactly when the buffer is non-empty and its word count plus the paragraph's passes the target; the cut chunk is the buffer joined by spaces |
| `FileIngest.CutCarriesOverlap` | src/rag/file_ingest.py:67-72 | after a cut the buffer's words are the carried words of the cut chunk followed by the paragraph's words |
| `FileIngest.ChunkCount` | src/rag/file_ingest.py:59-76 | no paragraphs give no chunks; otherwise between one chunk and one chunk per paragraph |
| `FileIngest.ChunksCoverParagraphs` | src/rag/file_ingest.py:59-76 | every paragraph appears inside some chunk (which chunk, in order, is `FileIngest.ChunkAtHome`) |
| `FileIngest.FeedAppend` | src/rag/file_ingest.py:65-73 | running the loop over two lists in turn is running it over their concatenation |
| `FileIngest.HomeFirst` | src/rag/file_ingest.py:63-73 | the first paragraph goes into the first chunk |
| `FileIngest.HomeStep` | src/rag/file_ingest.py:65-73 | each next paragraph goes into the same chunk as the previous one or into the next chunk, never further |
| `FileIngest.HomeMonotone` | src/rag/file_ingest.py:65-73 | a later paragraph never goes into an earlier chunk |
| `FileIngest.ChunkAtHome` | src/rag/file_ingest.py:59-76 | paragraph `i` lies, whole, inside the chunk it was buffered for, and that chunk exists |
| `FileIngest.HomeLast` | src/rag/file_ingest.py:59-76 | the last paragraph goes into the last chunk, so with the first two every chunk receives a paragraph |
| `FileIngest.NoOverlapKeepsWords` | src/rag/file_ingest.py:59-76 | without overlap, the chunks hold every word of the paragraphs once, in order |
| `FileIngest.ChunkRulesAgree` | src/rag/file_ingest.py:59-76 | for positive overlap (the default is 80), the chunker as written equals the corrected one |
| `FileIngest.AsWrittenZeroRepeatsChunk` | src/rag/file_ingest.py:67-72 | as written with overlap 0, every cut carries the whole cut chunk into the next one |
| `FileIngest.ZeroOverlapExample` | src/rag/file_ingest.py:59-76 | paragraphs ["a b", "c"], target 2, overlap 0: as written gives ["a b", "a b c"], intended gives ["a b", "c"] |
| `FileIngest.AnchorIdNumber` | src/rag/file_ingest.py:92 | `para-{n:04d}` starts with `para-`, has at least four digits and reads back as `n` |
| `FileIngest.AnchorIdInjective` | src/rag/file_ingest.py:92 | distinct counters give distinct anchors |
| `FileIngest.SectionPayloadsDescribe` | src/rag/file_ingest.py:91-105 | a section's payloads describe its chunks in order, numbered consecutively from the counter |
| `FileIngest.PayloadsFromDescribe` | src/rag/file_ingest.py:90-105 | payload `k` carries the `k`-th (section title, chunk) pair, with anchor `para-` and `counter + k`, and `ref_id` = `doc_id-anchor` |
| `FileIngest.BuildPayloadsNumbering` | src/rag/file_ingest.py:81-106 | the payloads describe all chunks of all sections, in order, numbered from 1 |
| `FileIngest.BuildPayloadsDistinct` | src/rag/file_ingest.py:88-105 | no two payloads of one file share an anchor or a `ref_id` |
| `FileIngest.PiecesEmpty` | src/rag/file_ingest.py:90-91 | a file yields no payloads exactly when every section has no paragraphs |

## Left out

- The BM25Okapi formula (`rank_bm25`): it is the abstract `Scorer`. Only the ordering and selection that `search` performs on its scores are modelled.
- Query embedding, the Qdrant search with its filters, and the vector fetch with `np.dot` are left out. They become the parameters `semSearch` and `VectorSimilarity` of `MergedRetriever.SearchMerged`.
- Scores are modelled as `real`, not 32/64-bit floats. Rounding in `_minmax_norm` and in `float32` dot products is not modelled.
- The OpenAI client (`_call_llm`) and pydantic's `model_validate_json` are abstract functions (`Llm`, `Validator`). Only the JSON schema's action set is modelled. In the source, a second validation failure raises; here it is the fault `InvalidOutput`.
- `_pick_snippets` is the abstract `Retriever` parameter of `Orchestrator.ResolveTicket`, so that the orchestration can be stated for any retrieval result. Its fixed `alpha=0.7` and empty filters are not modelled separately.
- `lower()` and `str.isspace` use ASCII case folding and the Python whitespace set. Python's full Unicode case mapping, and the extra characters `re.I` folds (the Kelvin sign, dotless i), are not modelled. `\b` treats ASCII letters, digits and `_` as word characters.
- File reading (`_read_text_from_file`: Markdown, HTML through BeautifulSoup, PDF through pdfminer) is not part of this model. `FileIngest.BuildPayloads` takes the text directly.
- `uuid.uuid4()` and the file stem become the `docId` and `docTitle` parameters. The `product`, `lang`, `source_path` and `updated_at` payload fields (clock and configuration) are left out.
- `ingest_file`, `ingest_folder` and the Qdrant upsert are left out: they are I/O and embedding calls around the payloads modelled here.
- `output_schema_hint` only returns the constant; `Prompt.SchemaHint` models the constant.
- `FileIngest.NoHeadingsOneIntro`: the precondition reads "`splitlines` yields at least one line, none of them a heading", rather than "the text is non-empty". The two agree, because `splitlines` of a non-empty string is non-empty.
- `FileIngest.SectionsKeepWords`: states word preservation. Exact whitespace inside a paragraph is given by `FileIngest.Paragraphs`.
- `Bm25Store.Search`: the source converts scores with `float(...)`; the model carries the real score unchanged.
- `Hits.Payload`: a payload whose `doc` key is present with the value `None` cannot be represented; a key is either absent (`None` here) or holds a string. In the source such a payload makes `src/core/actions.py:26` raise `AttributeError` on `None.lower()`, and `src/core/prompt.py:24` render the title `None`.

## Findings

| source | as written | input that shows it | evidently intended | confidence | as-written member | corrected member |
|---|---|---|---|---|---|---|
| src/rag/file_ingest.py:70-71 | `" ".join(buf).split()[-overlap_tokens:]` with `overlap_tokens == 0` is `[-0:]`, which is the whole list, so the entire previous chunk is carried into the next | `_chunk_paragraphs(["a b", "c"], target_tokens=2, overlap_tokens=0)` returns `["a b", "a b c"]` | no overlap: `["a b", "c"]`, each word in exactly one chunk | not executed | `FileIngest.ZeroOverlapExample` (with `FileIngest.AsWrittenZeroRepeatsChunk` on `FileIngest.ChunkParagraphsAsWritten`) | `FileIngest.NoOverlapKeepsWords` (on `FileIngest.ChunkParagraphs`, which `FileIngest.BuildPayloads` uses) |

=== FILE: actions.dfy ===
/** The action rule engine (`enforce_action`): a closed, ordered,
    first-match-wins policy over the ticket text, the titles of the retrieved
    snippets and the action the language model suggested. */
module Actions {
  import opened Wrappers
  import opened Strings
  import opened Hits

  /** The five values of the `Action` literal type. */
  datatype Action =
    | NoEscalationNeeded
    | RequestMoreInformation
    | EscalateToAbuseTeam
    | EscalateToBillingTeam
    | EscalateToSupportLevel2

  function Name(a: Action): string {
    match a
    case NoEscalationNeeded => "no_escalation_needed"
    case RequestMoreInformation => "request_more_information"
    case EscalateToAbuseTeam => "escalate_to_abuse_team"
    case EscalateToBillingTeam => "escalate_to_billing_team"
    case EscalateToSupportLevel2 => "escalate_to_support_level_2"
  }

  const AllActions: seq<Action> :=
    [NoEscalationNeeded, RequestMoreInformation, EscalateToAbuseTeam, EscalateToBillingTeam, EscalateToSupportLevel2]

  /** The wire names of the actions, in declaration order. */
  const ActionNames: seq<string> := [
    "no_escalation_needed", "request_more_information", "escalate_to_abuse_team",
    "escalate_to_billing_team", "escalate_to_support_level_2"
  ]

  /** Reading an action back from its wire name. */
  function FromName(s: string): (r: Option<Action>)
    ensures r.Some? <==> s in ActionNames
    ensures r.Some? ==> Name(r.value) == s
  {
    if s == "no_escalation_needed" then Some(NoEscalationNeeded)
    else if s == "request_more_information" then Some(RequestMoreInformation)
    else if s == "escalate_to_abuse_team" then Some(EscalateToAbuseTeam)
    else if s == "escalate_to_billing_team" then Some(EscalateToBillingTeam)
    else if s == "escalate_to_support_level_2" then Some(EscalateToSupportLevel2)
    else None
  }

  /** Names and actions are in one-to-one correspondence. */
  lemma NameRoundTrip(a: Action)
    ensures FromName(Name(a)) == Some(a)
    ensures Name(a) in ActionNames
    ensures a in AllActions
  {
  }

  lemma ActionNamesAreNames()
    ensures |ActionNames| == |AllActions|
    ensures forall k :: 0 <= k < |AllActions| ==> ActionNames[k] == Name(AllActions[k])
  {
  }

  lemma NamesHaveNoSpace()
    ensures forall k, j :: 0 <= k < |ActionNames| && 0 <= j < |ActionNames[k]| ==> ActionNames[k][j] != ' '
  {
  }

  // ---------------------------------------------------------------------------
  // Whole-word keyword search (`\b(w1|w2|...)\b`)
  // ---------------------------------------------------------------------------

  /** The regex word characters, restricted to ASCII: letters, digits and `_`. */
  predicate IsWordChar(c: char) {
    ('a' <= c <= 'z') || ('A' <= c <= 'Z') || ('0' <= c <= '9') || c == '_'
  }

  /** `w` occurs at `i` with a word boundary on each side. Every keyword begins
      and ends with a word character, so `\b` there means "no word character
      next to it". */
  predicate WholeWordAt(s: string, w: string, i: int) {
    && OccursAt(s, w, i)
    && (i == 0 || !IsWordChar(s[i - 1]))
    && (i + |w| == |s| || !IsWordChar(s[i + |w|]))
  }

  ghost predicate HasWholeWord(s: string, w: string) {
    exists i :: WholeWordAt(s, w, i)
  }

  /** Some keyword of `ws` occurs in `s` as a whole word. */
  ghost predicate MentionsAny(s: string, ws: seq<string>) {
    exists k :: 0 <= k < |ws| && HasWholeWord(s, ws[k])
  }

  /** Left-to-right scan for a whole-word occurrence at or after `from`. */
  function WordFrom(s: string, w: string, from: nat): (b: bool)
    ensures b <==> exists i :: from <= i && WholeWordAt(s, w, i)
    decreases |s| - from
  {
    if from + |w| > |s| then false
    else if WholeWordAt(s, w, from) then true
    else
      var b := WordFrom(s, w, from + 1);
      assert b ==> exists i :: from <= i && WholeWordAt(s, w, i);
      assert (exists i :: from <= i && WholeWordAt(s, w, i)) ==> b by {
        forall i | from <= i && WholeWordAt(s, w, i) ensures b {
          assert i != from;
        }
      }
      b
  }

  /** The regex search: does any alternative of `ws` occur as a whole word? */
  function SearchWords(s: string, ws: seq<string>): (b: bool)
    ensures b <==> MentionsAny(s, ws)
  {
    if |ws| == 0 then false
    else
      var b := WordFrom(s, ws[0], 0) || SearchWords(s, ws[1..]);
      assert MentionsAny(s, ws) <==> HasWholeWord(s, ws[0]) || MentionsAny(s, ws[1..]) by {
        if MentionsAny(s, ws) {
          var k :| 0 <= k < |ws| && HasWholeWord(s, ws[k]);
          if k > 0 {
            assert ws[1..][k - 1] == ws[k];
          }
        }
        if MentionsAny(s, ws[1..]) {
          var k :| 0 <= k < |ws[1..]| && HasWholeWord(s, ws[1..][k]);
          assert ws[k + 1] == ws[1..][k];
        }
      }
      b
  }

  const SuspendWords: seq<string> := ["suspend", "suspension", "suspended"]
  const AbuseWords: seq<string> := ["abuse", "malware", "phishing", "spam", "fraud"]
  const BillingWords: seq<string> := ["billing", "refund", "chargeback", "invoice"]
  const IdentityWords: seq<string> := ["verification", "ownership", "identity", "id check"]

  // ---------------------------------------------------------------------------
  // The rules
  // ---------------------------------------------------------------------------

  /** `(sn.get("payload") or {}).get("doc", "")`: a missing payload or title is "". */
  function SnippetTitle(h: FusedHit): string {
    match h.payload
    case None => ""
    case Some(p) => p.doc.GetOr("")
  }

  /** Rule 2's test on one title: a plain substring test, not a whole-word one. */
  function TitleFlagged(h: FusedHit): (b: bool)
    ensures b <==> Contains(Lower(SnippetTitle(h)), "suspension") || Contains(Lower(SnippetTitle(h)), "abuse")
  {
    var title := Lower(SnippetTitle(h));
    HasSubstring(title, "suspension") || HasSubstring(title, "abuse")
  }

  /** A snippet without a payload, or without a title, never triggers rule 2. */
  lemma UntitledNotFlagged(h: FusedHit)
    requires h.payload.None? || h.payload.value.doc.None?
    ensures !TitleFlagged(h)
  {
    assert Lower(SnippetTitle(h)) == [];
    assert !OccursAt([], "abuse", 0);
  }

  /** Rule 1 on the lower-cased ticket. */
  ghost predicate AbuseRule(text: string) {
    MentionsAny(text, SuspendWords) || MentionsAny(text, AbuseWords)
  }

  ghost predicate TitleRule(snippets: seq<FusedHit>) {
    exists k :: 0 <= k < |snippets| && TitleFlagged(snippets[k])
  }

  /** `enforce_action(ticket_text, snippets, llm_action)`: the first rule that
      fires decides; with none firing, the model's action stands, and an empty
      one falls back to `no_escalation_needed`. */
  function EnforceAction(ticket: string, snippets: seq<FusedHit>, llm: string): (a: string)
    ensures AbuseRule(Lower(ticket)) ==> a == Name(EscalateToAbuseTeam)
    ensures !AbuseRule(Lower(ticket)) && TitleRule(snippets) ==> a == Name(EscalateToAbuseTeam)
    ensures (!AbuseRule(Lower(ticket)) && !TitleRule(snippets) && MentionsAny(Lower(ticket), BillingWords)) ==>
              a == Name(EscalateToBillingTeam)
    ensures (&& !AbuseRule(Lower(ticket)) && !TitleRule(snippets) && !MentionsAny(Lower(ticket), BillingWords)
             && MentionsAny(Lower(ticket), IdentityWords)) ==> a == Name(EscalateToSupportLevel2)
    ensures (&& !AbuseRule(Lower(ticket)) && !TitleRule(snippets) && !MentionsAny(Lower(ticket), BillingWords)
             && !MentionsAny(Lower(ticket), IdentityWords)) ==> a == if llm == "" then Name(NoEscalationNeeded) else llm
  {
    var text := Lower(ticket);
    if SearchWords(text, SuspendWords) || SearchWords(text, AbuseWords) then Name(EscalateToAbuseTeam)
    else if exists k :: 0 <= k < |snippets| && TitleFlagged(snippets[k]) then Name(EscalateToAbuseTeam)
    else if SearchWords(text, BillingWords) then Name(EscalateToBillingTeam)
    else if SearchWords(text, IdentityWords) then Name(EscalateToSupportLevel2)
    else if llm == "" then Name(NoEscalationNeeded)
    else llm
  }

  /** Closure: a valid or empty model action always yields one of the five actions. */
  lemma EnforceActionClosed(ticket: string, snippets: seq<FusedHit>, llm: string)
    requires llm in ActionNames || llm == ""
    ensures EnforceAction(ticket, snippets, llm) in ActionNames
  {
  }

  /** The rules see the ticket only through its lower-cased form. */
  lemma EnforceActionCaseInsensitive(ticket: string, snippets: seq<FusedHit>, llm: string)
    ensures EnforceAction(Lower(ticket), snippets, llm) == EnforceAction(ticket, snippets, llm)
  {
    LowerIdempotent(ticket);
  }

  /** The model's suggestion matters only when no rule fires. */
  lemma ModelActionOnlyWhenNoRule(ticket: string, snippets: seq<FusedHit>, llm1: string, llm2: string)
    requires EnforceAction(ticket, snippets, llm1) != EnforceAction(ticket, snippets, llm2)
    ensures !AbuseRule(Lower(ticket)) && !TitleRule(snippets)
    ensures !MentionsAny(Lower(ticket), BillingWords) && !MentionsAny(Lower(ticket), IdentityWords)
  {
  }

  /** A whole-word suspension keyword in the ticket, in any letter case, wins
      over every other rule, the snippets and the model. */
  lemma SuspensionWins(ticket: string, snippets: seq<FusedHit>, llm: string, k: nat)
    requires k < |SuspendWords| && HasWholeWord(Lower(ticket), SuspendWords[k])
    ensures EnforceAction(ticket, snippets, llm) == "escalate_to_abuse_team"
  {
  }

  /** Precedence of rule 1 over rule 3: "suspended" and "invoice" together give
      the abuse team, not billing. */
  lemma SuspendedBeatsInvoice(ticket: string, snippets: seq<FusedHit>, llm: string)
    requires HasWholeWord(Lower(ticket), "suspended") && HasWholeWord(Lower(ticket), "invoice")
    ensures MentionsAny(Lower(ticket), BillingWords)
    ensures EnforceAction(ticket, snippets, llm) == "escalate_to_abuse_team"
  {
    assert SuspendWords[2] == "suspended";
    assert BillingWords[3] == "invoice";
  }

  /** A lower-case keyword written between a space and a space is found as a
      whole word, whatever the case of the text around it. */
  lemma WordBetweenSpaces(a: string, w: string, b: string)
    requires |a| > 0 && a[|a| - 1] == ' ' && NoUpper(w)
    ensures HasWholeWord(Lower(a + w + " " + b), w)
  {
    var t := a + w + " " + b;
    var lt := Lower(t);
    var i := |a|;
    assert t[i..i + |w|] == w;
    assert lt[i..i + |w|] == w;
    assert lt[i - 1] == ' ' && lt[i + |w|] == ' ';
    assert WholeWordAt(lt, w, i);
  }

  /** The ticket of the service's end-to-end test ("My domain was suspended and
      I didn't get any notice. ...") is sent to the abuse team, and so is every
      ticket that opens the same way, whatever was retrieved and whatever the
      model suggested. */
  lemma ExampleSuspendedTicket(rest: string, snippets: seq<FusedHit>, llm: string)
    ensures EnforceAction("My domain was suspended " + rest, snippets, llm) == "escalate_to_abuse_team"
  {
    var head, w := "My domain was ", "suspended";
    assert head + w + " " + rest == "My domain was suspended " + rest;
    WordBetweenSpaces(head, w, rest);
    SuspensionWins(head + w + " " + rest, snippets, llm, 2);
  }
}

=== FILE: bm25_store.dfy ===
/** The in-memory lexical index: tokenisation and the `ids` / `docs_tokens`
    bookkeeping of `BM25Store`, with top-k selection over scores produced by an
    uninterpreted BM25 scorer. */
module Bm25Store {
  import opened Strings
  import opened Runs
  import opened Ranking
  import opened Hits

  /** The characters of the token pattern `[a-z0-9]` once the text is lower-cased. */
  predicate IsTokenChar(c: char) {
    ('a' <= c <= 'z') || ('0' <= c <= '9')
  }

  /** `_tok`: lower-case, then the maximal runs of token characters. */
  function Tok(s: string): (r: seq<string>)
    ensures forall k :: 0 <= k < |r| ==> |r[k]| > 0 && AllIn(r[k], IsTokenChar)
  {
    MaxRuns(Lower(s), IsTokenChar)
  }

  /** The tokens, glued together, are exactly the token characters of the
      lower-cased text, in order. */
  lemma TokContent(s: string)
    ensures Concat(Tok(s)) == Keep(Lower(s), IsTokenChar)
  {
    MaxRunsContent(Lower(s), IsTokenChar);
  }

  /** Tokenisation ignores case. */
  lemma TokCaseInsensitive(s: string)
    ensures Tok(Lower(s)) == Tok(s)
  {
    LowerIdempotent(s);
  }

  /** Re-tokenising the space-joined tokens gives the same tokens. */
  lemma TokRoundTrip(s: string)
    ensures Tok(JoinSp(Tok(s))) == Tok(s)
  {
    var ts := Tok(s);
    var j := JoinSp(ts);
    JoinNoUpper(ts);
    LowerFixesNoUpper(j);
    MaxRunsOfJoin(ts, ' ', IsTokenChar);
  }

  /** Tokens never span a separator: a character that is not a token
      character once lower-cased splits the text into two independently
      tokenised halves. */
  lemma TokSplitAt(a: string, c: char, b: string)
    requires !IsTokenChar(LowerChar(c))
    ensures Tok(a + [c] + b) == Tok(a) + Tok(b)
  {
    assert Lower(a + [c] + b) == Lower(a) + [LowerChar(c)] + Lower(b);
    MaxRunsSplitAt(Lower(a), LowerChar(c), Lower(b), IsTokenChar);
  }

  /** An unbroken block of token characters is one token, never several. */
  lemma TokBlock(t: string)
    requires |t| > 0 && AllIn(Lower(t), IsTokenChar)
    ensures Tok(t) == [Lower(t)]
  {
    var x := Lower(t);
    assert x + [] == x;
    RunsFromBlock(x, [], IsTokenChar, []);
    assert [] + x == x;
  }

  lemma {:induction false} JoinNoUpper(ts: seq<string>)
    requires forall k :: 0 <= k < |ts| ==> AllIn(ts[k], IsTokenChar)
    ensures NoUpper(JoinSp(ts))
  {
    if |ts| > 1 {
      JoinNoUpper(ts[1..]);
      assert JoinSp(ts) == ts[0] + " " + JoinSp(ts[1..]);
    }
  }

  /** `BM25Store`: `ids[i]` names the document whose tokens are
      `docsTokens[i]`; `indexed` records whether a `BM25Okapi` object exists. */
  datatype Store = Store(ids: seq<string>, docsTokens: seq<seq<string>>, indexed: bool)

  predicate Aligned(st: Store) {
    |st.ids| == |st.docsTokens|
  }

  /** `BM25Store()`: empty lists and no index. */
  function NewStore(): (st: Store)
    ensures Aligned(st) && !st.indexed && |st.ids| == 0
  {
    Store([], [], false)
  }

  /** `build(items)`: replaces both lists from `items`; the index object is
      rebuilt only when there is at least one document, otherwise the old one
      (if any) is kept. */
  function Build(st: Store, items: seq<(string, string)>): (r: Store)
    ensures Aligned(r)
    ensures |r.ids| == |items|
    ensures forall i :: 0 <= i < |items| ==> r.ids[i] == items[i].0 && r.docsTokens[i] == Tok(items[i].1)
    ensures r.indexed <==> |items| > 0 || st.indexed
  {
    Store(seq(|items|, i requires 0 <= i < |items| => items[i].0),
          seq(|items|, i requires 0 <= i < |items| => Tok(items[i].1)),
          |items| > 0 || st.indexed)
  }

  /** `add(_id, text)`: appends one document and rebuilds the index. */
  function Add(st: Store, id: string, text: string): (r: Store)
    ensures Aligned(st) ==> Aligned(r)
    ensures r.indexed
    ensures |r.ids| == |st.ids| + 1 && r.ids[..|st.ids|] == st.ids && r.ids[|st.ids|] == id
    ensures |r.docsTokens| == |st.docsTokens| + 1 && r.docsTokens[..|st.docsTokens|] == st.docsTokens
    ensures r.docsTokens[|st.docsTokens|] == Tok(text)
  {
    Store(st.ids + [id], st.docsTokens + [Tok(text)], true)
  }

  /** Adding one item after a build gives the same lists as building with the
      item appended: incremental insertion agrees with a full rebuild. */
  lemma AddAfterBuild(st: Store, items: seq<(string, string)>, id: string, text: string)
    ensures Add(Build(st, items), id, text) == Build(st, items + [(id, text)])
  {
  }

  /** Score of document `i` for a tokenised query over the whole corpus; the
      BM25 formula of `rank_bm25` is left uninterpreted. */
  type Scorer = (seq<seq<string>>, seq<string>, nat) -> real

  function Scores(st: Store, score: Scorer, query: string): (r: seq<real>)
    ensures |r| == |st.docsTokens|
  {
    var q := Tok(query);
    seq(|st.docsTokens|, i requires 0 <= i < |st.docsTokens| => score(st.docsTokens, q, i))
  }

  /** The document indices `search` reports: `sorted(range(n), key=score,
      reverse=True)[:top_k]`, or nothing before any index exists or when the
      store is empty. The sort is stable, so equal scores come out in
      ascending index order, also across the cut. */
  function SearchIndices(st: Store, score: Scorer, query: string, topK: int): (idxs: seq<nat>)
    requires Aligned(st)
    ensures !st.indexed || |st.ids| == 0 ==> idxs == []
    ensures forall k :: 0 <= k < |idxs| ==> idxs[k] < |st.ids|
    ensures forall k, l :: 0 <= k < l < |idxs| ==> idxs[k] != idxs[l]
    ensures topK >= 0 && st.indexed ==> |idxs| == if topK < |st.ids| then topK else |st.ids|
    ensures topK < 0 ==> |idxs| <= |st.ids|
    ensures topK < 0 && st.indexed ==> |idxs| == if |st.ids| + topK > 0 then |st.ids| + topK else 0
    ensures var sc := Scores(st, score, query);
            && (forall k, l :: 0 <= k < l < |idxs| ==> sc[idxs[k]] >= sc[idxs[l]] && Before(sc, idxs[k], idxs[l]))
            && (forall k, j :: 0 <= k < |idxs| && 0 <= j < |st.ids| && j !in idxs ==>
                  sc[j] <= sc[idxs[k]] && Before(sc, idxs[k], j))
  {
    if !st.indexed || |st.ids| == 0 then []
    else
      var scores := Scores(st, score, query);
      RankedPrefix(scores, topK);
      PyPrefix(RankDesc(scores), topK)
  }

  /** `search(query, top_k)`: at most `top_k` hits (for non-negative `top_k`)
      at distinct documents, best first, each naming a stored id. */
  function Search(st: Store, score: Scorer, query: string, topK: int): (r: seq<LexHit>)
    requires Aligned(st)
    ensures !st.indexed || |st.ids| == 0 ==> r == []
    ensures topK >= 0 ==> |r| <= topK
    ensures forall k :: 0 <= k < |r| ==> r[k].id in st.ids
    ensures forall k, l :: 0 <= k < l < |r| ==> r[k].bm25 >= r[l].bm25
    ensures |r| == |SearchIndices(st, score, query, topK)|
    ensures forall k :: 0 <= k < |r| ==>
              var i := SearchIndices(st, score, query, topK)[k];
              r[k] == LexHit(st.ids[i], Scores(st, score, query)[i])
  {
    var idxs := SearchIndices(st, score, query, topK);
    var scores := Scores(st, score, query);
    seq(|idxs|, k requires 0 <= k < |idxs| => LexHit(st.ids[idxs[k]], scores[idxs[k]]))
  }
}

=== FILE: file_ingest.dfy ===
/** Document ingestion: splitting a text into titled sections of paragraphs
    (`_split_into_sections`), packing paragraphs into overlapping word-count
    chunks (`_chunk_paragraphs`) and numbering the chunks into payloads
    (`build_payloads_from_file`). */
module FileIngest {
  import opened Wrappers
  import opened Strings
  import opened Runs
  import opened Numerals

  // ---------------------------------------------------------------------------
  // Markdown headings (`^(#{1,6})\s+(.*)$` on the stripped line)
  // ---------------------------------------------------------------------------

  /** Length of the run of `#` that opens `s`. */
  function HashRun(s: string): (n: nat)
    ensures n <= |s|
    ensures forall j :: 0 <= j < n ==> s[j] == '#'
    ensures n == |s| || s[n] != '#'
  {
    if |s| == 0 || s[0] != '#' then 0 else 1 + HashRun(s[1..])
  }

  /** The title carried by an already stripped line, if it is a heading. */
  function HeadingOf(st: string): Option<string> {
    if IsHeadingLine(st) then Some(Strip(st[HashRun(st)..])) else None
  }

  /** One to six hashes, then a whitespace character. */
  predicate IsHeadingLine(st: string) {
    var n := HashRun(st);
    1 <= n <= 6 && n < |st| && IsSpace(st[n])
  }

  /** The title of a heading line, or None for an ordinary line. */
  function HeadingTitle(line: string): Option<string> {
    HeadingOf(Strip(line))
  }

  /** One way the heading pattern can match the stripped line `st`: `k` hashes
      (the first group) followed by the whitespace `st[k..j]`; the second group
      is then `st[j..]`. Lines from `splitlines()` hold no newline, so `.*$`
      accepts any rest. */
  ghost predicate HeadingMatch(st: string, k: int, j: int) {
    && 1 <= k <= 6 && k < j <= |st|
    && (forall i :: 0 <= i < k ==> st[i] == '#')
    && AllSpace(st[k..j])
  }

  /** Any match starts its whitespace right after the run of hashes. */
  lemma MatchAfterHashes(st: string, k: int, j: int)
    requires HeadingMatch(st, k, j)
    ensures k == HashRun(st)
  {
    assert IsSpace(st[k..j][0]);
    assert !IsSpace('#');
  }

  /** Where the whitespace of a match ends does not change the title: the
      scan's title is the stripped second group of every match. */
  lemma HeadingOfMatch(st: string, k: int, j: int)
    requires HeadingMatch(st, k, j)
    ensures HeadingOf(st) == Some(Strip(st[j..]))
  {
    MatchAfterHashes(st, k, j);
    var rest := st[k..];
    assert rest[..j - k] == st[k..j];
    StripSkipSpaces(rest, j - k);
    assert rest[j - k..] == st[j..];
    assert IsSpace(st[k]) by { assert st[k..j][0] == st[k]; }
    assert HeadingOf(st) == Some(Strip(rest));
  }

  /** When the scan accepts, the hashes and the one character after them
      already form a match. */
  lemma HeadingOfShortMatch(st: string)
    requires IsHeadingLine(st)
    ensures HeadingMatch(st, HashRun(st), HashRun(st) + 1)
  {
    var n := HashRun(st);
    var sp := st[n..n + 1];
    assert sp[0] == st[n];
    assert AllSpace(sp);
  }

  /** The scan agrees with the pattern: a stripped line is a heading exactly
      when the pattern matches it. */
  lemma HeadingOfSpec(st: string)
    ensures HeadingOf(st).Some? <==> exists k, j :: HeadingMatch(st, k, j)
  {
    if HeadingOf(st).Some? {
      HeadingOfShortMatch(st);
    } else if exists k, j :: HeadingMatch(st, k, j) {
      var k, j :| HeadingMatch(st, k, j);
      HeadingOfMatch(st, k, j);
    }
  }

  /** A heading title is never blank and carries no edge whitespace. */
  lemma HeadingTitleClean(line: string)
    requires HeadingTitle(line).Some?
    ensures |HeadingTitle(line).value| > 0
    ensures Strip(HeadingTitle(line).value) == HeadingTitle(line).value
  {
    var st := Strip(line);
    var n := HashRun(st);
    assert n < |st|;
    var rest := st[n..];
    assert HeadingTitle(line) == Some(Strip(rest));
    assert rest[|rest| - 1] == st[|st| - 1];
    StripKeepsLast(rest);
    StripIdempotent(rest);
  }

  // ---------------------------------------------------------------------------
  // Paragraphs (`[p.strip() for p in s.split("\n\n") if p.strip()]`)
  // ---------------------------------------------------------------------------

  /** A paragraph as the splitter leaves it: non-blank, stripped, and free of
      the blank-line separator. */
  ghost predicate IsParagraph(p: string) {
    |p| > 0 && Strip(p) == p && !Contains(p, "\n\n")
  }

  /** Strip every piece and drop the blank ones. */
  function CleanPieces(pieces: seq<string>): (ps: seq<string>)
    requires forall k :: 0 <= k < |pieces| ==> !Contains(pieces[k], "\n\n")
    ensures |ps| <= |pieces|
    ensures forall k :: 0 <= k < |ps| ==> IsParagraph(ps[k])
  {
    if |pieces| == 0 then []
    else
      var p := Strip(pieces[0]);
      var rest := CleanPieces(pieces[1..]);
      if |p| > 0 then
        StrippedPiece(pieces[0]);
        [p] + rest
      else rest
  }

  lemma StrippedPiece(piece: string)
    requires !Contains(piece, "\n\n") && |Strip(piece)| > 0
    ensures IsParagraph(Strip(piece))
  {
    StripIdempotent(piece);
    StripSlice(piece);
    SubstringLacks(piece, Strip(piece), LeadingSpaces(piece), "\n\n");
  }

  function Paragraphs(s: string): (ps: seq<string>)
    ensures forall k :: 0 <= k < |ps| ==> IsParagraph(ps[k])
  {
    CleanPieces(Split(s, "\n\n"))
  }

  /** Stripping and dropping blank pieces loses no word. */
  lemma {:induction false} CleanPiecesKeepWords(pieces: seq<string>)
    requires forall k :: 0 <= k < |pieces| ==> !Contains(pieces[k], "\n\n")
    ensures FlattenWords(CleanPieces(pieces)) == FlattenWords(pieces)
  {
    if |pieces| > 0 {
      var p := Strip(pieces[0]);
      var rest := CleanPieces(pieces[1..]);
      CleanPiecesKeepWords(pieces[1..]);
      WordsOfStrip(pieces[0]);
      assert FlattenWords(pieces) == Words(pieces[0]) + FlattenWords(pieces[1..]);
      if |p| > 0 {
        assert CleanPieces(pieces) == [p] + rest;
        assert FlattenWords([p] + rest) == Words(p) + FlattenWords(rest);
      } else {
        assert CleanPieces(pieces) == rest;
        WordsOfEmpty();
      }
    }
  }

  /** Paragraph splitting neither loses nor invents words: the paragraphs'
      words, in order, are the words of the text. */
  lemma ParagraphsKeepWords(s: string)
    ensures FlattenWords(Paragraphs(s)) == Words(s)
  {
    var pieces := Split(s, "\n\n");
    calc {
      FlattenWords(Paragraphs(s));
      { CleanPiecesKeepWords(pieces); }
      FlattenWords(pieces);
      { assert AllSpace("\n\n"); WordsOfSpacedJoin(pieces, "\n\n"); }
      Words(Join(pieces, "\n\n"));
      { SplitJoin(s, "\n\n"); }
      Words(s);
    }
  }

  /** A text without a blank line in it, and not blank itself, is one paragraph. */
  lemma SingleParagraph(s: string)
    requires !Contains(s, "\n\n") && Strip(s) != []
    ensures Paragraphs(s) == [Strip(s)]
  {
    assert FindFrom(s, "\n\n", 0).None?;
  }

  // ---------------------------------------------------------------------------
  // Sections
  // ---------------------------------------------------------------------------

  /** The lines collected under one title before they are cut into paragraphs. */
  datatype Group = Group(title: string, lines: seq<string>)

  datatype Section = Section(title: string, paragraphs: seq<string>)

  /** Recognises heading lines and yields their titles; the service uses
      `HeadingTitle`, and the grouping below holds for any recogniser. */
  type Classifier = string -> Option<string>

  predicate IsPlain(heading: Classifier, line: string) {
    heading(line).None?
  }

  predicate AllPlain(heading: Classifier, lines: seq<string>) {
    forall j :: 0 <= j < |lines| ==> IsPlain(heading, lines[j])
  }

  /** The non-heading lines, in order. */
  function Plain(heading: Classifier, lines: seq<string>): seq<string> {
    if |lines| == 0 then []
    else (if IsPlain(heading, lines[0]) then [lines[0]] else []) + Plain(heading, lines[1..])
  }

  function HeadingCount(heading: Classifier, lines: seq<string>): nat {
    if |lines| == 0 then 0 else (if IsPlain(heading, lines[0]) then 0 else 1) + HeadingCount(heading, lines[1..])
  }

  /** `flush()`: an empty buffer emits nothing. */
  function FlushGroup(title: string, buf: seq<string>): seq<Group> {
    if |buf| > 0 then [Group(title, buf)] else []
  }

  /** The loop of `_split_into_sections` over the lines still to read, with the
      current title and buffer: a heading flushes the buffer and becomes the
      title, any other line is buffered, and the end flushes once more. */
  function GroupLines(heading: Classifier, lines: seq<string>, title: string, buf: seq<string>): (gs: seq<Group>)
    requires AllPlain(heading, buf)
    ensures forall k :: 0 <= k < |gs| ==> |gs[k].lines| > 0 && AllPlain(heading, gs[k].lines)
    ensures |gs| <= HeadingCount(heading, lines) + 1
    decreases |lines|
  {
    if |lines| == 0 then FlushGroup(title, buf)
    else match heading(lines[0])
      case Some(t) => FlushGroup(title, buf) + GroupLines(heading, lines[1..], t, [])
      case None => GroupLines(heading, lines[1..], title, buf + [lines[0]])
  }

  function GroupedLines(gs: seq<Group>): seq<string> {
    if |gs| == 0 then [] else gs[0].lines + GroupedLines(gs[1..])
  }

  lemma GroupedLinesAppend(xs: seq<Group>, ys: seq<Group>)
    ensures GroupedLines(xs + ys) == GroupedLines(xs) + GroupedLines(ys)
  {
    if |xs| > 0 {
      assert (xs + ys)[1..] == xs[1..] + ys;
      GroupedLinesAppend(xs[1..], ys);
    } else {
      assert xs + ys == ys;
    }
  }

  /** No line is lost, duplicated or reordered: the groups hold exactly the
      buffered lines followed by the non-heading lines still to read. */
  lemma {:induction false} GroupLinesContent(heading: Classifier, lines: seq<string>, title: string, buf: seq<string>)
    requires AllPlain(heading, buf)
    ensures GroupedLines(GroupLines(heading, lines, title, buf)) == buf + Plain(heading, lines)
    decreases |lines|
  {
    if |lines| == 0 {
      assert buf + [] == buf;
    } else if heading(lines[0]).Some? {
      var t := heading(lines[0]).value;
      GroupLinesContent(heading, lines[1..], t, []);
      HeadingLineContent(heading, lines, title, buf, t);
    } else {
      AllPlainSnoc(heading, buf, lines[0]);
      GroupLinesContent(heading, lines[1..], title, buf + [lines[0]]);
      PlainLineContent(heading, lines, title, buf);
    }
  }

  lemma AllPlainSnoc(heading: Classifier, buf: seq<string>, line: string)
    requires AllPlain(heading, buf) && IsPlain(heading, line)
    ensures AllPlain(heading, buf + [line])
  {
  }

  /** One heading line: the buffer is flushed ahead of the groups that follow. */
  lemma HeadingLineContent(heading: Classifier, lines: seq<string>, title: string, buf: seq<string>, t: string)
    requires AllPlain(heading, buf) && |lines| > 0 && heading(lines[0]) == Some(t)
    requires GroupedLines(GroupLines(heading, lines[1..], t, [])) == [] + Plain(heading, lines[1..])
    ensures GroupedLines(GroupLines(heading, lines, title, buf)) == buf + Plain(heading, lines)
  {
    var rest := GroupLines(heading, lines[1..], t, []);
    assert GroupLines(heading, lines, title, buf) == FlushGroup(title, buf) + rest;
    assert Plain(heading, lines) == Plain(heading, lines[1..]);
    FlushedLines(title, buf, rest);
  }

  /** One ordinary line: it joins the buffer. */
  lemma PlainLineContent(heading: Classifier, lines: seq<string>, title: string, buf: seq<string>)
    requires AllPlain(heading, buf) && |lines| > 0 && IsPlain(heading, lines[0])
    requires AllPlain(heading, buf + [lines[0]])
    requires GroupedLines(GroupLines(heading, lines[1..], title, buf + [lines[0]])) == buf + [lines[0]] + Plain(heading, lines[1..])
    ensures GroupedLines(GroupLines(heading, lines, title, buf)) == buf + Plain(heading, lines)
  {
    assert GroupLines(heading, lines, title, buf) == GroupLines(heading, lines[1..], title, buf + [lines[0]]);
    assert Plain(heading, lines) == [lines[0]] + Plain(heading, lines[1..]);
    assert buf + [lines[0]] + Plain(heading, lines[1..]) == buf + Plain(heading, lines);
  }

  /** Flushing a buffer in front of further groups puts its lines first. */
  lemma FlushedLines(title: string, buf: seq<string>, rest: seq<Group>)
    ensures GroupedLines(FlushGroup(title, buf) + rest) == buf + GroupedLines(rest)
  {
    GroupedLinesAppend(FlushGroup(title, buf), rest);
    if |buf| > 0 {
      assert GroupedLines([Group(title, buf)]) == buf + GroupedLines([]);
    }
  }

  /** Every group is titled by the title in force when reading began or by the
      title of one of the heading lines read. */
  lemma {:induction false} GroupLinesTitles(heading: Classifier, lines: seq<string>, title: string, buf: seq<string>, k: nat)
    requires AllPlain(heading, buf)
    requires k < |GroupLines(heading, lines, title, buf)|
    ensures var t := GroupLines(heading, lines, title, buf)[k].title;
            t == title || exists j :: 0 <= j < |lines| && heading(lines[j]) == Some(t)
    decreases |lines|
  {
    var gs := GroupLines(heading, lines, title, buf);
    if |lines| > 0 {
      match heading(lines[0])
      case Some(t) =>
        var head := FlushGroup(title, buf);
        if k >= |head| {
          GroupLinesTitles(heading, lines[1..], t, [], k - |head|);
          var u := gs[k].title;
          if u != t {
            var j :| 0 <= j < |lines[1..]| && heading(lines[1..][j]) == Some(u);
            assert lines[j + 1] == lines[1..][j];
          } else {
            assert heading(lines[0]) == Some(u);
          }
        }
      case None =>
        GroupLinesTitles(heading, lines[1..], title, buf + [lines[0]], k);
        var u := gs[k].title;
        if u != title {
          var j :| 0 <= j < |lines[1..]| && heading(lines[1..][j]) == Some(u);
          assert lines[j + 1] == lines[1..][j];
        }
    }
  }

  /** Reading no heading keeps every line under the starting title. */
  lemma {:induction false} GroupLinesNoHeading(heading: Classifier, lines: seq<string>, title: string, buf: seq<string>)
    requires AllPlain(heading, buf) && AllPlain(heading, lines)
    ensures GroupLines(heading, lines, title, buf) == FlushGroup(title, buf + lines)
    decreases |lines|
  {
    if |lines| == 0 {
      assert buf + lines == buf;
    } else {
      GroupLinesNoHeading(heading, lines[1..], title, buf + [lines[0]]);
      assert buf + [lines[0]] + lines[1..] == buf + lines;
    }
  }

  /** A run of ordinary lines only joins the buffer, under the same title. */
  lemma {:induction false} GroupLinesPlainPrefix(heading: Classifier, c: seq<string>, d: seq<string>, title: string, buf: seq<string>)
    requires AllPlain(heading, buf) && AllPlain(heading, c)
    ensures AllPlain(heading, buf + c)
    ensures GroupLines(heading, c + d, title, buf) == GroupLines(heading, d, title, buf + c)
    decreases |c|
  {
    if |c| == 0 {
      assert c + d == d && buf + c == buf;
    } else {
      AllPlainSnoc(heading, buf, c[0]);
      GroupLinesPlainPrefix(heading, c[1..], d, title, buf + [c[0]]);
      assert (c + d)[0] == c[0] && (c + d)[1..] == c[1..] + d;
      assert buf + [c[0]] + c[1..] == buf + c;
    }
  }

  /** A heading line closes the group in progress: the lines before it are
      grouped as if the text ended there, and the lines after it are grouped
      afresh under the heading's title. */
  lemma {:induction false} GroupLinesSplitAt(heading: Classifier, a: seq<string>, h: string, b: seq<string>,
                                             title: string, buf: seq<string>, t: string)
    requires AllPlain(heading, buf) && heading(h) == Some(t)
    ensures GroupLines(heading, a + [h] + b, title, buf) == GroupLines(heading, a, title, buf) + GroupLines(heading, b, t, [])
    decreases |a|
  {
    var lines := a + [h] + b;
    if |a| == 0 {
      assert lines == [h] + b && lines[0] == h && lines[1..] == b;
    } else {
      assert lines[0] == a[0] && lines[1..] == a[1..] + [h] + b;
      match heading(a[0])
      case Some(u) =>
        GroupLinesSplitAt(heading, a[1..], h, b, u, [], t);
        assert FlushGroup(title, buf) + GroupLines(heading, a[1..], u, []) + GroupLines(heading, b, t, [])
            == FlushGroup(title, buf) + (GroupLines(heading, a[1..], u, []) + GroupLines(heading, b, t, []));
      case None =>
        AllPlainSnoc(heading, buf, a[0]);
        GroupLinesSplitAt(heading, a[1..], h, b, title, buf + [a[0]], t);
    }
  }

  /** The lines after a heading, up to the next heading or the end, form one
      group titled by that heading. */
  lemma HeadingBlock(heading: Classifier, c: seq<string>, d: seq<string>, t: string)
    requires |c| > 0 && AllPlain(heading, c)
    requires |d| == 0 || heading(d[0]).Some?
    ensures GroupLines(heading, c + d, t, []) == [Group(t, c)] + GroupLines(heading, d, t, [])
  {
    GroupLinesPlainPrefix(heading, c, d, t, []);
    assert [] + c == c;
    if |d| > 0 {
      var u := heading(d[0]).value;
      assert GroupLines(heading, d, t, c) == FlushGroup(t, c) + GroupLines(heading, d[1..], u, []);
      assert GroupLines(heading, d, t, []) == FlushGroup(t, []) + GroupLines(heading, d[1..], u, []);
    }
  }


  const DefaultTitle := "INTRO"
  const FallbackTitle := "BODY"

  /** Every paragraph of the section is a clean paragraph. */
  ghost predicate CleanSection(sec: Section) {
    forall j :: 0 <= j < |sec.paragraphs| ==> IsParagraph(sec.paragraphs[j])
  }

  /** `flush()` turns the buffered lines into paragraphs. */
  function SectionOf(g: Group): Section {
    Section(g.title, Paragraphs(Join(g.lines, "\n")))
  }

  function ToSections(gs: seq<Group>): (secs: seq<Section>)
    ensures |secs| == |gs|
    ensures forall k :: 0 <= k < |gs| ==> secs[k] == SectionOf(gs[k])
  {
    seq(|gs|, k requires 0 <= k < |gs| => SectionOf(gs[k]))
  }

  lemma ToSectionsSingle(g: Group)
    ensures ToSections([g]) == [Section(g.title, Paragraphs(Join(g.lines, "\n")))]
  {
  }

  /** The line groups of a text, as the section loop builds them. */
  function TextGroups(text: string): seq<Group> {
    GroupLines(HeadingTitle, SplitLines(text), DefaultTitle, [])
  }

  /** `_split_into_sections(text)`: headings open sections; text before the
      first heading is titled "INTRO"; when no section has a buffered line,
      the whole text becomes one "BODY" section. */
  function SplitIntoSections(text: string): (secs: seq<Section>)
    ensures |secs| > 0
    ensures forall k :: 0 <= k < |secs| ==> CleanSection(secs[k])
  {
    var gs := TextGroups(text);
    if |gs| == 0 then [Section(FallbackTitle, Paragraphs(text))]
    else
      var secs := ToSections(gs);
      assert forall k :: 0 <= k < |secs| ==> CleanSection(secs[k]) by {
        forall k | 0 <= k < |secs| ensures CleanSection(secs[k]) {
          assert secs[k] == SectionOf(gs[k]);
        }
      }
      secs
  }

  /** `t` is the title of one of the heading lines. */
  ghost predicate HeadingIn(lines: seq<string>, t: string) {
    exists j :: 0 <= j < |lines| && HeadingTitle(lines[j]) == Some(t)
  }

  /** Sections are titled "INTRO", "BODY" or by a heading of the text. */
  lemma SectionTitles(text: string, k: nat)
    requires k < |SplitIntoSections(text)|
    ensures var t := SplitIntoSections(text)[k].title;
            t == DefaultTitle || t == FallbackTitle || HeadingIn(SplitLines(text), t)
  {
    var gs := TextGroups(text);
    var lines := SplitLines(text);
    if |gs| > 0 {
      GroupLinesTitles(HeadingTitle, lines, DefaultTitle, [], k);
      var t := gs[k].title;
      assert SplitIntoSections(text)[k].title == ToSections(gs)[k].title == t;
      if t != DefaultTitle {
        var j :| 0 <= j < |lines| && HeadingTitle(lines[j]) == Some(t);
        assert HeadingIn(lines, t);
      }
    } else {
      assert SplitIntoSections(text)[k].title == FallbackTitle;
    }
  }

  /** There is at most one section per heading, plus one. */
  lemma SectionCount(text: string)
    ensures |SplitIntoSections(text)| <= HeadingCount(HeadingTitle, SplitLines(text)) + 1
  {
  }

  /** The "BODY" fallback is taken exactly when every line is a heading (or
      there is no line at all). */
  lemma SectionsFallback(text: string)
    ensures |TextGroups(text)| == 0 <==> Plain(HeadingTitle, SplitLines(text)) == []
    ensures Plain(HeadingTitle, SplitLines(text)) == [] ==> SplitIntoSections(text) == [Section(FallbackTitle, Paragraphs(text))]
  {
    var gs := TextGroups(text);
    GroupLinesContent(HeadingTitle, SplitLines(text), DefaultTitle, []);
    assert [] + Plain(HeadingTitle, SplitLines(text)) == Plain(HeadingTitle, SplitLines(text));
    if |gs| > 0 {
      assert GroupedLines(gs) == gs[0].lines + GroupedLines(gs[1..]);
    }
  }

  lemma OneGroup(heading: Classifier, lines: seq<string>, title: string)
    requires |lines| > 0 && AllPlain(heading, lines)
    ensures GroupLines(heading, lines, title, []) == [Group(title, lines)]
  {
    GroupLinesNoHeading(heading, lines, title, []);
    assert [] + lines == lines;
  }

  /** A text with lines but no heading is one "INTRO" section. */
  lemma NoHeadingsOneIntro(text: string)
    requires |SplitLines(text)| > 0 && AllPlain(HeadingTitle, SplitLines(text))
    ensures SplitIntoSections(text) == [Section(DefaultTitle, Paragraphs(Join(SplitLines(text), "\n")))]
  {
    var lines := SplitLines(text);
    TextOneGroup(text, lines);
    OneGroupSections(text, lines);
  }

  lemma TextOneGroup(text: string, lines: seq<string>)
    requires |lines| > 0 && AllPlain(HeadingTitle, lines) && lines == SplitLines(text)
    ensures TextGroups(text) == [Group(DefaultTitle, lines)]
  {
    OneGroup(HeadingTitle, lines, DefaultTitle);
  }

  lemma OneGroupSections(text: string, lines: seq<string>)
    requires TextGroups(text) == [Group(DefaultTitle, lines)]
    ensures SplitIntoSections(text) == [Section(DefaultTitle, Paragraphs(Join(lines, "\n")))]
  {
    ToSectionsSingle(Group(DefaultTitle, lines));
  }

  lemma ToSectionsAppend(xs: seq<Group>, ys: seq<Group>)
    ensures ToSections(xs + ys) == ToSections(xs) + ToSections(ys)
  {
  }


  /** Sectioning a text cut at a heading line: the lines before the heading are
      sectioned as if the text stopped there (starting under "INTRO"), and the
      lines after it are sectioned afresh under the heading's title. */
  lemma SectionsSplitAt(text: string, a: seq<string>, h: string, b: seq<string>, t: string)
    requires SplitLines(text) == a + [h] + b && HeadingTitle(h) == Some(t)
    requires Plain(HeadingTitle, SplitLines(text)) != []
    ensures SplitIntoSections(text) ==
            ToSections(GroupLines(HeadingTitle, a, DefaultTitle, [])) + ToSections(GroupLines(HeadingTitle, b, t, []))
  {
    SectionsFallback(text);
    GroupLinesSplitAt(HeadingTitle, a, h, b, DefaultTitle, [], t);
    ToSectionsAppend(GroupLines(HeadingTitle, a, DefaultTitle, []), GroupLines(HeadingTitle, b, t, []));
  }

  /** The lines before the first heading form the first section, "INTRO". */
  lemma IntroBeforeFirstHeading(text: string, a: seq<string>, h: string, b: seq<string>, t: string)
    requires SplitLines(text) == a + [h] + b && HeadingTitle(h) == Some(t)
    requires |a| > 0 && AllPlain(HeadingTitle, a)
    ensures SplitIntoSections(text) ==
            [Section(DefaultTitle, Paragraphs(Join(a, "\n")))] + ToSections(GroupLines(HeadingTitle, b, t, []))
  {
    GroupLinesSplitAt(HeadingTitle, a, h, b, DefaultTitle, [], t);
    OneGroup(HeadingTitle, a, DefaultTitle);
    var gs := TextGroups(text);
    assert gs == [Group(DefaultTitle, a)] + GroupLines(HeadingTitle, b, t, []);
    ToSectionsAppend([Group(DefaultTitle, a)], GroupLines(HeadingTitle, b, t, []));
    ToSectionsSingle(Group(DefaultTitle, a));
  }

  /** The ordinary lines between a heading and the next heading (or the end)
      form one section, titled by that heading's stripped text. */
  lemma SectionUnderHeading(text: string, a: seq<string>, h: string, c: seq<string>, d: seq<string>, t: string)
    requires SplitLines(text) == a + [h] + c + d && HeadingTitle(h) == Some(t)
    requires |c| > 0 && AllPlain(HeadingTitle, c)
    requires |d| == 0 || HeadingTitle(d[0]).Some?
    ensures SplitIntoSections(text) ==
            ToSections(GroupLines(HeadingTitle, a, DefaultTitle, []))
            + ([Section(t, Paragraphs(Join(c, "\n")))] + ToSections(GroupLines(HeadingTitle, d, t, [])))
  {
    var ga := GroupLines(HeadingTitle, a, DefaultTitle, []);
    var gd := GroupLines(HeadingTitle, d, t, []);
    TextGroupsUnderHeading(text, a, h, c, d, t);
    SectionsOfText(text);
    SectionsOfGroups(ga, Group(t, c), gd);
  }

  lemma TextGroupsUnderHeading(text: string, a: seq<string>, h: string, c: seq<string>, d: seq<string>, t: string)
    requires SplitLines(text) == a + [h] + c + d && HeadingTitle(h) == Some(t)
    requires |c| > 0 && AllPlain(HeadingTitle, c)
    requires |d| == 0 || HeadingTitle(d[0]).Some?
    ensures TextGroups(text) ==
            GroupLines(HeadingTitle, a, DefaultTitle, []) + ([Group(t, c)] + GroupLines(HeadingTitle, d, t, []))
  {
    GroupsUnderHeading(HeadingTitle, a, h, c, d, t);
  }

  /** Once some group holds a line, the sections are exactly the groups'. */
  lemma SectionsOfText(text: string)
    requires |TextGroups(text)| > 0
    ensures SplitIntoSections(text) == ToSections(TextGroups(text))
  {
  }

  lemma GroupsUnderHeading(heading: Classifier, a: seq<string>, h: string, c: seq<string>, d: seq<string>, t: string)
    requires heading(h) == Some(t) && |c| > 0 && AllPlain(heading, c)
    requires |d| == 0 || heading(d[0]).Some?
    ensures GroupLines(heading, a + [h] + c + d, DefaultTitle, []) ==
            GroupLines(heading, a, DefaultTitle, []) + ([Group(t, c)] + GroupLines(heading, d, t, []))
  {
    assert a + [h] + c + d == a + [h] + (c + d);
    GroupLinesSplitAt(heading, a, h, c + d, DefaultTitle, [], t);
    HeadingBlock(heading, c, d, t);
  }

  lemma SectionsOfGroups(ga: seq<Group>, g: Group, gd: seq<Group>)
    ensures ToSections(ga + ([g] + gd)) == ToSections(ga) + ([SectionOf(g)] + ToSections(gd))
  {
    ToSectionsAppend(ga, [g] + gd);
    ToSectionsCons(g, gd);
  }

  lemma ToSectionsCons(g: Group, gd: seq<Group>)
    ensures ToSections([g] + gd) == [SectionOf(g)] + ToSections(gd)
  {
    assert ([g] + gd)[1..] == gd;
  }


  function SectionWords(secs: seq<Section>): seq<string> {
    if |secs| == 0 then [] else FlattenWords(secs[0].paragraphs) + SectionWords(secs[1..])
  }

  lemma {:induction false} GroupWords(gs: seq<Group>)
    ensures SectionWords(ToSections(gs)) == FlattenWords(GroupedLines(gs))
  {
    if |gs| > 0 {
      GroupWords(gs[1..]);
      SectionWordsHead(gs);
      assert GroupedLines(gs) == gs[0].lines + GroupedLines(gs[1..]);
      SectionOfWords(gs[0]);
      FlattenWordsAppend(gs[0].lines, GroupedLines(gs[1..]));
    }
  }

  lemma SectionWordsHead(gs: seq<Group>)
    requires |gs| > 0
    ensures SectionWords(ToSections(gs)) == FlattenWords(SectionOf(gs[0]).paragraphs) + SectionWords(ToSections(gs[1..]))
  {
    var ss := ToSections(gs);
    assert ss[0] == SectionOf(gs[0]);
    assert ss[1..] == ToSections(gs[1..]);
  }

  /** One flush keeps the words of its lines. */
  lemma SectionOfWords(g: Group)
    ensures FlattenWords(SectionOf(g).paragraphs) == FlattenWords(g.lines)
  {
    var text := Join(g.lines, "\n");
    calc {
      FlattenWords(SectionOf(g).paragraphs);
      FlattenWords(Paragraphs(text));
      { ParagraphsKeepWords(text); }
      Words(text);
      { WordsOfSpacedJoin(g.lines, "\n"); }
      FlattenWords(g.lines);
    }
  }

  /** Sectioning loses and invents no words: the words of all paragraphs, in
      order, are the words of the non-heading lines — or, in the fallback, of
      the whole text. */
  lemma SectionsKeepWords(text: string)
    ensures Plain(HeadingTitle, SplitLines(text)) != [] ==>
              SectionWords(SplitIntoSections(text)) == FlattenWords(Plain(HeadingTitle, SplitLines(text)))
    ensures Plain(HeadingTitle, SplitLines(text)) == [] ==> SectionWords(SplitIntoSections(text)) == Words(text)
  {
    var gs := TextGroups(text);
    SectionsFallback(text);
    GroupLinesContent(HeadingTitle, SplitLines(text), DefaultTitle, []);
    assert [] + Plain(HeadingTitle, SplitLines(text)) == Plain(HeadingTitle, SplitLines(text));
    if |gs| > 0 {
      GroupWords(gs);
    } else {
      ParagraphsKeepWords(text);
      assert SectionWords([Section(FallbackTitle, Paragraphs(text))]) == FlattenWords(Paragraphs(text)) + [];
    }
  }

  // ---------------------------------------------------------------------------
  // Chunking (`_chunk_paragraphs`)
  // ---------------------------------------------------------------------------

  /** How the overlap is taken back from a chunk just cut: `AsWritten` is the
      slice `words[-overlap:]` exactly as Python evaluates it; `Intended` takes
      the last `overlap` words, and none when `overlap` is not positive. */
  datatype OverlapRule = AsWritten | Intended

  datatype ChunkConfig = ChunkConfig(target: int, overlap: int, rule: OverlapRule)

  const TargetTokens := 400
  const OverlapTokens := 80

  /** Python's `xs[a:]` for any integer `a`: a negative start counts from the
      end and is clamped at 0; a start past the end gives the empty list. */
  function PySuffix<T>(xs: seq<T>, a: int): (r: seq<T>)
    ensures |r| <= |xs| && r == xs[|xs| - |r|..]
    ensures a < 0 ==> |r| == if -a < |xs| then -a else |xs|
    ensures a >= 0 ==> |r| == if a < |xs| then |xs| - a else 0
  {
    if a >= 0 then (if a < |xs| then xs[a..] else [])
    else if |xs| + a >= 0 then xs[|xs| + a..] else xs
  }

  /** The words carried from a cut chunk into the next buffer. */
  function Carry(words: seq<string>, overlap: int, rule: OverlapRule): seq<string> {
    match rule
    case AsWritten => PySuffix(words, -overlap)
    case Intended => if overlap <= 0 then [] else PySuffix(words, -overlap)
  }

  /** The intended carry is the last `min(overlap, n)` words, and nothing for a
      non-positive overlap. */
  lemma CarryIntended(words: seq<string>, overlap: int)
    ensures var c := Carry(words, overlap, Intended);
            && c == words[|words| - |c|..]
            && |c| == if overlap <= 0 then 0 else if overlap < |words| then overlap else |words|
  {
  }

  /** The slice as written carries the whole chunk when `overlap` is 0, and
      drops the first `-overlap` words when it is negative. */
  lemma CarryAsWrittenNonPositive(words: seq<string>, overlap: int)
    requires overlap <= 0
    ensures Carry(words, overlap, AsWritten) == if -overlap < |words| then words[-overlap..] else []
    ensures overlap == 0 ==> Carry(words, overlap, AsWritten) == words
  {
  }

  /** For a positive overlap the slice does what is intended. */
  lemma CarryAgrees(words: seq<string>, overlap: int)
    requires overlap > 0
    ensures Carry(words, overlap, AsWritten) == Carry(words, overlap, Intended)
  {
  }

  /** The loop state: chunks cut so far, the buffered paragraphs and the
      running word count. */
  datatype Chunker = Chunker(chunks: seq<string>, buf: seq<string>, count: int)

  /** One iteration: cut the buffer into a chunk when the paragraph would take
      the count past the target (and the buffer is not empty), restarting the
      buffer from the carried words; then buffer the paragraph. */
  function Step(st: Chunker, p: string, cfg: ChunkConfig): Chunker {
    var w := |Words(p)|;
    if st.count + w > cfg.target && |st.buf| > 0 then
      var back := JoinSp(Carry(Words(JoinSp(st.buf)), cfg.overlap, cfg.rule));
      Chunker(st.chunks + [JoinSp(st.buf)], Kept(back) + [p], |Words(back)| + w)
    else
      Chunker(st.chunks, st.buf + [p], st.count + w)
  }

  /** `[back] if back else []` */
  function Kept(back: string): seq<string> {
    if |back| > 0 then [back] else []
  }

  function Feed(st: Chunker, paras: seq<string>, cfg: ChunkConfig): Chunker
    decreases |paras|
  {
    if |paras| == 0 then st else Feed(Step(st, paras[0], cfg), paras[1..], cfg)
  }

  /** The whole loop and the final flush. */
  function ChunkWith(paras: seq<string>, cfg: ChunkConfig): seq<string> {
    var st := Feed(Chunker([], [], 0), paras, cfg);
    if |st.buf| > 0 then st.chunks + [JoinSp(st.buf)] else st.chunks
  }

  /** `_chunk_paragraphs(paras, target_tokens, overlap_tokens)`, with the
      overlap slice as intended. */
  function ChunkParagraphs(paras: seq<string>, target: int, overlap: int): seq<string> {
    ChunkWith(paras, ChunkConfig(target, overlap, Intended))
  }

  /** The same, with the overlap slice as the source writes it. */
  function ChunkParagraphsAsWritten(paras: seq<string>, target: int, overlap: int): seq<string> {
    ChunkWith(paras, ChunkConfig(target, overlap, AsWritten))
  }

  /** The running count is the number of words in the buffer. */
  ghost predicate Counted(st: Chunker) {
    st.count == |Words(JoinSp(st.buf))|
  }

  lemma WordsOfEmpty()
    ensures Words([]) == []
  {
  }

  /** Each step keeps the count exact, and always leaves the paragraph last in
      the buffer. */
  lemma StepCounted(st: Chunker, p: string, cfg: ChunkConfig)
    requires Counted(st)
    ensures Counted(Step(st, p, cfg))
    ensures var b := Step(st, p, cfg).buf; |b| > 0 && b[|b| - 1] == p
  {
    var w := |Words(p)|;
    if st.count + w > cfg.target && |st.buf| > 0 {
      var back := JoinSp(Carry(Words(JoinSp(st.buf)), cfg.overlap, cfg.rule));
      var kept := Kept(back);
      WordsOfJoinSpAppend(kept, p);
      if |back| == 0 {
        WordsOfEmpty();
      }
    } else {
      WordsOfJoinSpAppend(st.buf, p);
    }
  }

  /** A chunk is cut exactly when the paragraph's words would take the
      buffer's word count past the target and the buffer is not empty; the
      cut chunk is the buffer joined by spaces. */
  lemma StepCuts(st: Chunker, p: string, cfg: ChunkConfig)
    requires Counted(st)
    ensures var n := Step(st, p, cfg);
            (|n.chunks| == |st.chunks| + 1) <==> |Words(JoinSp(st.buf))| + |Words(p)| > cfg.target && |st.buf| > 0
    ensures var n := Step(st, p, cfg);
            |n.chunks| == |st.chunks| + 1 ==> n.chunks == st.chunks + [JoinSp(st.buf)]
    ensures var n := Step(st, p, cfg);
            |n.chunks| != |st.chunks| + 1 ==> n.chunks == st.chunks && n.buf == st.buf + [p]
  {
  }

  /** After a cut the new buffer starts with the carried words of the chunk
      just cut: with the intended rule, exactly its last `overlap` words (none
      when `overlap` is not positive); then come the paragraph's words. */
  lemma CutCarriesOverlap(st: Chunker, p: string, cfg: ChunkConfig)
    requires |st.buf| > 0 && st.count + |Words(p)| > cfg.target
    ensures var ws := Words(JoinSp(st.buf));
            Words(JoinSp(Step(st, p, cfg).buf)) == Carry(ws, cfg.overlap, cfg.rule) + Words(p)
  {
    var ws := Words(JoinSp(st.buf));
    var c := Carry(ws, cfg.overlap, cfg.rule);
    var kept := Kept(JoinSp(c));
    assert Step(st, p, cfg).buf == kept + [p];
    calc {
      Words(JoinSp(kept + [p]));
      { WordsOfJoinSp(kept + [p]); }
      FlattenWords(kept + [p]);
      { FlattenWordsAppend(kept, [p]); assert FlattenWords([p]) == Words(p) + FlattenWords([]); }
      FlattenWords(kept) + Words(p);
      { CarryIsWords(ws, cfg.overlap, cfg.rule); KeptWords(c); }
      c + Words(p);
    }
  }

  /** The carried words are words: non-empty and free of whitespace. */
  lemma CarryIsWords(ws: seq<string>, overlap: int, rule: OverlapRule)
    requires forall k :: 0 <= k < |ws| ==> |ws[k]| > 0 && AllIn(ws[k], IsNotSpace)
    ensures var c := Carry(ws, overlap, rule);
            forall k :: 0 <= k < |c| ==> |c[k]| > 0 && AllIn(c[k], IsNotSpace)
  {
    var c := Carry(ws, overlap, rule);
    assert c == ws[|ws| - |c|..];
    assert forall k :: 0 <= k < |c| ==> c[k] == ws[|ws| - |c| + k];
  }

  /** Re-joining and re-splitting carried words gives them back. */
  lemma KeptWords(c: seq<string>)
    requires forall k :: 0 <= k < |c| ==> |c[k]| > 0 && AllIn(c[k], IsNotSpace)
    ensures FlattenWords(Kept(JoinSp(c))) == c
  {
    var back := JoinSp(c);
    WordsOfJoinedWords(c);
    if |back| > 0 {
      assert FlattenWords([back]) == Words(back) + FlattenWords([]);
    } else {
      WordsOfEmpty();
    }
  }

  /** Chunks cut, plus one for a non-empty buffer: what the final flush yields. */
  function Weight(st: Chunker): nat {
    |st.chunks| + if |st.buf| > 0 then 1 else 0
  }

  /** Each paragraph adds at most one chunk, and the buffer ends non-empty. */
  lemma {:induction false} FeedWeight(st: Chunker, paras: seq<string>, cfg: ChunkConfig)
    ensures Weight(Feed(st, paras, cfg)) <= Weight(st) + |paras|
    ensures |paras| > 0 || |st.buf| > 0 ==> |Feed(st, paras, cfg).buf| > 0
    ensures Weight(st) <= Weight(Feed(st, paras, cfg))
    decreases |paras|
  {
    if |paras| > 0 {
      FeedWeight(Step(st, paras[0], cfg), paras[1..], cfg);
    }
  }

  /** No paragraphs, no chunks; otherwise between one chunk and one chunk per
      paragraph. */
  lemma ChunkCount(paras: seq<string>, cfg: ChunkConfig)
    ensures |paras| == 0 <==> ChunkWith(paras, cfg) == []
    ensures |paras| > 0 ==> 1 <= |ChunkWith(paras, cfg)| <= |paras|
  {
    FeedWeight(Chunker([], [], 0), paras, cfg);
  }

  /** A paragraph read so far sits in the buffer or in a chunk already cut. */
  ghost predicate Covered(st: Chunker, q: string) {
    q in st.buf || exists j :: 0 <= j < |st.chunks| && Contains(st.chunks[j], q)
  }

  lemma StepCovers(st: Chunker, p: string, cfg: ChunkConfig, q: string)
    requires Covered(st, q) || q == p
    ensures Covered(Step(st, p, cfg), q)
  {
    var n := Step(st, p, cfg);
    if q != p && q in st.buf && |n.chunks| == |st.chunks| + 1 {
      var k :| 0 <= k < |st.buf| && st.buf[k] == q;
      JoinHasElement(st.buf, " ", k);
      assert n.chunks[|st.chunks|] == JoinSp(st.buf);
    } else if q != p && q !in st.buf {
      var j :| 0 <= j < |st.chunks| && Contains(st.chunks[j], q);
      assert n.chunks[j] == st.chunks[j];
    } else if q == p {
      assert n.buf[|n.buf| - 1] == p;
    }
  }

  lemma {:induction false} FeedCovers(st: Chunker, paras: seq<string>, cfg: ChunkConfig, q: string)
    requires Covered(st, q) || q in paras
    ensures Covered(Feed(st, paras, cfg), q)
    decreases |paras|
  {
    if |paras| > 0 {
      StepCovers(st, paras[0], cfg, if Covered(st, q) then q else paras[0]);
      if Covered(st, q) || q == paras[0] {
        StepCovers(st, paras[0], cfg, q);
      } else {
        assert q in paras[1..];
      }
      FeedCovers(Step(st, paras[0], cfg), paras[1..], cfg, q);
    }
  }

  /** Every paragraph ends up, whole, inside some chunk. */
  lemma ChunksCoverParagraphs(paras: seq<string>, cfg: ChunkConfig, i: nat)
    requires i < |paras|
    ensures exists j :: 0 <= j < |ChunkWith(paras, cfg)| && Contains(ChunkWith(paras, cfg)[j], paras[i])
  {
    var st := Feed(Chunker([], [], 0), paras, cfg);
    var r := ChunkWith(paras, cfg);
    FeedCovers(Chunker([], [], 0), paras, cfg, paras[i]);
    FeedWeight(Chunker([], [], 0), paras, cfg);
    if paras[i] in st.buf {
      var k :| 0 <= k < |st.buf| && st.buf[k] == paras[i];
      JoinHasElement(st.buf, " ", k);
      assert r[|st.chunks|] == JoinSp(st.buf);
    } else {
      var j :| 0 <= j < |st.chunks| && Contains(st.chunks[j], paras[i]);
      assert r[j] == st.chunks[j];
    }
  }

  /** Feeding `a` then `b` is feeding `a + b`. */
  lemma {:induction false} FeedAppend(st: Chunker, a: seq<string>, b: seq<string>, cfg: ChunkConfig)
    ensures Feed(st, a + b, cfg) == Feed(Feed(st, a, cfg), b, cfg)
    decreases |a|
  {
    if |a| == 0 {
      assert a + b == b;
    } else {
      assert (a + b)[0] == a[0] && (a + b)[1..] == a[1..] + b;
      FeedAppend(Step(st, a[0], cfg), a[1..], b, cfg);
    }
  }

  /** The index of the chunk paragraph `i` is buffered for: the number of
      chunks already cut once it has been read. */
  function Home(paras: seq<string>, cfg: ChunkConfig, i: nat): nat
    requires i < |paras|
  {
    |Feed(Chunker([], [], 0), paras[..i + 1], cfg).chunks|
  }

  /** Reading the next paragraph cuts at most one chunk, so consecutive
      paragraphs land in the same chunk or in the next one. */
  lemma HomeStep(paras: seq<string>, cfg: ChunkConfig, i: nat)
    requires i + 1 < |paras|
    ensures Home(paras, cfg, i) <= Home(paras, cfg, i + 1) <= Home(paras, cfg, i) + 1
  {
    var st := Feed(Chunker([], [], 0), paras[..i + 1], cfg);
    assert paras[..i + 2] == paras[..i + 1] + [paras[i + 1]];
    FeedAppend(Chunker([], [], 0), paras[..i + 1], [paras[i + 1]], cfg);
    assert Feed(st, [paras[i + 1]], cfg) == Step(st, paras[i + 1], cfg);
  }

  /** Paragraphs are placed into chunks in reading order, starting with the
      first chunk, and the last paragraph is in the last chunk. */
  lemma {:induction false} HomeMonotone(paras: seq<string>, cfg: ChunkConfig, i: nat, j: nat)
    requires i <= j < |paras|
    ensures Home(paras, cfg, i) <= Home(paras, cfg, j)
    decreases j - i
  {
    if i < j {
      HomeStep(paras, cfg, i);
      HomeMonotone(paras, cfg, i + 1, j);
    }
  }

  lemma HomeFirst(paras: seq<string>, cfg: ChunkConfig)
    requires |paras| > 0
    ensures Home(paras, cfg, 0) == 0
  {
    assert Feed(Chunker([], [], 0), paras[..1], cfg) == Step(Chunker([], [], 0), paras[0], cfg);
  }

  /** Paragraph `q` is in the buffer of the `h`-th chunk, or that chunk has
      been cut and contains it. */
  ghost predicate Pending(st: Chunker, h: nat, q: string) {
    (|st.chunks| == h && q in st.buf) || (h < |st.chunks| && Contains(st.chunks[h], q))
  }

  lemma StepPending(st: Chunker, p: string, cfg: ChunkConfig, h: nat, q: string)
    requires Pending(st, h, q)
    ensures Pending(Step(st, p, cfg), h, q)
  {
    var n := Step(st, p, cfg);
    if |st.chunks| == h && q in st.buf {
      if |n.chunks| == h + 1 {
        var k :| 0 <= k < |st.buf| && st.buf[k] == q;
        JoinHasElement(st.buf, " ", k);
        assert n.chunks[h] == JoinSp(st.buf);
      } else {
        assert n.buf == st.buf + [p];
      }
    } else {
      assert n.chunks[h] == st.chunks[h];
    }
  }

  lemma {:induction false} FeedPending(st: Chunker, paras: seq<string>, cfg: ChunkConfig, h: nat, q: string)
    requires Pending(st, h, q)
    ensures Pending(Feed(st, paras, cfg), h, q)
    decreases |paras|
  {
    if |paras| > 0 {
      StepPending(st, paras[0], cfg, h, q);
      FeedPending(Step(st, paras[0], cfg), paras[1..], cfg, h, q);
    }
  }

  /** Paragraph `i`, whole, is inside chunk `Home(paras, cfg, i)`. */
  lemma ChunkAtHome(paras: seq<string>, cfg: ChunkConfig, i: nat)
    requires i < |paras|
    ensures Home(paras, cfg, i) < |ChunkWith(paras, cfg)|
    ensures Contains(ChunkWith(paras, cfg)[Home(paras, cfg, i)], paras[i])
  {
    var s0 := Chunker([], [], 0);
    var pre := Feed(s0, paras[..i], cfg);
    var st := Feed(s0, paras[..i + 1], cfg);
    assert paras[..i + 1] == paras[..i] + [paras[i]];
    FeedAppend(s0, paras[..i], [paras[i]], cfg);
    assert Feed(pre, [paras[i]], cfg) == Step(pre, paras[i], cfg);
    var h := Home(paras, cfg, i);
    assert st.buf[|st.buf| - 1] == paras[i];
    assert Pending(st, h, paras[i]);
    assert paras == paras[..i + 1] + paras[i + 1..];
    FeedAppend(s0, paras[..i + 1], paras[i + 1..], cfg);
    var fin := Feed(s0, paras, cfg);
    FeedPending(st, paras[i + 1..], cfg, h, paras[i]);
    var r := ChunkWith(paras, cfg);
    if |fin.chunks| == h && paras[i] in fin.buf {
      var k :| 0 <= k < |fin.buf| && fin.buf[k] == paras[i];
      JoinHasElement(fin.buf, " ", k);
      assert r[h] == JoinSp(fin.buf);
    } else {
      assert r[h] == fin.chunks[h];
    }
  }

  /** The last paragraph is in the last chunk: with `HomeFirst` and
      `HomeStep`, every chunk is the home of some paragraph. */
  lemma HomeLast(paras: seq<string>, cfg: ChunkConfig)
    requires |paras| > 0
    ensures Home(paras, cfg, |paras| - 1) == |ChunkWith(paras, cfg)| - 1
  {
    var st := Feed(Chunker([], [], 0), paras, cfg);
    FeedWeight(Chunker([], [], 0), paras, cfg);
    assert |ChunkWith(paras, cfg)| == |st.chunks| + 1;
    assert paras[..|paras|] == paras;
  }

  /** Without overlap (intended rule) every step only moves words: those of
      the chunks and of the buffer are the words read so far. */
  lemma StepMovesWords(st: Chunker, p: string, cfg: ChunkConfig)
    requires cfg.rule == Intended && cfg.overlap <= 0
    ensures var n := Step(st, p, cfg);
            FlattenWords(n.chunks) + FlattenWords(n.buf) == FlattenWords(st.chunks) + FlattenWords(st.buf) + Words(p)
  {
    var n := Step(st, p, cfg);
    assert FlattenWords([p]) == Words(p) + FlattenWords([]);
    if |n.chunks| == |st.chunks| + 1 {
      FlattenWordsAppend(st.chunks, [JoinSp(st.buf)]);
      assert FlattenWords([JoinSp(st.buf)]) == Words(JoinSp(st.buf)) + FlattenWords([]);
      WordsOfJoinSp(st.buf);
      assert JoinSp([]) == [];
      assert n.buf == [p];
    } else {
      FlattenWordsAppend(st.buf, [p]);
    }
  }

  lemma {:induction false} FeedMovesWords(st: Chunker, paras: seq<string>, cfg: ChunkConfig)
    requires cfg.rule == Intended && cfg.overlap <= 0
    ensures var n := Feed(st, paras, cfg);
            FlattenWords(n.chunks) + FlattenWords(n.buf) == FlattenWords(st.chunks) + FlattenWords(st.buf) + FlattenWords(paras)
    decreases |paras|
  {
    if |paras| > 0 {
      StepMovesWords(st, paras[0], cfg);
      FeedMovesWords(Step(st, paras[0], cfg), paras[1..], cfg);
    }
  }

  /** Chunking without overlap partitions the words: read in order, the
      chunks hold every word of the paragraphs exactly once. */
  lemma NoOverlapKeepsWords(paras: seq<string>, target: int, overlap: int)
    requires overlap <= 0
    ensures FlattenWords(ChunkParagraphs(paras, target, overlap)) == FlattenWords(paras)
  {
    var cfg := ChunkConfig(target, overlap, Intended);
    var st := Feed(Chunker([], [], 0), paras, cfg);
    FeedMovesWords(Chunker([], [], 0), paras, cfg);
    assert FlattenWords([]) == [];
    assert FlattenWords(st.chunks) + FlattenWords(st.buf) == FlattenWords(paras);
    if |st.buf| > 0 {
      assert ChunkParagraphs(paras, target, overlap) == st.chunks + [JoinSp(st.buf)];
      FlattenWordsAppend(st.chunks, [JoinSp(st.buf)]);
      assert FlattenWords([JoinSp(st.buf)]) == Words(JoinSp(st.buf)) + FlattenWords([]);
      WordsOfJoinSp(st.buf);
    } else {
      assert FlattenWords(st.buf) == [];
    }
  }

  lemma {:induction false} FeedRulesAgree(st: Chunker, paras: seq<string>, target: int, overlap: int)
    requires overlap > 0
    ensures Feed(st, paras, ChunkConfig(target, overlap, AsWritten)) == Feed(st, paras, ChunkConfig(target, overlap, Intended))
    decreases |paras|
  {
    if |paras| > 0 {
      forall ws: seq<string> ensures Carry(ws, overlap, AsWritten) == Carry(ws, overlap, Intended) {
        CarryAgrees(ws, overlap);
      }
      var a := Step(st, paras[0], ChunkConfig(target, overlap, AsWritten));
      assert a == Step(st, paras[0], ChunkConfig(target, overlap, Intended));
      FeedRulesAgree(a, paras[1..], target, overlap);
    }
  }

  /** For a positive overlap — the default 80 among them — the slice as
      written and as intended give the same chunks. */
  lemma ChunkRulesAgree(paras: seq<string>, target: int, overlap: int)
    requires overlap > 0
    ensures ChunkParagraphsAsWritten(paras, target, overlap) == ChunkParagraphs(paras, target, overlap)
  {
    FeedRulesAgree(Chunker([], [], 0), paras, target, overlap);
  }

  /** With `overlap_tokens=0` the slice as written carries the whole chunk
      just cut into the next buffer, so every word is repeated. */
  lemma AsWrittenZeroRepeatsChunk(st: Chunker, p: string, target: int)
    requires |st.buf| > 0 && st.count + |Words(p)| > target
    ensures Words(JoinSp(Step(st, p, ChunkConfig(target, 0, AsWritten)).buf)) == Words(JoinSp(st.buf)) + Words(p)
  {
    CutCarriesOverlap(st, p, ChunkConfig(target, 0, AsWritten));
  }

  lemma WordsOfTwo()
    ensures Words("a b") == ["a", "b"]
    ensures Words("c") == ["c"]
    ensures Words("a b c") == ["a", "b", "c"]
  {
    assert JoinSp(["a", "b"]) == "a b";
    WordsOfJoinedWords(["a", "b"]);
    assert JoinSp(["c"]) == "c";
    WordsOfJoinedWords(["c"]);
    assert JoinSp(["a", "b", "c"]) == "a b c";
    WordsOfJoinedWords(["a", "b", "c"]);
  }

  /** The counterexample: paragraphs "a b" and "c", target 2, overlap 0. As
      written, the second chunk repeats the first; as intended, the chunks
      split the words. */
  lemma ZeroOverlapExample()
    ensures ChunkParagraphsAsWritten(["a b", "c"], 2, 0) == ["a b", "a b c"]
    ensures ChunkParagraphs(["a b", "c"], 2, 0) == ["a b", "c"]
  {
    ZeroOverlapAsWritten();
    ZeroOverlapIntended();
  }

  /** The code as written, on the example: the second chunk repeats the first. */
  lemma ZeroOverlapAsWritten()
    ensures ChunkParagraphsAsWritten(["a b", "c"], 2, 0) == ["a b", "a b c"]
  {
    WordsOfTwo();
    var paras := ["a b", "c"];
    var s0 := Chunker([], [], 0);
    var aw := ChunkConfig(2, 0, AsWritten);
    var s1 := Step(s0, "a b", aw);
    assert s1 == Chunker([], ["a b"], 2);
    assert JoinSp(["a b"]) == "a b";
    assert Carry(["a", "b"], 0, AsWritten) == ["a", "b"];
    assert JoinSp(["a", "b"]) == "a b";
    var s2 := Step(s1, "c", aw);
    assert s2 == Chunker(["a b"], ["a b", "c"], 3);
    assert Feed(s0, paras, aw) == s2 by {
      assert paras[1..] == ["c"];
      assert Feed(s1, ["c"], aw) == Feed(s2, [], aw);
    }
    assert JoinSp(["a b", "c"]) == "a b c";
  }

  /** The intended rule, on the example: each word in exactly one chunk. */
  lemma ZeroOverlapIntended()
    ensures ChunkParagraphs(["a b", "c"], 2, 0) == ["a b", "c"]
  {
    WordsOfTwo();
    var paras := ["a b", "c"];
    var s0 := Chunker([], [], 0);
    var iw := ChunkConfig(2, 0, Intended);
    var s1 := Step(s0, "a b", iw);
    assert s1 == Chunker([], ["a b"], 2);
    assert JoinSp(["a b"]) == "a b";
    assert JoinSp([]) == [];
    var t2 := Step(s1, "c", iw);
    assert t2 == Chunker(["a b"], ["c"], 1);
    assert Feed(s0, paras, iw) == t2 by {
      assert paras[1..] == ["c"];
      assert Feed(s1, ["c"], iw) == Feed(t2, [], iw);
    }
  }


  /** The count stays exact along the whole loop, from the empty start. */
  lemma {:induction false} FeedCounted(st: Chunker, paras: seq<string>, cfg: ChunkConfig)
    requires Counted(st)
    ensures Counted(Feed(st, paras, cfg))
    decreases |paras|
  {
    if |paras| > 0 {
      StepCounted(st, paras[0], cfg);
      FeedCounted(Step(st, paras[0], cfg), paras[1..], cfg);
    }
  }

  lemma StartCounted()
    ensures Counted(Chunker([], [], 0))
  {
    WordsOfEmpty();
  }

  // ---------------------------------------------------------------------------
  // Payloads (`build_payloads_from_file`)
  // ---------------------------------------------------------------------------

  /** The fields of one ingested chunk that the ingestion computes. */
  datatype IngestPayload = IngestPayload(
    refId: string, doc: string, docId: string, section: string, anchorId: string, text: string)

  /** `f"para-{n:04d}"` */
  function AnchorId(n: nat): string {
    "para-" + ZeroPad(n, 4)
  }

  /** The anchor names its number: the digits after "para-" parse back to it. */
  lemma AnchorIdNumber(n: nat)
    ensures |AnchorId(n)| >= 9
    ensures AnchorId(n)[..5] == "para-"
    ensures ParseDigits(AnchorId(n)[5..]) == n
  {
    assert AnchorId(n)[5..] == ZeroPad(n, 4);
    ParseZeroPad(n, 4);
  }

  lemma AnchorIdInjective(m: nat, n: nat)
    requires AnchorId(m) == AnchorId(n)
    ensures m == n
  {
    AnchorIdNumber(m);
    AnchorIdNumber(n);
  }

  function MakePayload(docTitle: string, docId: string, title: string, chunk: string, n: nat): IngestPayload {
    var anchor := AnchorId(n);
    IngestPayload(docId + "-" + anchor, docTitle, docId, title, anchor, chunk)
  }

  /** The inner loop over one section's chunks, numbering from `counter`. */
  function SectionPayloads(docTitle: string, docId: string, title: string, chunks: seq<string>, counter: nat): seq<IngestPayload>
    decreases |chunks|
  {
    if |chunks| == 0 then []
    else [MakePayload(docTitle, docId, title, chunks[0], counter)]
         + SectionPayloads(docTitle, docId, title, chunks[1..], counter + 1)
  }

  function SectionChunks(sec: Section): seq<string> {
    ChunkParagraphs(sec.paragraphs, TargetTokens, OverlapTokens)
  }

  /** The outer loop over the sections; the counter runs on across sections. */
  function PayloadsFrom(docTitle: string, docId: string, secs: seq<Section>, counter: nat): seq<IngestPayload>
    decreases |secs|
  {
    if |secs| == 0 then []
    else
      var cs := SectionChunks(secs[0]);
      SectionPayloads(docTitle, docId, secs[0].title, cs, counter)
      + PayloadsFrom(docTitle, docId, secs[1..], counter + |cs|)
  }

  /** `build_payloads_from_file` once the file is read: `docTitle` is the
      file's stem and `docId` the stem with its random suffix. */
  function BuildPayloads(text: string, docTitle: string, docId: string): seq<IngestPayload> {
    PayloadsFrom(docTitle, docId, SplitIntoSections(text), 1)
  }

  /** Each chunk paired with its section title. */
  function Tagged(title: string, chunks: seq<string>): (r: seq<(string, string)>)
    ensures |r| == |chunks|
  {
    if |chunks| == 0 then [] else [(title, chunks[0])] + Tagged(title, chunks[1..])
  }

  /** Every (section title, chunk) pair in document order. */
  function Pieces(secs: seq<Section>): seq<(string, string)> {
    if |secs| == 0 then [] else Tagged(secs[0].title, SectionChunks(secs[0])) + Pieces(secs[1..])
  }

  /** Payload number `k` (counting from `counter`) describes the `k`-th chunk. */
  ghost predicate Describes(ps: seq<IngestPayload>, docTitle: string, docId: string, pieces: seq<(string, string)>, counter: nat) {
    && |ps| == |pieces|
    && forall k :: 0 <= k < |ps| ==>
         && ps[k].anchorId == AnchorId(counter + k)
         && ps[k].refId == docId + "-" + ps[k].anchorId
         && ps[k].doc == docTitle && ps[k].docId == docId
         && ps[k].section == pieces[k].0 && ps[k].text == pieces[k].1
  }

  lemma DescribesOne(docTitle: string, docId: string, title: string, chunk: string, counter: nat)
    ensures Describes([MakePayload(docTitle, docId, title, chunk, counter)], docTitle, docId, [(title, chunk)], counter)
  {
  }

  lemma {:induction false} SectionPayloadsDescribe(docTitle: string, docId: string, title: string, chunks: seq<string>, counter: nat)
    ensures Describes(SectionPayloads(docTitle, docId, title, chunks, counter), docTitle, docId, Tagged(title, chunks), counter)
    decreases |chunks|
  {
    if |chunks| > 0 {
      SectionPayloadsDescribe(docTitle, docId, title, chunks[1..], counter + 1);
      DescribesOne(docTitle, docId, title, chunks[0], counter);
      DescribesAppend([MakePayload(docTitle, docId, title, chunks[0], counter)],
                      SectionPayloads(docTitle, docId, title, chunks[1..], counter + 1),
                      docTitle, docId, [(title, chunks[0])], Tagged(title, chunks[1..]), counter);
    }
  }

  lemma DescribesAppend(ps: seq<IngestPayload>, qs: seq<IngestPayload>, docTitle: string, docId: string,
                        xs: seq<(string, string)>, ys: seq<(string, string)>, counter: nat)
    requires Describes(ps, docTitle, docId, xs, counter)
    requires Describes(qs, docTitle, docId, ys, counter + |xs|)
    ensures Describes(ps + qs, docTitle, docId, xs + ys, counter)
  {
    forall k | |ps| <= k < |ps| + |qs|
      ensures (ps + qs)[k].anchorId == AnchorId(counter + k)
    {
      assert (ps + qs)[k] == qs[k - |ps|];
    }
  }

  lemma {:induction false} PayloadsFromDescribe(docTitle: string, docId: string, secs: seq<Section>, counter: nat)
    ensures Describes(PayloadsFrom(docTitle, docId, secs, counter), docTitle, docId, Pieces(secs), counter)
    decreases |secs|
  {
    if |secs| > 0 {
      var cs := SectionChunks(secs[0]);
      var head := Tagged(secs[0].title, cs);
      SectionPayloadsDescribe(docTitle, docId, secs[0].title, cs, counter);
      PayloadsFromDescribe(docTitle, docId, secs[1..], counter + |cs|);
      DescribesAppend(SectionPayloads(docTitle, docId, secs[0].title, cs, counter),
                      PayloadsFrom(docTitle, docId, secs[1..], counter + |cs|),
                      docTitle, docId, head, Pieces(secs[1..]), counter);
    }
  }

  /** The payloads number the chunks of all sections consecutively from
      "para-0001", in document order, and every reference id is the document
      id followed by the anchor. */
  lemma BuildPayloadsNumbering(text: string, docTitle: string, docId: string)
    ensures Describes(BuildPayloads(text, docTitle, docId), docTitle, docId, Pieces(SplitIntoSections(text)), 1)
  {
    PayloadsFromDescribe(docTitle, docId, SplitIntoSections(text), 1);
  }

  /** Anchors, and so reference ids, are unique within one document. */
  lemma BuildPayloadsDistinct(text: string, docTitle: string, docId: string, i: nat, j: nat)
    requires i < j < |BuildPayloads(text, docTitle, docId)|
    ensures BuildPayloads(text, docTitle, docId)[i].anchorId != BuildPayloads(text, docTitle, docId)[j].anchorId
    ensures BuildPayloads(text, docTitle, docId)[i].refId != BuildPayloads(text, docTitle, docId)[j].refId
  {
    BuildPayloadsNumbering(text, docTitle, docId);
    DescribedDistinct(BuildPayloads(text, docTitle, docId), docTitle, docId, Pieces(SplitIntoSections(text)), 1, i, j);
  }

  /** Payloads numbered consecutively carry distinct anchors and reference ids. */
  lemma DescribedDistinct(ps: seq<IngestPayload>, docTitle: string, docId: string,
                          pieces: seq<(string, string)>, counter: nat, i: nat, j: nat)
    requires Describes(ps, docTitle, docId, pieces, counter) && i < j < |ps|
    ensures ps[i].anchorId != ps[j].anchorId && ps[i].refId != ps[j].refId
  {
    var pre := docId + "-";
    assert ps[i].anchorId == AnchorId(counter + i) && ps[i].refId == pre + ps[i].anchorId;
    assert ps[j].anchorId == AnchorId(counter + j) && ps[j].refId == pre + ps[j].anchorId;
    if ps[i].anchorId == ps[j].anchorId {
      AnchorIdInjective(counter + i, counter + j);
    }
    assert ps[i].refId[|pre|..] == ps[i].anchorId;
    assert ps[j].refId[|pre|..] == ps[j].anchorId;
  }


  /** A section yields payloads exactly when it has paragraphs, so a document
      yields none exactly when no section has a paragraph. */
  lemma {:induction false} PiecesEmpty(secs: seq<Section>)
    ensures |Pieces(secs)| == 0 <==> forall k :: 0 <= k < |secs| ==> secs[k].paragraphs == []
    decreases |secs|
  {
    if |secs| > 0 {
      ChunkCount(secs[0].paragraphs, ChunkConfig(TargetTokens, OverlapTokens, Intended));
      PiecesEmpty(secs[1..]);
      if forall k :: 0 <= k < |secs| ==> secs[k].paragraphs == [] {
        assert forall k :: 0 <= k < |secs[1..]| ==> secs[1..][k].paragraphs == [] by {
          forall k | 0 <= k < |secs[1..]| ensures secs[1..][k].paragraphs == [] {
            assert secs[1..][k] == secs[k + 1];
          }
        }
      }
      if forall k :: 0 <= k < |secs[1..]| ==> secs[1..][k].paragraphs == [] {
        if secs[0].paragraphs == [] {
          forall k | 0 <= k < |secs| ensures secs[k].paragraphs == [] {
            if k > 0 { assert secs[k] == secs[1..][k - 1]; }
          }
        }
      }
    }
  }
}

=== FILE: hits.dfy ===
/** The records that flow between retrieval, prompting, grounding and the
    action rules. Python passes them as dictionaries; a key that may be missing
    is an `Option` here. */
module Hits {
  import opened Wrappers

  /** The chunk metadata stored with a vector (the keys the core reads). */
  datatype Payload = Payload(doc: Option<string>, section: Option<string>, text: Option<string>)

  /** One semantic (vector) search hit: `{"id", "score", "payload"}`. */
  datatype SemHit = SemHit(id: string, score: real, payload: Option<Payload>)

  /** One lexical search hit: `{"id", "bm25"}`; it never carries a payload. */
  datatype LexHit = LexHit(id: string, bm25: real)

  /** One entry of the fused ranking: the raw semantic score (backfilled), the
      raw BM25 score when the id was a lexical hit, the payload when the id was
      a semantic hit, and `score_merged`. These are the snippets the rest of the
      pipeline consumes. */
  datatype FusedHit = FusedHit(id: string, semantic: real, bm25: Option<real>, payload: Option<Payload>, merged: real)

  /** Why `resolve_ticket` raises: a snippet without a payload (a `KeyError` in
      the prompt builder for a lexical-only hit, an `AttributeError` for a
      semantic hit whose payload is `None`), or model output that fails
      validation twice. */
  datatype Fault = MissingPayload(id: string) | InvalidOutput
}

=== FILE: merged_retriever.dfy ===
/** Hybrid score fusion (`search_merged`): union of semantic and lexical hits
    keyed by id, backfill of missing semantic scores, per-column min-max
    normalisation, the weighted sum `alpha*s + (1-alpha)*b`, a stable
    descending sort and truncation to `top_k`. */
module MergedRetriever {
  import opened Wrappers
  import opened Ranking
  import opened Hits
  import Bm25Store

  // ---------------------------------------------------------------------------
  // Min-max normalisation
  // ---------------------------------------------------------------------------

  function MinOf(vs: seq<real>): (m: real)
    requires |vs| > 0
    ensures m in vs
    ensures forall i :: 0 <= i < |vs| ==> m <= vs[i]
  {
    if |vs| == 1 then vs[0]
    else
      var m := MinOf(vs[1..]);
      assert forall i :: 1 <= i < |vs| ==> vs[i] == vs[1..][i - 1];
      if vs[0] <= m then vs[0] else m
  }

  function MaxOf(vs: seq<real>): (m: real)
    requires |vs| > 0
    ensures m in vs
    ensures forall i :: 0 <= i < |vs| ==> vs[i] <= m
  {
    if |vs| == 1 then vs[0]
    else
      var m := MaxOf(vs[1..]);
      assert forall i :: 1 <= i < |vs| ==> vs[i] == vs[1..][i - 1];
      if vs[0] >= m then vs[0] else m
  }

  lemma DivideWithinUnit(a: real, d: real)
    requires 0.0 <= a <= d && d > 0.0
    ensures 0.0 <= a / d <= 1.0
  {
    assert a / d * d == a;
  }

  lemma DivideMonotone(a: real, b: real, d: real)
    requires a <= b && d > 0.0
    ensures a / d <= b / d
  {
    assert (b - a) / d >= 0.0 by {
      assert (b - a) / d * d == b - a;
    }
    assert b / d - a / d == (b - a) / d;
  }

  lemma DivideStrict(a: real, b: real, d: real)
    requires a < b && d > 0.0
    ensures a / d < b / d
  {
    assert (b - a) / d > 0.0 by {
      assert (b - a) / d * d == b - a;
    }
    assert b / d - a / d == (b - a) / d;
  }

  /** The affine map of [lo, hi] onto [0, 1]. */
  function Rescale(v: real, lo: real, hi: real): (x: real)
    requires lo <= v <= hi && lo < hi
    ensures x * (hi - lo) == v - lo
    ensures 0.0 <= x <= 1.0
    ensures v == lo ==> x == 0.0
    ensures v == hi ==> x == 1.0
  {
    DivideWithinUnit(v - lo, hi - lo);
    (v - lo) / (hi - lo)
  }

  lemma RescaleMonotone(v: real, w: real, lo: real, hi: real)
    requires lo <= v <= w <= hi && lo < hi
    ensures Rescale(v, lo, hi) <= Rescale(w, lo, hi)
  {
    DivideMonotone(v - lo, w - lo, hi - lo);
  }

  lemma RescaleStrict(v: real, w: real, lo: real, hi: real)
    requires lo <= v < w <= hi && lo < hi
    ensures Rescale(v, lo, hi) < Rescale(w, lo, hi)
  {
    DivideStrict(v - lo, w - lo, hi - lo);
  }

  /** `_minmax_norm`: the empty list stays empty; a constant column (one value
      included) becomes all 1.0; otherwise every value is mapped affinely onto
      [0, 1], the minimum to 0 and the maximum to 1. */
  function MinMaxNorm(vs: seq<real>): (r: seq<real>)
    ensures |r| == |vs|
    ensures forall i :: 0 <= i < |r| ==> 0.0 <= r[i] <= 1.0
    ensures |vs| > 0 && MinOf(vs) == MaxOf(vs) ==> forall i :: 0 <= i < |r| ==> r[i] == 1.0
    ensures |vs| > 0 && MinOf(vs) < MaxOf(vs) ==>
              forall i :: 0 <= i < |r| && vs[i] == MinOf(vs) ==> r[i] == 0.0
    ensures forall i :: 0 <= i < |r| && vs[i] == MaxOf(vs) ==> r[i] == 1.0
    ensures |vs| > 0 && MinOf(vs) < MaxOf(vs) ==> Affine(vs, r, MinOf(vs), MaxOf(vs))
  {
    if |vs| == 0 then vs
    else
      var lo := MinOf(vs);
      var hi := MaxOf(vs);
      if hi == lo then seq(|vs|, _ => 1.0)
      else RescaleAll(vs, lo, hi)
  }

  /** `r[i] == (vs[i] - lo) / (hi - lo)` for every `i`, stated without division. */
  ghost predicate Affine(vs: seq<real>, r: seq<real>, lo: real, hi: real) {
    |r| == |vs| && forall i :: 0 <= i < |r| ==> r[i] * (hi - lo) == vs[i] - lo
  }

  /** Every value of `vs` rescaled from [lo, hi]. */
  function RescaleAll(vs: seq<real>, lo: real, hi: real): (r: seq<real>)
    requires lo < hi && forall i :: 0 <= i < |vs| ==> lo <= vs[i] <= hi
    ensures |r| == |vs|
    ensures forall i :: 0 <= i < |r| ==> r[i] == Rescale(vs[i], lo, hi)
    ensures Affine(vs, r, lo, hi)
  {
    seq(|vs|, i requires 0 <= i < |vs| => Rescale(vs[i], lo, hi))
  }

  /** Normalisation preserves the order of any two values of the column. */
  lemma MinMaxNormMonotone(vs: seq<real>, i: nat, j: nat)
    requires i < |vs| && j < |vs| && vs[i] <= vs[j]
    ensures MinMaxNorm(vs)[i] <= MinMaxNorm(vs)[j]
  {
    var lo := MinOf(vs);
    var hi := MaxOf(vs);
    if lo < hi {
      RescaleMonotone(vs[i], vs[j], lo, hi);
    }
  }

  /** A strictly smaller value normalises strictly lower: the map is
      injective on the column, never a step. */
  lemma MinMaxNormStrict(vs: seq<real>, i: nat, j: nat)
    requires i < |vs| && j < |vs| && vs[i] < vs[j]
    ensures MinMaxNorm(vs)[i] < MinMaxNorm(vs)[j]
  {
    var lo := MinOf(vs);
    var hi := MaxOf(vs);
    assert lo <= vs[i] < vs[j] <= hi;
    RescaleStrict(vs[i], vs[j], lo, hi);
  }

  /** A column whose values are all equal, however it is written. */
  lemma ConstantColumn(vs: seq<real>, c: real)
    requires |vs| > 0 && forall i :: 0 <= i < |vs| ==> vs[i] == c
    ensures forall i :: 0 <= i < |vs| ==> MinMaxNorm(vs)[i] == 1.0
  {
    assert MinOf(vs) == c && MaxOf(vs) == c;
  }

  // ---------------------------------------------------------------------------
  // Candidate union
  // ---------------------------------------------------------------------------

  /** One entry of the `cand` dictionary: the keys "semantic", "bm25" and
      "payload" may each be missing. */
  datatype Candidate = Candidate(id: string, semantic: Option<real>, bm25: Option<real>, payload: Option<Payload>)

  predicate UniqueIds(cs: seq<Candidate>) {
    forall i, j :: 0 <= i < j < |cs| ==> cs[i].id != cs[j].id
  }

  function Ids(cs: seq<Candidate>): set<string> {
    set i | 0 <= i < |cs| :: cs[i].id
  }

  function SemIds(hs: seq<SemHit>): set<string> {
    set i | 0 <= i < |hs| :: hs[i].id
  }

  function LexIds(hs: seq<LexHit>): set<string> {
    set i | 0 <= i < |hs| :: hs[i].id
  }

  /** Position of `id` in the candidate list, if present. */
  function Find(cs: seq<Candidate>, id: string): (r: Option<nat>)
    ensures r.Some? ==> r.value < |cs| && cs[r.value].id == id
    ensures r.None? ==> id !in Ids(cs)
  {
    if |cs| == 0 then None
    else if cs[|cs| - 1].id == id then Some(|cs| - 1)
    else
      var r := Find(cs[..|cs| - 1], id);
      assert Ids(cs) == Ids(cs[..|cs| - 1]) + {cs[|cs| - 1].id};
      r
  }

  /** `cand.setdefault(pid, {}).update({"id", "semantic", "payload"})`. */
  function PutSemantic(cs: seq<Candidate>, h: SemHit): seq<Candidate> {
    match Find(cs, h.id)
    case Some(i) => cs[i := cs[i].(semantic := Some(h.score), payload := h.payload)]
    case None => cs + [Candidate(h.id, Some(h.score), None, h.payload)]
  }

  /** `cand.setdefault(pid, {}).update({"id", "bm25"})`. */
  function PutLexical(cs: seq<Candidate>, h: LexHit): seq<Candidate> {
    match Find(cs, h.id)
    case Some(i) => cs[i := cs[i].(bm25 := Some(h.bm25))]
    case None => cs + [Candidate(h.id, None, Some(h.bm25), None)]
  }

  /** The last semantic hit for `id`: the one whose values survive the updates. */
  function LastSem(hs: seq<SemHit>, id: string): (r: Option<SemHit>)
    ensures r.Some? <==> id in SemIds(hs)
    ensures r.Some? ==> r.value.id == id
  {
    if |hs| == 0 then None
    else
      assert SemIds(hs) == SemIds(hs[..|hs| - 1]) + {hs[|hs| - 1].id};
      if hs[|hs| - 1].id == id then Some(hs[|hs| - 1]) else LastSem(hs[..|hs| - 1], id)
  }

  /** The BM25 score of the last lexical hit for `id`. */
  function LastLex(hs: seq<LexHit>, id: string): (r: Option<real>)
    ensures r.Some? <==> id in LexIds(hs)
  {
    if |hs| == 0 then None
    else
      assert LexIds(hs) == LexIds(hs[..|hs| - 1]) + {hs[|hs| - 1].id};
      if hs[|hs| - 1].id == id then Some(hs[|hs| - 1].bm25) else LastLex(hs[..|hs| - 1], id)
  }

  /** What the semantic pass records for `id`. */
  function SemEntry(hs: seq<SemHit>, id: string): Candidate {
    match LastSem(hs, id)
    case Some(h) => Candidate(id, Some(h.score), None, h.payload)
    case None => Candidate(id, None, None, None)
  }

  /** What the semantic pass guarantees after reading the hits `hs`. */
  ghost predicate SemInv(hs: seq<SemHit>, r: seq<Candidate>) {
    && UniqueIds(r)
    && Ids(r) == SemIds(hs)
    && forall i :: 0 <= i < |r| ==> r[i] == SemEntry(hs, r[i].id)
  }

  /** One more hit replaces the entry of its own id and no other. */
  lemma SemEntrySnoc(init: seq<SemHit>, h: SemHit, id: string)
    ensures SemIds(init + [h]) == SemIds(init) + {h.id}
    ensures SemEntry(init + [h], id) == if id == h.id then Candidate(id, Some(h.score), None, h.payload) else SemEntry(init, id)
  {
    var hs := init + [h];
    assert hs[..|hs| - 1] == init && hs[|hs| - 1] == h;
  }

  lemma PutSemanticFound(init: seq<SemHit>, h: SemHit, prev: seq<Candidate>, k: nat)
    requires SemInv(init, prev) && Find(prev, h.id) == Some(k)
    ensures SemInv(init + [h], PutSemantic(prev, h))
  {
    var r := PutSemantic(prev, h);
    var hs := init + [h];
    SemEntrySnoc(init, h, h.id);
    assert Ids(r) == Ids(prev) by {
      forall i | 0 <= i < |r| ensures r[i].id == prev[i].id {}
    }
    forall i | 0 <= i < |r| ensures r[i] == SemEntry(hs, r[i].id) {
      SemEntrySnoc(init, h, r[i].id);
    }
  }

  lemma PutSemanticNew(init: seq<SemHit>, h: SemHit, prev: seq<Candidate>)
    requires SemInv(init, prev) && Find(prev, h.id).None?
    ensures SemInv(init + [h], PutSemantic(prev, h))
  {
    var r := PutSemantic(prev, h);
    var hs := init + [h];
    SemEntrySnoc(init, h, h.id);
    assert forall i :: 0 <= i < |prev| ==> r[i] == prev[i];
    assert r[|prev|].id == h.id;
    assert Ids(r) == Ids(prev) + {h.id};
    forall i | 0 <= i < |r| ensures r[i] == SemEntry(hs, r[i].id) {
      SemEntrySnoc(init, h, r[i].id);
    }
  }

  /** The loop over `sem_hits`: one candidate per distinct id, in order of first
      appearance, holding the score and payload of that id's last hit. */
  function SemUnion(hs: seq<SemHit>): (r: seq<Candidate>)
    ensures UniqueIds(r)
    ensures Ids(r) == SemIds(hs)
    ensures forall i :: 0 <= i < |r| ==> r[i] == SemEntry(hs, r[i].id)
  {
    if |hs| == 0 then []
    else
      var init := hs[..|hs| - 1];
      var h := hs[|hs| - 1];
      var prev := SemUnion(init);
      assert init + [h] == hs;
      match Find(prev, h.id)
      case Some(k) =>
        PutSemanticFound(init, h, prev, k);
        PutSemantic(prev, h)
      case None =>
        PutSemanticNew(init, h, prev);
        PutSemantic(prev, h)
  }

  /** The BM25 field of a candidate of `base` after the lexical pass. */
  function LexField(hs: seq<LexHit>, c: Candidate): Option<real> {
    if c.id in LexIds(hs) then LastLex(hs, c.id) else c.bm25
  }

  /** What the lexical pass guarantees after reading the hits `hs`. */
  ghost predicate LexInv(base: seq<Candidate>, hs: seq<LexHit>, r: seq<Candidate>) {
    && UniqueIds(r)
    && |r| >= |base|
    && Ids(r) == Ids(base) + LexIds(hs)
    && (forall i :: 0 <= i < |base| ==> r[i] == base[i].(bm25 := LexField(hs, base[i])))
    && (forall i :: |base| <= i < |r| ==> r[i] == Candidate(r[i].id, None, LastLex(hs, r[i].id), None))
    && (forall i :: |base| <= i < |r| ==> r[i].id !in Ids(base))
  }

  lemma LexIdsSnoc(init: seq<LexHit>, h: LexHit)
    ensures LexIds(init + [h]) == LexIds(init) + {h.id}
    ensures forall id :: id != h.id ==> LastLex(init + [h], id) == LastLex(init, id)
    ensures LastLex(init + [h], h.id) == Some(h.bm25)
  {
    var hs := init + [h];
    assert hs[..|init|] == init;
    forall id | id in LexIds(init) ensures id in LexIds(hs) {
      var i :| 0 <= i < |init| && init[i].id == id;
      assert hs[i].id == id;
    }
    assert hs[|init|].id == h.id;
  }

  /** The lexical step for an id that is already a candidate. */
  lemma PutLexicalFound(base: seq<Candidate>, init: seq<LexHit>, h: LexHit, prev: seq<Candidate>, k: nat)
    requires UniqueIds(base) && LexInv(base, init, prev)
    requires k < |prev| && prev[k].id == h.id
    ensures LexInv(base, init + [h], prev[k := prev[k].(bm25 := Some(h.bm25))])
  {
    var hs := init + [h];
    LexIdsSnoc(init, h);
    var r := prev[k := prev[k].(bm25 := Some(h.bm25))];
    UpdateKeepsIds(prev, k, prev[k].(bm25 := Some(h.bm25)));
    assert h.id in Ids(prev);
    assert forall i :: 0 <= i < |base| ==> r[i] == base[i].(bm25 := LexField(hs, base[i])) by {
      forall i | 0 <= i < |base| ensures r[i] == base[i].(bm25 := LexField(hs, base[i])) {
        if i != k {
          assert base[i].id == prev[i].id != h.id;
        }
      }
    }
    assert forall i :: |base| <= i < |r| ==> r[i] == Candidate(r[i].id, None, LastLex(hs, r[i].id), None) by {
      forall i | |base| <= i < |r| ensures r[i] == Candidate(r[i].id, None, LastLex(hs, r[i].id), None) {
        if i != k {
          assert prev[i].id != h.id;
        }
      }
    }
    assert forall i :: |base| <= i < |r| ==> r[i].id !in Ids(base) by {
      assert forall i :: 0 <= i < |r| ==> r[i].id == prev[i].id;
    }
  }

  /** Replacing a candidate by one with the same id changes no id. */
  lemma UpdateKeepsIds(cs: seq<Candidate>, k: nat, c: Candidate)
    requires k < |cs| && c.id == cs[k].id
    ensures forall i :: 0 <= i < |cs| ==> cs[k := c][i].id == cs[i].id
    ensures Ids(cs[k := c]) == Ids(cs)
    ensures UniqueIds(cs) ==> UniqueIds(cs[k := c])
  {
    var r := cs[k := c];
    assert forall i :: 0 <= i < |r| ==> r[i].id == cs[i].id;
    assert Ids(r) == Ids(cs);
  }

  /** Appending a candidate with a new id keeps the ids unique. */
  lemma AppendNewId(cs: seq<Candidate>, c: Candidate)
    requires UniqueIds(cs) && c.id !in Ids(cs)
    ensures UniqueIds(cs + [c]) && Ids(cs + [c]) == Ids(cs) + {c.id}
  {
    var r := cs + [c];
    assert forall i :: 0 <= i < |cs| ==> r[i] == cs[i];
    assert r[|cs|] == c;
    forall i | 0 <= i < |cs| ensures r[i].id != c.id {
      assert cs[i].id in Ids(cs);
    }
    assert Ids(r) == Ids(cs) + {c.id};
  }

  /** The lexical step for an id not yet among the candidates. */
  lemma PutLexicalNew(base: seq<Candidate>, init: seq<LexHit>, h: LexHit, prev: seq<Candidate>)
    requires UniqueIds(base) && LexInv(base, init, prev)
    requires h.id !in Ids(prev)
    ensures LexInv(base, init + [h], prev + [Candidate(h.id, None, Some(h.bm25), None)])
  {
    var hs := init + [h];
    LexIdsSnoc(init, h);
    var r := prev + [Candidate(h.id, None, Some(h.bm25), None)];
    assert forall i :: 0 <= i < |prev| ==> r[i] == prev[i];
    assert forall i :: 0 <= i < |base| ==> base[i].id != h.id by {
      forall i | 0 <= i < |base| ensures base[i].id != h.id {
        assert prev[i].id in Ids(prev);
      }
    }
    AppendNewId(prev, Candidate(h.id, None, Some(h.bm25), None));
    assert forall i :: 0 <= i < |base| ==> r[i] == base[i].(bm25 := LexField(hs, base[i])) by {
      forall i | 0 <= i < |base| ensures r[i] == base[i].(bm25 := LexField(hs, base[i])) {
        assert base[i].id == prev[i].id;
      }
    }
    assert forall i :: |base| <= i < |r| ==> r[i] == Candidate(r[i].id, None, LastLex(hs, r[i].id), None) by {
      forall i | |base| <= i < |prev| ensures r[i] == Candidate(r[i].id, None, LastLex(hs, r[i].id), None) {
        assert prev[i].id in Ids(prev);
      }
    }
    assert forall i :: |base| <= i < |r| ==> r[i].id !in Ids(base) by {
      assert h.id !in Ids(base);
    }
  }

  /** One iteration of the lexical loop keeps `LexInv`. */
  lemma PutLexicalStep(base: seq<Candidate>, init: seq<LexHit>, h: LexHit, prev: seq<Candidate>)
    requires UniqueIds(base) && LexInv(base, init, prev)
    ensures LexInv(base, init + [h], PutLexical(prev, h))
  {
    match Find(prev, h.id)
    case Some(k) => PutLexicalFound(base, init, h, prev, k);
    case None => PutLexicalNew(base, init, h, prev);
  }

  /** The loop over `bm25_hits`, starting from the semantic candidates: ids
      already present keep their place and gain a BM25 score; new ids are
      appended, in order of first appearance, with a BM25 score only. */
  function LexUnion(base: seq<Candidate>, hs: seq<LexHit>): (r: seq<Candidate>)
    requires UniqueIds(base)
    ensures LexInv(base, hs, r)
  {
    if |hs| == 0 then
      LexInvStart(base, hs);
      base
    else
      var prev := LexUnion(base, hs[..|hs| - 1]);
      LexUnionStep(base, hs, prev);
      PutLexical(prev, hs[|hs| - 1])
  }

  /** Before any lexical hit, the semantic candidates are unchanged. */
  lemma LexInvStart(base: seq<Candidate>, hs: seq<LexHit>)
    requires UniqueIds(base) && |hs| == 0
    ensures LexInv(base, hs, base)
  {
    assert LexIds(hs) == {};
    forall i | 0 <= i < |base| ensures base[i] == base[i].(bm25 := LexField(hs, base[i])) {
      assert base[i].id !in LexIds(hs);
    }
  }

  lemma LexUnionStep(base: seq<Candidate>, hs: seq<LexHit>, prev: seq<Candidate>)
    requires UniqueIds(base) && |hs| > 0 && LexInv(base, hs[..|hs| - 1], prev)
    ensures LexInv(base, hs, PutLexical(prev, hs[|hs| - 1]))
  {
    var init, h := hs[..|hs| - 1], hs[|hs| - 1];
    assert init + [h] == hs;
    PutLexicalStep(base, init, h, prev);
  }

  function Union(sem: seq<SemHit>, lex: seq<LexHit>): seq<Candidate> {
    LexUnion(SemUnion(sem), lex)
  }

  /** Candidate ids are unique and are exactly the ids of the two hit lists;
      semantic hits come first, then the ids seen only lexically; each field
      holds the last hit's value for that id, and is missing otherwise. */
  lemma UnionSpec(sem: seq<SemHit>, lex: seq<LexHit>)
    ensures var r := Union(sem, lex);
      && UniqueIds(r)
      && Ids(r) == SemIds(sem) + LexIds(lex)
      && (forall i :: 0 <= i < |r| ==> (r[i].semantic.Some? <==> r[i].id in SemIds(sem)))
      && (forall i :: 0 <= i < |r| ==> r[i].bm25 == LastLex(lex, r[i].id))
      && (forall i :: 0 <= i < |r| ==> r[i].semantic == (match LastSem(sem, r[i].id) case Some(h) => Some(h.score) case None => None))
      && (forall i :: 0 <= i < |r| ==> r[i].payload == (match LastSem(sem, r[i].id) case Some(h) => h.payload case None => None))
      && (forall i, j :: 0 <= i < j < |r| && r[j].semantic.Some? ==> r[i].semantic.Some?)
  {
    var s := SemUnion(sem);
    var r := Union(sem, lex);
    forall i | 0 <= i < |s| ensures r[i].id == s[i].id && r[i].id in SemIds(sem) {
      assert s[i].id in Ids(s);
    }
    forall i | 0 <= i < |r| ensures r[i].bm25 == LastLex(lex, r[i].id) {
      if i < |s| {
        assert s[i].bm25 == None;
      }
    }
    forall i | |s| <= i < |r| ensures r[i].id !in SemIds(sem) {
    }
  }

  // ---------------------------------------------------------------------------
  // Insertion order of the candidate dictionary
  // ---------------------------------------------------------------------------

  /** The keys of a Python dict that starts with keys `acc` after `xs` are
      inserted in turn: a key already present keeps its place, a new key goes
      to the end. */
  function InsertOrder(acc: seq<string>, xs: seq<string>): seq<string>
    decreases |xs|
  {
    if |xs| == 0 then acc
    else
      var p := InsertOrder(acc, xs[..|xs| - 1]);
      if xs[|xs| - 1] in p then p else p + [xs[|xs| - 1]]
  }

  /** The position of the first occurrence of `x` in `xs`. */
  function FirstIndex(xs: seq<string>, x: string): (r: nat)
    requires x in xs
    ensures r < |xs| && xs[r] == x
    ensures forall k :: 0 <= k < r ==> xs[k] != x
  {
    if xs[0] == x then 0 else 1 + FirstIndex(xs[1..], x)
  }

  /** The ids of a candidate list, in order. */
  function IdSeq(cs: seq<Candidate>): (r: seq<string>)
    ensures |r| == |cs| && forall i :: 0 <= i < |cs| ==> r[i] == cs[i].id
  {
    seq(|cs|, i requires 0 <= i < |cs| => cs[i].id)
  }

  function SemIdSeq(hs: seq<SemHit>): (r: seq<string>)
    ensures |r| == |hs| && forall i :: 0 <= i < |hs| ==> r[i] == hs[i].id
  {
    seq(|hs|, i requires 0 <= i < |hs| => hs[i].id)
  }

  function LexIdSeq(hs: seq<LexHit>): (r: seq<string>)
    ensures |r| == |hs| && forall i :: 0 <= i < |hs| ==> r[i] == hs[i].id
  {
    seq(|hs|, i requires 0 <= i < |hs| => hs[i].id)
  }

  /** A first occurrence inside a prefix is the first occurrence in the whole. */
  lemma FirstIndexPrefix(xs: seq<string>, m: nat, x: string)
    requires m <= |xs| && x in xs[..m]
    ensures x in xs && FirstIndex(xs, x) == FirstIndex(xs[..m], x)
  {
    var b := FirstIndex(xs[..m], x);
    assert xs[b] == x;
  }

  /** Inserting the keys `xs` then `ys` is inserting `xs + ys`. */
  lemma {:induction false} InsertOrderAppend(acc: seq<string>, xs: seq<string>, ys: seq<string>)
    ensures InsertOrder(acc, xs + ys) == InsertOrder(InsertOrder(acc, xs), ys)
    decreases |ys|
  {
    if |ys| == 0 {
      assert xs + ys == xs;
    } else {
      var zs := xs + ys;
      assert zs[..|zs| - 1] == xs + ys[..|ys| - 1];
      assert zs[|zs| - 1] == ys[|ys| - 1];
      InsertOrderAppend(acc, xs, ys[..|ys| - 1]);
    }
  }

  /** Every element of `d` occurs in `xs`, and `d` lists them by the position
      of their first occurrence in `xs` (so no element twice). */
  predicate FirstOrdered(xs: seq<string>, d: seq<string>) {
    && (forall i :: 0 <= i < |d| ==> d[i] in xs)
    && (forall i, j :: 0 <= i < j < |d| ==> d[i] in xs && d[j] in xs && FirstIndex(xs, d[i]) < FirstIndex(xs, d[j]))
  }

  /** Starting from no keys, the dict holds each key of `xs` exactly once,
      ordered by the position of its first appearance in `xs`. */
  lemma {:induction false} InsertOrderFirst(xs: seq<string>)
    ensures forall x :: x in InsertOrder([], xs) <==> x in xs
    ensures FirstOrdered(xs, InsertOrder([], xs))
    decreases |xs|
  {
    if |xs| > 0 {
      var n := |xs| - 1;
      var init := xs[..n];
      var p := InsertOrder([], init);
      InsertOrderFirst(init);
      assert xs == init + [xs[n]];
      var d := InsertOrder([], xs);
      forall i | 0 <= i < |p| ensures p[i] in init && FirstIndex(xs, p[i]) == FirstIndex(init, p[i]) {
        assert p[i] in p;
        FirstIndexPrefix(xs, n, p[i]);
      }
      if xs[n] in p {
        assert d == p;
      } else {
        assert xs[n] !in init;
        assert FirstIndex(xs, xs[n]) == n;
        assert d == p + [xs[n]];
        forall i, j | 0 <= i < j < |d|
          ensures d[i] in xs && d[j] in xs && FirstIndex(xs, d[i]) < FirstIndex(xs, d[j])
        {
          assert d[i] == p[i];
          if j < |p| {
            assert d[j] == p[j];
          }
        }
      }
    }
  }

  /** One semantic update: a known id keeps its place, a new id is appended. */
  lemma PutSemanticOrder(prev: seq<Candidate>, h: SemHit)
    ensures IdSeq(PutSemantic(prev, h)) == if h.id in IdSeq(prev) then IdSeq(prev) else IdSeq(prev) + [h.id]
  {
    match Find(prev, h.id)
    case Some(k) =>
      UpdateKeepsIds(prev, k, prev[k].(semantic := Some(h.score), payload := h.payload));
      assert IdSeq(prev)[k] == h.id;
    case None =>
      forall i | 0 <= i < |prev| ensures IdSeq(prev)[i] != h.id {
        assert prev[i].id in Ids(prev);
      }
      assert IdSeq(PutSemantic(prev, h)) == IdSeq(prev) + [h.id];
  }

  /** One lexical update: a known id keeps its place, a new id is appended. */
  lemma PutLexicalOrder(prev: seq<Candidate>, h: LexHit)
    ensures IdSeq(PutLexical(prev, h)) == if h.id in IdSeq(prev) then IdSeq(prev) else IdSeq(prev) + [h.id]
  {
    match Find(prev, h.id)
    case Some(k) =>
      UpdateKeepsIds(prev, k, prev[k].(bm25 := Some(h.bm25)));
      assert IdSeq(prev)[k] == h.id;
    case None =>
      forall i | 0 <= i < |prev| ensures IdSeq(prev)[i] != h.id {
        assert prev[i].id in Ids(prev);
      }
      assert IdSeq(PutLexical(prev, h)) == IdSeq(prev) + [h.id];
  }

  /** The semantic loop creates the candidates in first-appearance order of
      the semantic hits. */
  lemma {:induction false} SemUnionOrder(hs: seq<SemHit>)
    ensures IdSeq(SemUnion(hs)) == InsertOrder([], SemIdSeq(hs))
  {
    if |hs| > 0 {
      var init := hs[..|hs| - 1];
      SemUnionOrder(init);
      assert SemIdSeq(hs)[..|hs| - 1] == SemIdSeq(init);
      PutSemanticOrder(SemUnion(init), hs[|hs| - 1]);
    }
  }

  /** The lexical loop keeps the semantic candidates' order and appends the
      new ids in first-appearance order of the lexical hits. */
  lemma {:induction false} LexUnionOrder(base: seq<Candidate>, hs: seq<LexHit>)
    requires UniqueIds(base)
    ensures IdSeq(LexUnion(base, hs)) == InsertOrder(IdSeq(base), LexIdSeq(hs))
  {
    if |hs| > 0 {
      var init := hs[..|hs| - 1];
      LexUnionOrder(base, init);
      assert LexIdSeq(hs)[..|hs| - 1] == LexIdSeq(init);
      PutLexicalOrder(LexUnion(base, init), hs[|hs| - 1]);
    }
  }

  /** The candidate dict's key order is the insertion order of the semantic
      hit ids followed by the lexical hit ids. */
  lemma UnionOrder(sem: seq<SemHit>, lex: seq<LexHit>)
    ensures IdSeq(Union(sem, lex)) == InsertOrder([], SemIdSeq(sem) + LexIdSeq(lex))
  {
    SemUnionOrder(sem);
    LexUnionOrder(SemUnion(sem), lex);
    InsertOrderAppend([], SemIdSeq(sem), LexIdSeq(lex));
  }

  /** Within each leg, and across the two, candidates appear in the order in
      which their ids first appear in the semantic hits followed by the
      lexical hits. */
  lemma UnionFirstAppearance(sem: seq<SemHit>, lex: seq<LexHit>)
    ensures var r := Union(sem, lex);
            var all := SemIdSeq(sem) + LexIdSeq(lex);
            forall i, j :: 0 <= i < j < |r| ==> r[i].id in all && r[j].id in all && FirstIndex(all, r[i].id) < FirstIndex(all, r[j].id)
  {
    var r := Union(sem, lex);
    var all := SemIdSeq(sem) + LexIdSeq(lex);
    UnionOrder(sem, lex);
    InsertOrderFirst(all);
    var d := IdSeq(r);
    forall i, j | 0 <= i < j < |r|
      ensures r[i].id in all && r[j].id in all && FirstIndex(all, r[i].id) < FirstIndex(all, r[j].id)
    {
      assert d[i] == r[i].id && d[j] == r[j].id;
    }
  }

  // ---------------------------------------------------------------------------
  // Backfill, fusion and ranking
  // ---------------------------------------------------------------------------

  /** The dot product of the query vector with the stored vector of `id`, or
      `None` when the vector store has no vector for it. */
  type VectorSimilarity = string -> Option<real>

  /** The backfill pass: every candidate without a semantic score gets the
      similarity of its stored vector, or 0.0 when none is found. */
  function Backfill(cs: seq<Candidate>, sim: VectorSimilarity): (r: seq<Candidate>)
    ensures |r| == |cs|
    ensures forall i :: 0 <= i < |r| ==> r[i].semantic.Some?
    ensures forall i :: 0 <= i < |r| ==> r[i] == cs[i].(semantic := r[i].semantic)
    ensures forall i :: 0 <= i < |r| && cs[i].semantic.Some? ==> r[i].semantic == cs[i].semantic
    ensures forall i :: 0 <= i < |r| && cs[i].semantic.None? ==> r[i].semantic == Some(sim(cs[i].id).GetOr(0.0))
  {
    seq(|cs|, i requires 0 <= i < |cs| =>
      if cs[i].semantic.Some? then cs[i] else cs[i].(semantic := Some(sim(cs[i].id).GetOr(0.0))))
  }

  function SemColumn(cs: seq<Candidate>): (r: seq<real>)
    ensures |r| == |cs|
    ensures forall i :: 0 <= i < |cs| ==> r[i] == cs[i].semantic.GetOr(0.0)
  {
    seq(|cs|, i requires 0 <= i < |cs| => cs[i].semantic.GetOr(0.0))
  }

  /** A candidate absent from the lexical hits enters the BM25 column as 0.0. */
  function LexColumn(cs: seq<Candidate>): (r: seq<real>)
    ensures |r| == |cs|
    ensures forall i :: 0 <= i < |cs| ==> r[i] == cs[i].bm25.GetOr(0.0)
  {
    seq(|cs|, i requires 0 <= i < |cs| => cs[i].bm25.GetOr(0.0))
  }

  function Blend(alpha: real, s: real, b: real): real {
    alpha * s + (1.0 - alpha) * b
  }

  lemma NonNegMul(u: real, v: real)
    requires 0.0 <= u && 0.0 <= v
    ensures 0.0 <= u * v
  {
  }

  lemma PosMul(u: real, v: real)
    requires 0.0 < u && 0.0 < v
    ensures 0.0 < u * v
  {
  }

  lemma MulMonotone(a: real, x: real, y: real)
    requires 0.0 <= a && x <= y
    ensures a * x <= a * y
  {
    NonNegMul(a, y - x);
    assert a * y - a * x == a * (y - x);
  }

  lemma MulStrict(a: real, x: real, y: real)
    requires 0.0 < a && x < y
    ensures a * x < a * y
  {
    PosMul(a, y - x);
    assert a * y - a * x == a * (y - x);
  }

  /** The BM25 weight `1 - alpha`, written as in `Blend`, is monotone too. */
  lemma ComplementMonotone(alpha: real, x: real, y: real)
    requires alpha <= 1.0 && x <= y
    ensures (1.0 - alpha) * x <= (1.0 - alpha) * y
  {
    NonNegMul(1.0 - alpha, y - x);
    assert (1.0 - alpha) * y - (1.0 - alpha) * x == (1.0 - alpha) * (y - x);
  }

  lemma ComplementStrict(alpha: real, x: real, y: real)
    requires alpha < 1.0 && x < y
    ensures (1.0 - alpha) * x < (1.0 - alpha) * y
  {
    assert (1.0 - alpha) * y - (1.0 - alpha) * x == (1.0 - alpha) * (y - x);
    PosMul(1.0 - alpha, y - x);
    assert 0.0 < (1.0 - alpha) * y - (1.0 - alpha) * x;
  }

  /** A convex combination of two unit-interval values stays in the unit interval. */
  lemma BlendWithinUnit(alpha: real, s: real, b: real)
    requires 0.0 <= alpha <= 1.0 && 0.0 <= s <= 1.0 && 0.0 <= b <= 1.0
    ensures 0.0 <= Blend(alpha, s, b) <= 1.0
  {
    MulUnit(alpha, s);
    ComplementUnit(alpha, b);
  }

  lemma MulUnit(a: real, x: real)
    requires 0.0 <= a && 0.0 <= x <= 1.0
    ensures 0.0 <= a * x <= a
  {
    MulMonotone(a, 0.0, x);
    MulMonotone(a, x, 1.0);
  }

  lemma ComplementUnit(alpha: real, x: real)
    requires alpha <= 1.0 && 0.0 <= x <= 1.0
    ensures 0.0 <= (1.0 - alpha) * x <= 1.0 - alpha
  {
    ComplementMonotone(alpha, 0.0, x);
    ComplementMonotone(alpha, x, 1.0);
  }

  /** A convex combination rises strictly with an argument of positive weight. */
  lemma BlendStrict(alpha: real, s1: real, b1: real, s2: real, b2: real)
    requires 0.0 <= alpha <= 1.0 && s1 <= s2 && b1 <= b2
    requires (0.0 < alpha && s1 < s2) || (alpha < 1.0 && b1 < b2)
    ensures Blend(alpha, s1, b1) < Blend(alpha, s2, b2)
  {
    if 0.0 < alpha && s1 < s2 {
      MulStrict(alpha, s1, s2);
      ComplementMonotone(alpha, b1, b2);
    } else {
      MulMonotone(alpha, s1, s2);
      ComplementStrict(alpha, b1, b2);
    }
  }

  /** A convex combination is monotone in both arguments. */
  lemma BlendMonotone(alpha: real, s1: real, b1: real, s2: real, b2: real)
    requires 0.0 <= alpha <= 1.0 && s1 <= s2 && b1 <= b2
    ensures Blend(alpha, s1, b1) <= Blend(alpha, s2, b2)
  {
    if alpha == 0.0 || s1 == s2 {
      MulMonotone(alpha, s1, s2);
      ComplementMonotone(alpha, b1, b2);
    } else {
      BlendStrict(alpha, s1, b1, s2, b2);
    }
  }

  /** Normalise both columns across all candidates and attach `score_merged`;
      for `alpha` in [0, 1] every merged score lies in [0, 1]. */
  function Fuse(cs: seq<Candidate>, alpha: real): (r: seq<FusedHit>)
    ensures |r| == |cs|
    ensures forall i :: 0 <= i < |r| ==>
              && r[i].id == cs[i].id && r[i].bm25 == cs[i].bm25 && r[i].payload == cs[i].payload
              && r[i].semantic == cs[i].semantic.GetOr(0.0)
    ensures forall i :: 0 <= i < |r| ==>
              r[i].merged == alpha * MinMaxNorm(SemColumn(cs))[i] + (1.0 - alpha) * MinMaxNorm(LexColumn(cs))[i]
    ensures 0.0 <= alpha <= 1.0 ==> forall i :: 0 <= i < |r| ==> 0.0 <= r[i].merged <= 1.0
  {
    var sn := MinMaxNorm(SemColumn(cs));
    var bn := MinMaxNorm(LexColumn(cs));
    var r := seq(|cs|, i requires 0 <= i < |cs| =>
      FusedHit(cs[i].id, cs[i].semantic.GetOr(0.0), cs[i].bm25, cs[i].payload, Blend(alpha, sn[i], bn[i])));
    assert 0.0 <= alpha <= 1.0 ==> forall i :: 0 <= i < |r| ==> 0.0 <= r[i].merged <= 1.0 by {
      if 0.0 <= alpha <= 1.0 {
        forall i | 0 <= i < |r| ensures 0.0 <= r[i].merged <= 1.0 {
          BlendWithinUnit(alpha, sn[i], bn[i]);
        }
      }
    }
    r
  }

  /** A candidate at least as good as another in both raw columns is merged
      at least as high. */
  lemma FuseDominance(cs: seq<Candidate>, alpha: real, i: nat, j: nat)
    requires 0.0 <= alpha <= 1.0 && i < |cs| && j < |cs|
    requires cs[i].semantic.GetOr(0.0) <= cs[j].semantic.GetOr(0.0)
    requires cs[i].bm25.GetOr(0.0) <= cs[j].bm25.GetOr(0.0)
    ensures Fuse(cs, alpha)[i].merged <= Fuse(cs, alpha)[j].merged
  {
    var sv := SemColumn(cs);
    var bv := LexColumn(cs);
    MinMaxNormMonotone(sv, i, j);
    MinMaxNormMonotone(bv, i, j);
    BlendMonotone(alpha, MinMaxNorm(sv)[i], MinMaxNorm(bv)[i], MinMaxNorm(sv)[j], MinMaxNorm(bv)[j]);
  }
  /** A candidate no worse in both raw columns and strictly better in a column
      of positive weight (`alpha` for the semantic one, `1 - alpha` for BM25)
      is merged strictly higher, so it is ranked first. */
  lemma FuseStrictDominance(cs: seq<Candidate>, alpha: real, i: nat, j: nat)
    requires 0.0 <= alpha <= 1.0 && i < |cs| && j < |cs|
    requires cs[i].semantic.GetOr(0.0) <= cs[j].semantic.GetOr(0.0)
    requires cs[i].bm25.GetOr(0.0) <= cs[j].bm25.GetOr(0.0)
    requires (0.0 < alpha && cs[i].semantic.GetOr(0.0) < cs[j].semantic.GetOr(0.0))
          || (alpha < 1.0 && cs[i].bm25.GetOr(0.0) < cs[j].bm25.GetOr(0.0))
    ensures Fuse(cs, alpha)[i].merged < Fuse(cs, alpha)[j].merged
  {
    var sv := SemColumn(cs);
    var bv := LexColumn(cs);
    MinMaxNormMonotone(sv, i, j);
    MinMaxNormMonotone(bv, i, j);
    if 0.0 < alpha && sv[i] < sv[j] {
      MinMaxNormStrict(sv, i, j);
    } else {
      MinMaxNormStrict(bv, i, j);
    }
    BlendStrict(alpha, MinMaxNorm(sv)[i], MinMaxNorm(bv)[i], MinMaxNorm(sv)[j], MinMaxNorm(bv)[j]);
  }


  function MergedColumn(fs: seq<FusedHit>): (r: seq<real>)
    ensures |r| == |fs|
    ensures forall i :: 0 <= i < |fs| ==> r[i] == fs[i].merged
  {
    seq(|fs|, i requires 0 <= i < |fs| => fs[i].merged)
  }

  predicate DistinctIds(fs: seq<FusedHit>) {
    forall i, j :: 0 <= i < j < |fs| ==> fs[i].id != fs[j].id
  }

  /** Position of the entry with identifier `id`, if any. */
  function PosOf(fs: seq<FusedHit>, id: string): (r: Option<nat>)
    ensures r.Some? ==> r.value < |fs| && fs[r.value].id == id
    ensures r.None? ==> forall i :: 0 <= i < |fs| ==> fs[i].id != id
  {
    if |fs| == 0 then None
    else if fs[|fs| - 1].id == id then Some(|fs| - 1)
    else PosOf(fs[..|fs| - 1], id)
  }

  lemma PosOfDistinct(fs: seq<FusedHit>, k: nat)
    requires DistinctIds(fs) && k < |fs|
    ensures PosOf(fs, fs[k].id) == Some(k)
  {
  }

  /** The positions of the entries kept by the ranking, best first. */
  function TopOrder(fs: seq<FusedHit>, topK: int): (top: seq<nat>)
    ensures |top| <= |fs|
    ensures StablyDescending(MergedColumn(fs), top)
    ensures forall i :: 0 <= i < |top| ==> top[i] < |fs|
  {
    var order := RankDesc(MergedColumn(fs));
    var top := PyPrefix(order, topK);
    assert forall i, j :: 0 <= i < j < |top| ==> top[i] == order[i] && top[j] == order[j];
    top
  }

  /** `sorted(..., key=score_merged, reverse=True)[:top_k]`: best first,
      truncated as Python's slice truncates. */
  function Rank(fs: seq<FusedHit>, topK: int): (r: seq<FusedHit>)
    ensures topK >= 0 ==> |r| == if topK < |fs| then topK else |fs|
    ensures topK < 0 ==> |r| == if |fs| + topK > 0 then |fs| + topK else 0
    ensures forall i :: 0 <= i < |r| ==> r[i] in fs
    ensures forall i, j :: 0 <= i < j < |r| ==> r[i].merged >= r[j].merged
  {
    var top := TopOrder(fs, topK);
    assert |top| == |PyPrefix(RankDesc(MergedColumn(fs)), topK)|;
    var r := seq(|top|, i requires 0 <= i < |top| => fs[top[i]]);
    assert forall i, j :: 0 <= i < j < |r| ==> Before(MergedColumn(fs), top[i], top[j]);
    r
  }

  /** The ranking never repeats a candidate. */
  lemma RankDistinct(fs: seq<FusedHit>, topK: int)
    requires DistinctIds(fs)
    ensures DistinctIds(Rank(fs, topK))
  {
    var top := TopOrder(fs, topK);
    var r := Rank(fs, topK);
    forall i, j | 0 <= i < j < |r| ensures r[i].id != r[j].id {
      StablyDescendingDistinct(MergedColumn(fs), top, i, j);
    }
  }

  /** Equal merged scores keep the order of the candidate union (the sort is stable). */
  lemma RankStable(fs: seq<FusedHit>, topK: int, i: nat, j: nat)
    requires DistinctIds(fs)
    requires i < j < |Rank(fs, topK)| && Rank(fs, topK)[i].merged == Rank(fs, topK)[j].merged
    ensures PosOf(fs, Rank(fs, topK)[i].id).value < PosOf(fs, Rank(fs, topK)[j].id).value
  {
    var top := TopOrder(fs, topK);
    assert Before(MergedColumn(fs), top[i], top[j]);
    PosOfDistinct(fs, top[i]);
    PosOfDistinct(fs, top[j]);
  }

  /** Nothing left out of the ranking scores above anything kept in it. */
  lemma RankKeepsTop(fs: seq<FusedHit>, topK: int, i: nat, k: nat)
    requires i < |Rank(fs, topK)| && k < |fs| && fs[k] !in Rank(fs, topK)
    ensures fs[k].merged <= Rank(fs, topK)[i].merged
    ensures DistinctIds(fs) ==>
              PosOf(fs, Rank(fs, topK)[i].id).Some?
              && (fs[k].merged < Rank(fs, topK)[i].merged
                  || (fs[k].merged == Rank(fs, topK)[i].merged && PosOf(fs, Rank(fs, topK)[i].id).value < k))
  {
    var keys := MergedColumn(fs);
    var order := RankDesc(keys);
    var top := TopOrder(fs, topK);
    var r := Rank(fs, topK);
    assert top == order[..|top|];
    forall t | 0 <= t < |top| ensures order[t] != k {
      assert r[t] == fs[top[t]];
    }
    PrefixIsTop(keys, order, |top|, i, k);
    if DistinctIds(fs) {
      PosOfDistinct(fs, top[i]);
    }
  }

  /** All candidates of one fusion call, backfilled. */
  function Candidates(sem: seq<SemHit>, lex: seq<LexHit>, sim: VectorSimilarity): (cs: seq<Candidate>)
    ensures |cs| == |Union(sem, lex)|
    ensures UniqueIds(cs)
    ensures Ids(cs) == SemIds(sem) + LexIds(lex)
  {
    var u := Union(sem, lex);
    UnionSpec(sem, lex);
    var cs := Backfill(u, sim);
    assert forall i :: 0 <= i < |cs| ==> cs[i].id == u[i].id;
    assert Ids(cs) == Ids(u);
    cs
  }

  lemma FuseDistinct(cs: seq<Candidate>, alpha: real)
    requires UniqueIds(cs)
    ensures DistinctIds(Fuse(cs, alpha))
  {
  }

  /** `search_merged(query, top_k, filters, alpha)`. The semantic search (query
      embedding, filters, `top_k * 4` limit) is the abstract `semSearch`; the
      lexical leg is the modelled BM25 store with the same `top_k * 4` limit. */
  function SearchMerged(store: Bm25Store.Store, score: Bm25Store.Scorer, query: string, topK: int, alpha: real,
                        semSearch: int -> seq<SemHit>, sim: VectorSimilarity): (r: seq<FusedHit>)
    requires Bm25Store.Aligned(store)
    ensures var n := |Union(semSearch(topK * 4), Bm25Store.Search(store, score, query, topK * 4))|;
            topK >= 0 ==> |r| == if topK < n then topK else n
    ensures 0.0 <= alpha <= 1.0 ==> forall i :: 0 <= i < |r| ==> 0.0 <= r[i].merged <= 1.0
    ensures forall i, j :: 0 <= i < j < |r| ==> r[i].merged >= r[j].merged
  {
    var sem := semSearch(topK * 4);
    var lex := Bm25Store.Search(store, score, query, topK * 4);
    Rank(Fuse(Candidates(sem, lex, sim), alpha), topK)
  }

  /** Every merged hit is a distinct id found by one of the two legs; a hit the
      semantic leg found carries that leg's payload, and one found only
      lexically carries no payload and the backfilled similarity (0.0 when the
      vector store has no vector for it). */
  lemma SearchMergedProvenance(store: Bm25Store.Store, score: Bm25Store.Scorer, query: string, topK: int,
                               alpha: real, semSearch: int -> seq<SemHit>, sim: VectorSimilarity, i: nat)
    requires Bm25Store.Aligned(store)
    requires i < |SearchMerged(store, score, query, topK, alpha, semSearch, sim)|
    ensures var sem := semSearch(topK * 4);
            var lex := Bm25Store.Search(store, score, query, topK * 4);
            var h := SearchMerged(store, score, query, topK, alpha, semSearch, sim)[i];
            && (h.id in SemIds(sem) || h.id in LexIds(lex))
            && (h.id in SemIds(sem) ==> h.payload == LastSem(sem, h.id).value.payload)
            && (h.id in SemIds(sem) ==> h.semantic == LastSem(sem, h.id).value.score)
            && (h.id !in SemIds(sem) ==> h.payload.None? && h.semantic == sim(h.id).GetOr(0.0))
  {
    var sem := semSearch(topK * 4);
    var lex := Bm25Store.Search(store, score, query, topK * 4);
    var fs := Fuse(Candidates(sem, lex, sim), alpha);
    var h := Rank(fs, topK)[i];
    var k :| 0 <= k < |fs| && fs[k] == h;
    FusedProvenance(sem, lex, sim, alpha, k);
  }

  /** Provenance of one fused candidate, before ranking. */
  lemma FusedProvenance(sem: seq<SemHit>, lex: seq<LexHit>, sim: VectorSimilarity, alpha: real, k: nat)
    requires k < |Fuse(Candidates(sem, lex, sim), alpha)|
    ensures var h := Fuse(Candidates(sem, lex, sim), alpha)[k];
            && (h.id in SemIds(sem) || h.id in LexIds(lex))
            && (h.id in SemIds(sem) ==> h.payload == LastSem(sem, h.id).value.payload)
            && (h.id in SemIds(sem) ==> h.semantic == LastSem(sem, h.id).value.score)
            && (h.id !in SemIds(sem) ==> h.payload.None? && h.semantic == sim(h.id).GetOr(0.0))
  {
    UnionSpec(sem, lex);
    var u := Union(sem, lex);
    var fs := Fuse(Candidates(sem, lex, sim), alpha);
    assert fs[k].id == u[k].id;
    assert u[k].id in Ids(u);
  }

  lemma SearchMergedDistinct(store: Bm25Store.Store, score: Bm25Store.Scorer, query: string, topK: int,
                             alpha: real, semSearch: int -> seq<SemHit>, sim: VectorSimilarity)
    requires Bm25Store.Aligned(store)
    ensures DistinctIds(SearchMerged(store, score, query, topK, alpha, semSearch, sim))
  {
    var cs := Candidates(semSearch(topK * 4), Bm25Store.Search(store, score, query, topK * 4), sim);
    FuseDistinct(cs, alpha);
    RankDistinct(Fuse(cs, alpha), topK);
  }

  /** Hits with equal merged scores come out in the order in which their ids
      first appeared in the semantic hits followed by the lexical hits: the
      stable sort keeps the candidate dict's insertion order. */
  lemma SearchMergedTieOrder(store: Bm25Store.Store, score: Bm25Store.Scorer, query: string, topK: int,
                             alpha: real, semSearch: int -> seq<SemHit>, sim: VectorSimilarity, i: nat, j: nat)
    requires Bm25Store.Aligned(store)
    requires i < j < |SearchMerged(store, score, query, topK, alpha, semSearch, sim)|
    requires SearchMerged(store, score, query, topK, alpha, semSearch, sim)[i].merged
          == SearchMerged(store, score, query, topK, alpha, semSearch, sim)[j].merged
    ensures var all := SemIdSeq(semSearch(topK * 4)) + LexIdSeq(Bm25Store.Search(store, score, query, topK * 4));
            var r := SearchMerged(store, score, query, topK, alpha, semSearch, sim);
            r[i].id in all && r[j].id in all && FirstIndex(all, r[i].id) < FirstIndex(all, r[j].id)
  {
    var sem := semSearch(topK * 4);
    var lex := Bm25Store.Search(store, score, query, topK * 4);
    var u := Union(sem, lex);
    var fs := Fuse(Candidates(sem, lex, sim), alpha);
    var r := Rank(fs, topK);
    FuseDistinct(Candidates(sem, lex, sim), alpha);
    RankStable(fs, topK, i, j);
    var a := PosOf(fs, r[i].id).value;
    var b := PosOf(fs, r[j].id).value;
    assert fs[a].id == u[a].id && fs[b].id == u[b].id;
    UnionFirstAppearance(sem, lex);
  }

  /** The `[:top_k]` cut: a candidate left out scores no higher than any kept
      hit, and on an equal score its id first appeared later in the semantic
      hits followed by the lexical hits, so the earlier candidate is kept. */
  lemma SearchMergedKeepsTop(store: Bm25Store.Store, score: Bm25Store.Scorer, query: string, topK: int,
                             alpha: real, semSearch: int -> seq<SemHit>, sim: VectorSimilarity, i: nat, k: nat)
    requires Bm25Store.Aligned(store)
    requires i < |SearchMerged(store, score, query, topK, alpha, semSearch, sim)|
    requires k < |Union(semSearch(topK * 4), Bm25Store.Search(store, score, query, topK * 4))|
    requires forall t :: 0 <= t < |SearchMerged(store, score, query, topK, alpha, semSearch, sim)| ==>
               SearchMerged(store, score, query, topK, alpha, semSearch, sim)[t].id
               != Union(semSearch(topK * 4), Bm25Store.Search(store, score, query, topK * 4))[k].id
    ensures var sem := semSearch(topK * 4);
            var lex := Bm25Store.Search(store, score, query, topK * 4);
            var all := SemIdSeq(sem) + LexIdSeq(lex);
            var c := Fuse(Candidates(sem, lex, sim), alpha)[k];
            var h := SearchMerged(store, score, query, topK, alpha, semSearch, sim)[i];
            && c.id == Union(sem, lex)[k].id
            && c.merged <= h.merged
            && (c.merged == h.merged ==>
                  h.id in all && c.id in all && FirstIndex(all, h.id) < FirstIndex(all, c.id))
  {
    var sem := semSearch(topK * 4);
    var lex := Bm25Store.Search(store, score, query, topK * 4);
    var u := Union(sem, lex);
    var fs := Fuse(Candidates(sem, lex, sim), alpha);
    var r := Rank(fs, topK);
    assert fs[k].id == u[k].id;
    assert fs[k] !in r;
    FuseDistinct(Candidates(sem, lex, sim), alpha);
    RankKeepsTop(fs, topK, i, k);
    var p := PosOf(fs, r[i].id).value;
    assert fs[p].id == u[p].id;
    UnionFirstAppearance(sem, lex);
  }
}

=== FILE: numerals.dfy ===
/** Decimal rendering of natural numbers, as Python's `str(n)` and
    `f"{n:04d}"` produce it, with the parser that inverts it. */
module Numerals {

  predicate IsDigit(c: char) {
    '0' <= c <= '9'
  }

  function DigitChar(d: nat): (c: char)
    requires d < 10
    ensures IsDigit(c)
  {
    ('0' as int + d) as char
  }

  function DigitValue(c: char): (d: nat)
    requires IsDigit(c)
    ensures d < 10
  {
    c as int - '0' as int
  }

  /** `str(n)` for a non-negative integer. */
  function NatStr(n: nat): (s: string)
    ensures |s| > 0
    ensures forall j :: 0 <= j < |s| ==> IsDigit(s[j])
  {
    if n < 10 then [DigitChar(n)] else NatStr(n / 10) + [DigitChar(n % 10)]
  }

  /** The value of a string of decimal digits; leading zeros are allowed. */
  function ParseDigits(s: string): nat
    requires forall j :: 0 <= j < |s| ==> IsDigit(s[j])
  {
    if |s| == 0 then 0 else ParseDigits(s[..|s| - 1]) * 10 + DigitValue(s[|s| - 1])
  }

  /** Parsing inverts rendering, so `NatStr` is injective. */
  lemma {:induction false} ParseNatStr(n: nat)
    ensures ParseDigits(NatStr(n)) == n
  {
    if n >= 10 {
      ParseNatStr(n / 10);
      var s := NatStr(n);
      assert s[..|s| - 1] == NatStr(n / 10);
    }
  }

  function Zeros(k: nat): (s: string)
    ensures |s| == k
    ensures forall j :: 0 <= j < k ==> s[j] == '0'
  {
    if k == 0 then [] else ['0'] + Zeros(k - 1)
  }

  /** `f"{n:0{width}d}"`: the decimal digits of `n`, left-padded with zeros to
      at least `width` characters. */
  function ZeroPad(n: nat, width: nat): (s: string)
    ensures |s| == if |NatStr(n)| < width then width else |NatStr(n)|
    ensures forall j :: 0 <= j < |s| ==> IsDigit(s[j])
  {
    var d := NatStr(n);
    if |d| < width then Zeros(width - |d|) + d else d
  }

  /** Leading zeros do not change the parsed value. */
  lemma {:induction false} ParseLeadingZeros(k: nat, d: string)
    requires forall j :: 0 <= j < |d| ==> IsDigit(d[j])
    ensures ParseDigits(Zeros(k) + d) == ParseDigits(d)
    decreases |d|
  {
    if |d| == 0 {
      ParseZeros(k);
      assert Zeros(k) + d == Zeros(k);
    } else {
      var s := Zeros(k) + d;
      assert s[..|s| - 1] == Zeros(k) + d[..|d| - 1];
      ParseLeadingZeros(k, d[..|d| - 1]);
    }
  }

  lemma {:induction false} ParseZeros(k: nat)
    ensures ParseDigits(Zeros(k)) == 0
  {
    if k > 0 {
      var s := Zeros(k);
      assert s[..k - 1] == Zeros(k - 1);
      ParseZeros(k - 1);
    }
  }

  /** Zero-padding is lossless: the padded numeral parses back to `n`. */
  lemma ParseZeroPad(n: nat, width: nat)
    ensures ParseDigits(ZeroPad(n, width)) == n
  {
    ParseNatStr(n);
    var d := NatStr(n);
    if |d| < width {
      ParseLeadingZeros(width - |d|, d);
    }
  }

  lemma ZeroPadInjective(m: nat, n: nat, width: nat)
    requires ZeroPad(m, width) == ZeroPad(n, width)
    ensures m == n
  {
    ParseZeroPad(m, width);
    ParseZeroPad(n, width);
  }
}

=== FILE: orchestrator.dfy ===
/** `resolve_ticket`: retrieve snippets, render the prompt, call the language
    model with one validated retry, ground the references against the
    retrieved ids (falling back to the first two snippets), trim the answer
    and let the rule engine decide the action. Retrieval, the chat model and
    the JSON validator are parameters. */
module Orchestrator {
  import opened Wrappers
  import opened Strings
  import opened Hits
  import Prompt
  import Actions

  datatype Role = System | Assistant | User

  /** One chat message `{"role", "content"}`. */
  datatype Message = Message(role: Role, content: string)

  /** The validated model output and the service's reply share this shape. */
  datatype TicketResponse = TicketResponse(answer: string, references: seq<string>, action: string)

  /** `_call_llm`: the chat model, as a function of the messages sent. */
  type Llm = seq<Message> -> string

  /** `TicketResponse.model_validate_json`: `None` where it raises. */
  type Validator = string -> Option<TicketResponse>

  /** `_pick_snippets(ticket_text, top_k)`: the merged retrieval. */
  type Retriever = (string, int) -> seq<FusedHit>

  const FixInstruction: string :=
    "Your previous output was not valid JSON per the schema. Reply again with ONLY the JSON object."

  // ---------------------------------------------------------------------------
  // Generate, validate, retry once
  // ---------------------------------------------------------------------------

  /** The outcome of `_parse(_call_llm(messages))`, with the message lists of
      every model call made, in order. */
  datatype Generation = Generation(outcome: Option<TicketResponse>, calls: seq<seq<Message>>)

  function FixMessages(messages: seq<Message>): seq<Message> {
    messages + [Message(System, FixInstruction)]
  }

  /** One call; if its output does not validate, exactly one more call with the
      fix instruction appended, whose output is validated once more and whose
      failure propagates. */
  function GenerateValidated(messages: seq<Message>, llm: Llm, validate: Validator): (g: Generation)
    ensures 1 <= |g.calls| <= 2 && g.calls[0] == messages
    ensures |g.calls| == 2 <==> validate(llm(messages)).None?
    ensures |g.calls| == 2 ==> g.calls[1] == FixMessages(messages)
    ensures g.outcome == validate(llm(g.calls[|g.calls| - 1]))
  {
    match validate(llm(messages))
    case Some(resp) => Generation(Some(resp), [messages])
    case None => Generation(validate(llm(FixMessages(messages))), [messages, FixMessages(messages)])
  }

  /** Generation fails exactly when both the first output and the retried
      output fail validation; a valid first output is never retried. */
  lemma GenerationOutcome(messages: seq<Message>, llm: Llm, validate: Validator)
    ensures var g := GenerateValidated(messages, llm, validate);
            && (g.outcome.None? <==> validate(llm(messages)).None? && validate(llm(FixMessages(messages))).None?)
            && (validate(llm(messages)).Some? ==> g.outcome == validate(llm(messages)) && |g.calls| == 1)
  {
  }

  // ---------------------------------------------------------------------------
  // Reference grounding
  // ---------------------------------------------------------------------------

  const Middot: char := '\U{00B7}'

  predicate IsMiddot(c: char) {
    c == Middot
  }

  /** `k` is the position of the last middle dot of `r`. */
  predicate LastDotAt(r: string, k: int) {
    && 0 <= k < |r| && r[k] == Middot
    && forall j :: k < j < |r| ==> r[j] != Middot
  }

  lemma LastDotUnique(r: string, k1: int, k2: int)
    requires LastDotAt(r, k1) && LastDotAt(r, k2)
    ensures k1 == k2
  {
  }

  /** `parts[1]` of `r.rsplit("·", 1)` when there are two parts: the text after
      the last middle dot. */
  function RSplitTail(r: string): (t: Option<string>)
    ensures t.None? <==> forall j :: 0 <= j < |r| ==> r[j] != Middot
    ensures forall k :: LastDotAt(r, k) ==> t == Some(r[k + 1..])
  {
    match LastWhere(r, IsMiddot)
    case None => None
    case Some(k) =>
      assert LastDotAt(r, k);
      Some(r[k + 1..])
  }

  function SnippetIds(snippets: seq<FusedHit>): set<string> {
    set k | 0 <= k < |snippets| :: snippets[k].id
  }

  /** A model reference is kept when its trimmed tail after the last middle
      dot is a retrieved id. */
  function Grounded(r: string, allowed: set<string>): bool {
    match RSplitTail(r)
    case None => false
    case Some(tail) => Strip(tail) in allowed
  }

  /** The reference check, stated without the scan: the last middle dot is
      followed by a retrieved id up to surrounding whitespace. */
  lemma GroundedSpec(r: string, allowed: set<string>)
    ensures Grounded(r, allowed) <==> exists k :: LastDotAt(r, k) && Strip(r[k + 1..]) in allowed
  {
    match LastWhere(r, IsMiddot)
    case None =>
    case Some(k) =>
      assert LastDotAt(r, k);
  }

  /** `b` is `a` with some elements removed, order kept. */
  ghost predicate Subsequence(a: seq<string>, b: seq<string>)
    decreases |b|
  {
    if |a| == 0 then true
    else if |b| == 0 then false
    else (a[0] == b[0] && Subsequence(a[1..], b[1..])) || Subsequence(a, b[1..])
  }

  /** The loop over `resp.references`: the grounded references, verbatim and
      in order. */
  function FilterReferences(refs: seq<string>, allowed: set<string>): (r: seq<string>)
    ensures Subsequence(r, refs)
    ensures forall x :: x in r <==> x in refs && Grounded(x, allowed)
  {
    if |refs| == 0 then []
    else
      var rest := FilterReferences(refs[1..], allowed);
      assert forall x :: x in refs <==> x == refs[0] || x in refs[1..];
      if Grounded(refs[0], allowed) then
        var r := [refs[0]] + rest;
        assert r[1..] == rest;
        r
      else
        assert |rest| == 0 || Subsequence(rest, refs[1..]);
        rest
  }

  /** Each grounded reference is kept as often as the model listed it. */
  lemma {:induction false} FilterReferencesCounts(refs: seq<string>, allowed: set<string>, x: string)
    ensures multiset(FilterReferences(refs, allowed))[x] == if Grounded(x, allowed) then multiset(refs)[x] else 0
  {
    if |refs| > 0 {
      FilterReferencesCounts(refs[1..], allowed, x);
      assert refs == [refs[0]] + refs[1..];
      assert multiset(refs) == multiset{refs[0]} + multiset(refs[1..]);
    }
  }

  /** With no retrieved ids, no reference survives. */
  lemma {:induction false} FilterNothingAllowed(refs: seq<string>)
    ensures FilterReferences(refs, {}) == []
  {
    if |refs| > 0 {
      FilterNothingAllowed(refs[1..]);
    }
  }

  /** `fmt(sn)`: "doc · section · id", a missing key rendering as "". */
  function FormatReference(h: FusedHit, p: Payload): string {
    p.doc.GetOr("") + " " + [Middot] + " " + p.section.GetOr("") + " " + [Middot] + " " + h.id
  }

  /** `[fmt(sn) for sn in snippets[:2]]`; `fmt` reads `sn['payload']`, so a
      snippet without one raises. */
  function Fallback(snippets: seq<FusedHit>): (r: Result<seq<string>, Fault>)
    ensures var n := if |snippets| < 2 then |snippets| else 2;
            && (r.Success? <==> Prompt.AllHavePayload(snippets[..n]))
            && (r.Success? ==> |r.value| == n)
            && (r.Success? ==> forall i :: 0 <= i < n ==> r.value[i] == FormatReference(snippets[i], snippets[i].payload.value))
            && (r.Failure? ==> exists k :: Prompt.FirstMissing(snippets[..n], k) && r.error == MissingPayload(snippets[k].id))
  {
    var n := if |snippets| < 2 then |snippets| else 2;
    var first := snippets[..n];
    if exists k :: 0 <= k < n && first[k].payload.None? then
      var k := if first[0].payload.None? then 0 else 1;
      assert Prompt.FirstMissing(first, k);
      Failure(MissingPayload(snippets[k].id))
    else
      Success(seq(n, i requires 0 <= i < n => FormatReference(snippets[i], snippets[i].payload.value)))
  }

  /** Step 5 of `resolve_ticket`: the grounded model references, or, when none
      survives, the fallback built from the first two snippets. */
  function GroundReferences(refs: seq<string>, snippets: seq<FusedHit>): (r: Result<seq<string>, Fault>)
    ensures var kept := FilterReferences(refs, SnippetIds(snippets));
            && (|kept| > 0 ==> r == Success(kept))
            && (|kept| == 0 ==> r == Fallback(snippets))
  {
    var kept := FilterReferences(refs, SnippetIds(snippets));
    if |kept| > 0 then Success(kept) else Fallback(snippets)
  }

  /** With every payload present, the references are non-empty exactly when
      at least one snippet was retrieved. */
  lemma ReferencesNonEmptyIffSnippets(refs: seq<string>, snippets: seq<FusedHit>)
    requires Prompt.AllHavePayload(snippets)
    ensures GroundReferences(refs, snippets).Success?
    ensures |GroundReferences(refs, snippets).value| > 0 <==> |snippets| > 0
  {
    var kept := FilterReferences(refs, SnippetIds(snippets));
    if |snippets| == 0 {
      assert SnippetIds(snippets) == {};
      FilterNothingAllowed(refs);
    } else {
      assert Prompt.AllHavePayload(snippets[..if |snippets| < 2 then |snippets| else 2]);
    }
  }

  /** An id with no middle dot and no surrounding whitespace: the ids the
      service issues. */
  predicate CleanId(id: string) {
    && (forall j :: 0 <= j < |id| ==> id[j] != Middot)
    && (|id| == 0 || (!IsSpace(id[0]) && !IsSpace(id[|id| - 1])))
  }

  /** A fallback reference ends, after its last middle dot, with its snippet's
      id, so it passes the reference check itself. */
  lemma FallbackReferenceGrounded(h: FusedHit, p: Payload, allowed: set<string>)
    requires CleanId(h.id) && h.id in allowed
    ensures RSplitTail(FormatReference(h, p)) == Some(" " + h.id)
    ensures Grounded(FormatReference(h, p), allowed)
  {
    var head := p.doc.GetOr("") + " " + [Middot] + " " + p.section.GetOr("") + " ";
    var r := FormatReference(h, p);
    var k := |head|;
    assert r == head + [Middot] + (" " + h.id);
    assert r[k + 1..] == " " + h.id;
    assert LastDotAt(r, k) by {
      forall j | k < j < |r| ensures r[j] != Middot {
        assert r[j] == (" " + h.id)[j - k - 1];
      }
    }
    StripPadded(h.id);
  }

  /** A list of grounded references passes the filter unchanged. */
  lemma {:induction false} FilterKeepsGrounded(refs: seq<string>, allowed: set<string>)
    requires forall i :: 0 <= i < |refs| ==> Grounded(refs[i], allowed)
    ensures FilterReferences(refs, allowed) == refs
  {
    if |refs| > 0 {
      FilterKeepsGrounded(refs[1..], allowed);
      assert [refs[0]] + refs[1..] == refs;
    }
  }

  /** With clean ids, the fallback references would themselves pass the
      reference filter: the fallback has the format the filter expects. */
  lemma FallbackSurvivesFilter(snippets: seq<FusedHit>)
    requires Prompt.AllHavePayload(snippets)
    requires forall i :: 0 <= i < |snippets| ==> CleanId(snippets[i].id)
    ensures Fallback(snippets).Success?
    ensures FilterReferences(Fallback(snippets).value, SnippetIds(snippets)) == Fallback(snippets).value
  {
    var n := if |snippets| < 2 then |snippets| else 2;
    assert Prompt.AllHavePayload(snippets[..n]);
    var fb := Fallback(snippets).value;
    forall i | 0 <= i < |fb| ensures Grounded(fb[i], SnippetIds(snippets)) {
      FallbackReferenceGrounded(snippets[i], snippets[i].payload.value, SnippetIds(snippets));
    }
    FilterKeepsGrounded(fb, SnippetIds(snippets));
  }

  // ---------------------------------------------------------------------------
  // resolve_ticket
  // ---------------------------------------------------------------------------

  /** A call of `resolve_ticket`: its reply or the fault it raises, and the
      message lists of the model calls it made. */
  datatype Run = Run(result: Result<TicketResponse, Fault>, calls: seq<seq<Message>>)

  function Messages(prompt: string): seq<Message> {
    [Message(System, Prompt.System), Message(Assistant, Prompt.SchemaHint()), Message(User, prompt)]
  }

  /** `resolve_ticket(ticket_text, top_k)`. */
  function ResolveTicket(ticket: string, topK: int, pick: Retriever, llm: Llm, validate: Validator): (run: Run)
    ensures |run.calls| <= 2
    ensures var snippets := pick(ticket, topK);
            && (run.calls == [] <==> !Prompt.AllHavePayload(snippets))
            && (!Prompt.AllHavePayload(snippets) ==>
                  exists k :: Prompt.FirstMissing(snippets, k) && run.result == Failure(MissingPayload(snippets[k].id)))
    ensures run.result.Success? ==> |run.calls| > 0 && validate(llm(run.calls[|run.calls| - 1])).Some?
    ensures run.result.Success? ==>
              var snippets := pick(ticket, topK);
              var resp := validate(llm(run.calls[|run.calls| - 1])).value;
              && run.calls[0] == Messages(Prompt.BuildUserPrompt(ticket, snippets).value)
              && run.result.value.answer == Strip(resp.answer)
              && run.result.value.action == Actions.EnforceAction(ticket, snippets, resp.action)
              && Success(run.result.value.references) == GroundReferences(resp.references, snippets)
  {
    var snippets := pick(ticket, topK);
    match Prompt.BuildUserPrompt(ticket, snippets)
    case Failure(e) => Run(Failure(e), [])
    case Success(prompt) =>
      var g := GenerateValidated(Messages(prompt), llm, validate);
      match g.outcome
      case None => Run(Failure(InvalidOutput), g.calls)
      case Some(resp) =>
        match GroundReferences(resp.references, snippets)
        case Failure(e) => Run(Failure(e), g.calls)
        case Success(refs) =>
          Run(Success(TicketResponse(Strip(resp.answer), refs, Actions.EnforceAction(ticket, snippets, resp.action))), g.calls)
  }

  /** Once the prompt is built, grounding cannot fail: a reply is produced
      exactly when validation succeeds on the first or the retried output, and
      its references are non-empty exactly when snippets were retrieved. */
  lemma ResolveTicketSucceeds(ticket: string, topK: int, pick: Retriever, llm: Llm, validate: Validator)
    requires Prompt.AllHavePayload(pick(ticket, topK))
    ensures var run := ResolveTicket(ticket, topK, pick, llm, validate);
            var msgs := Messages(Prompt.BuildUserPrompt(ticket, pick(ticket, topK)).value);
            && (run.result.Success? <==> validate(llm(msgs)).Some? || validate(llm(FixMessages(msgs))).Some?)
            && (run.result.Failure? ==> run.result.error == InvalidOutput && |run.calls| == 2)
            && (run.result.Success? ==> (|run.result.value.references| > 0 <==> |pick(ticket, topK)| > 0))
  {
    var snippets := pick(ticket, topK);
    var msgs := Messages(Prompt.BuildUserPrompt(ticket, snippets).value);
    GenerationOutcome(msgs, llm, validate);
    var g := GenerateValidated(msgs, llm, validate);
    if g.outcome.Some? {
      ReferencesNonEmptyIffSnippets(g.outcome.value.references, snippets);
    }
  }

  /** The final action is the rule engine's verdict on the ticket and the
      snippets, so a suspension keyword overrides whatever the model said. */
  lemma ResolveTicketEnforcesSuspension(ticket: string, topK: int, pick: Retriever, llm: Llm, validate: Validator)
    requires Actions.HasWholeWord(Lower(ticket), "suspended")
    requires ResolveTicket(ticket, topK, pick, llm, validate).result.Success?
    ensures ResolveTicket(ticket, topK, pick, llm, validate).result.value.action == "escalate_to_abuse_team"
  {
    var run := ResolveTicket(ticket, topK, pick, llm, validate);
    var resp := validate(llm(run.calls[|run.calls| - 1])).value;
    Actions.SuspensionWins(ticket, pick(ticket, topK), resp.action, 2);
  }
}

=== FILE: prompt.dfy ===
/** Prompt rendering: the fixed system message, the output-schema hint and
    `build_user_prompt`, a pure string builder with a fixed layout and one
    numbered block per retrieved snippet. */
module Prompt {
  import opened Wrappers
  import opened Strings
  import opened Numerals
  import opened Hits
  import Actions

  function Spaces(n: nat): (s: string)
    ensures |s| == n
    ensures forall j :: 0 <= j < n ==> s[j] == ' '
  {
    if n == 0 then [] else Spaces(n - 1) + " "
  }

  /** The `SYSTEM` message (a triple-quoted literal, indentation included). */
  const System: string :=
    "You are a Tucows Domains Knowledge Assistant for support agents.\n"
    + Spaces(12) + "Answer ONLY with grounded facts from the provided CONTEXT.\n"
    + Spaces(12) + "If the context is insufficient or conflicting, say so and propose the minimal next step.\n"
    + Spaces(12) + "Return a single valid JSON object that matches the OUTPUT SCHEMA. No extra text.\n"
    + Spaces(9)

  function Quote(s: string): string {
    "\"" + s + "\""
  }

  /** The `action_required` alternatives: every action name, quoted, in
      declaration order, separated by " | ". */
  function Alternatives(): (s: string) {
    Join(seq(|Actions.ActionNames|, k requires 0 <= k < |Actions.ActionNames| => Quote(Actions.ActionNames[k])), " | ")
  }

  const SchemaHead: string :=
    "OUTPUT SCHEMA:\n"
    + Spaces(16) + "{\n"
    + Spaces(18) + "\"answer\": string,\n"
    + Spaces(18) + "\"references\": string[],  // use \"title \U{00B7} section \U{00B7} id\"\n"
    + Spaces(18) + "\"action_required\": "

  const SchemaTail: string := "\n" + Spaces(16) + "}\n" + Spaces(14)

  /** `SCHEMA_HINT`, as returned by `output_schema_hint()`. */
  function SchemaHint(): string {
    SchemaHead + Alternatives() + SchemaTail
  }

  /** The schema's action alternatives are exactly the five action names:
      splitting them on " | " gives each name, quoted, in order. */
  lemma SchemaHintAlternatives()
    ensures var alts := Split(Alternatives(), " | ");
            && |alts| == |Actions.AllActions|
            && forall k :: 0 <= k < |alts| ==> alts[k] == Quote(Actions.Name(Actions.AllActions[k]))
  {
    var names := Actions.ActionNames;
    var qs := seq(|names|, k requires 0 <= k < |names| => Quote(names[k]));
    Actions.NamesHaveNoSpace();
    forall k, j | 0 <= k < |qs| && 0 <= j < |qs[k]| ensures qs[k][j] != " | "[0] {
      QuoteNoSpace(names[k], j);
    }
    JoinSplit(qs, " | ");
    Actions.ActionNamesAreNames();
  }

  lemma QuoteNoSpace(s: string, j: nat)
    requires forall i :: 0 <= i < |s| ==> s[i] != ' '
    requires j < |Quote(s)|
    ensures Quote(s)[j] != ' '
  {
    if 0 < j <= |s| {
      assert Quote(s)[j] == s[j - 1];
    }
  }

  /** Every action name appears, quoted, in the schema hint. */
  lemma SchemaHintNamesEveryAction(a: Actions.Action)
    ensures Contains(SchemaHint(), Quote(Actions.Name(a)))
  {
    var names := Actions.ActionNames;
    var qs := seq(|names|, k requires 0 <= k < |names| => Quote(names[k]));
    Actions.NameRoundTrip(a);
    Actions.ActionNamesAreNames();
    var k :| 0 <= k < |Actions.AllActions| && Actions.AllActions[k] == a;
    JoinHasElement(qs, " | ", k);
    ContainsWithin(SchemaHead, Alternatives(), SchemaTail, qs[k]);
  }

  lemma ContainsWithin(a: string, b: string, c: string, x: string)
    requires Contains(b, x)
    ensures Contains(a + b + c, x)
  {
    var i :| OccursAt(b, x, i);
    assert (a + b + c)[|a| + i..|a| + i + |x|] == b[i..i + |x|];
    assert OccursAt(a + b + c, x, |a| + i);
  }

  // ---------------------------------------------------------------------------
  // build_user_prompt
  // ---------------------------------------------------------------------------

  /** The five lines of `[SNIPPET n]`; missing payload keys render as "". */
  function SnippetBlock(n: nat, h: FusedHit, p: Payload): (b: seq<string>) {
    [ "[SNIPPET " + NatStr(n) + "]",
      "- id: " + h.id,
      "- title: " + p.doc.GetOr(""),
      "- section: " + p.section.GetOr(""),
      "- text: \"" + Strip(p.text.GetOr("")) + "\"\n" ]
  }

  predicate AllHavePayload(snippets: seq<FusedHit>) {
    forall k :: 0 <= k < |snippets| ==> snippets[k].payload.Some?
  }

  /** `k` is the first snippet without a payload. */
  predicate FirstMissing(snippets: seq<FusedHit>, k: int) {
    && 0 <= k < |snippets|
    && snippets[k].payload.None?
    && forall j :: 0 <= j < k ==> snippets[j].payload.Some?
  }

  /** The payloads of the snippets, read in order. The loop reads
      `sn['payload']`, so the first snippet without one stops it with a
      `KeyError`. */
  function CollectPayloads(snippets: seq<FusedHit>): (r: Result<seq<Payload>, Fault>)
    ensures r.Success? <==> AllHavePayload(snippets)
    ensures r.Success? ==> |r.value| == |snippets|
    ensures r.Success? ==> forall k :: 0 <= k < |snippets| ==> r.value[k] == snippets[k].payload.value
    ensures r.Failure? ==> exists k :: FirstMissing(snippets, k) && r.error == MissingPayload(snippets[k].id)
  {
    if |snippets| == 0 then Success([])
    else
      match snippets[0].payload
      case None =>
        assert FirstMissing(snippets, 0);
        Failure(MissingPayload(snippets[0].id))
      case Some(p) =>
        var rest := CollectPayloads(snippets[1..]);
        PayloadsCons(snippets);
        if rest.Failure? then
          var k :| FirstMissing(snippets[1..], k) && rest.error == MissingPayload(snippets[1..][k].id);
          FirstMissingCons(snippets, k);
          Failure(rest.error)
        else
          assert forall k :: 1 <= k < |snippets| ==> snippets[k] == snippets[1..][k - 1];
          Success([p] + rest.value)
  }

  /** The snippet blocks, numbered from `n`. */
  function Blocks(snippets: seq<FusedHit>, n: nat): (r: Result<seq<seq<string>>, Fault>)
    ensures r.Success? <==> AllHavePayload(snippets)
    ensures r.Success? ==> |r.value| == |snippets|
    ensures r.Success? ==> forall k :: 0 <= k < |snippets| ==>
              r.value[k] == SnippetBlock(n + k, snippets[k], snippets[k].payload.value)
    ensures r.Failure? ==> exists k :: FirstMissing(snippets, k) && r.error == MissingPayload(snippets[k].id)
  {
    var _ :- CollectPayloads(snippets);
    Success(Render(snippets, n))
  }

  function Render(snippets: seq<FusedHit>, n: nat): (bs: seq<seq<string>>)
    requires AllHavePayload(snippets)
    ensures |bs| == |snippets|
    ensures forall k :: 0 <= k < |snippets| ==> bs[k] == SnippetBlock(n + k, snippets[k], snippets[k].payload.value)
  {
    seq(|snippets|, k requires 0 <= k < |snippets| => SnippetBlock(n + k, snippets[k], snippets[k].payload.value))
  }

  lemma PayloadsCons(snippets: seq<FusedHit>)
    requires |snippets| > 0
    ensures AllHavePayload(snippets) <==> snippets[0].payload.Some? && AllHavePayload(snippets[1..])
  {
    if snippets[0].payload.Some? && AllHavePayload(snippets[1..]) {
      forall k | 1 <= k < |snippets| ensures snippets[k].payload.Some? {
        assert snippets[k] == snippets[1..][k - 1];
      }
    }
  }

  /** A missing payload further on is the first one when the head has one. */
  lemma FirstMissingCons(snippets: seq<FusedHit>, k: int)
    requires |snippets| > 0 && snippets[0].payload.Some? && FirstMissing(snippets[1..], k)
    ensures FirstMissing(snippets, k + 1) && snippets[k + 1] == snippets[1..][k]
  {
    forall j | 1 <= j < k + 1 ensures snippets[j].payload.Some? {
      assert snippets[j] == snippets[1..][j - 1];
    }
  }

  function Flatten(bs: seq<seq<string>>): seq<string> {
    if |bs| == 0 then [] else bs[0] + Flatten(bs[1..])
  }

  lemma {:induction false} FlattenHas(bs: seq<seq<string>>, k: nat, j: nat)
    requires k < |bs| && j < |bs[k]|
    ensures bs[k][j] in Flatten(bs)
  {
    if k > 0 {
      FlattenHas(bs[1..], k - 1, j);
    }
  }

  const Instructions: seq<string> := [
    "INSTRUCTIONS:",
    "1) Use only CONTEXT to answer.",
    "2) Cite the most relevant 2\U{2013}5 snippets in \"references\" using \"title \U{00B7} section \U{00B7} id\".",
    "3) If steps depend on user verification/ownership, ask for it and choose action_required accordingly.",
    "   If the ticket mentions a domain being suspended/suspension or policy enforcement, set action_required to escalate_to_abuse_team.",
    "4) Output MUST be a single JSON object and match OUTPUT SCHEMA exactly."
  ]

  /** The list `lines` of `build_user_prompt`: the ticket header, the CONTEXT
      header, the snippet blocks numbered from 1, then the instructions. */
  function PromptLines(ticket: string, snippets: seq<FusedHit>): (r: Result<seq<string>, Fault>)
    ensures r.Success? <==> AllHavePayload(snippets)
    ensures r.Failure? ==> exists k :: FirstMissing(snippets, k) && r.error == MissingPayload(snippets[k].id)
  {
    var blocks :- Blocks(snippets, 1);
    Success(["TICKET:\n" + Strip(ticket), "\nCONTEXT:"] + Flatten(blocks) + Instructions)
  }

  /** `build_user_prompt(ticket_text, snippets)`: the lines joined by "\n". */
  function BuildUserPrompt(ticket: string, snippets: seq<FusedHit>): (r: Result<string, Fault>)
    ensures r.Success? <==> AllHavePayload(snippets)
    ensures r.Failure? ==> exists k :: FirstMissing(snippets, k) && r.error == MissingPayload(snippets[k].id)
  {
    var lines :- PromptLines(ticket, snippets);
    Success(Join(lines, "\n"))
  }

  /** A join of `[l0, l1] + mid + ins` opens with `l0`, `l1` and closes with
      the join of `ins`. */
  lemma JoinFrame(l0: string, l1: string, mid: seq<string>, ins: seq<string>, sep: string)
    requires |ins| > 0
    ensures var p := Join([l0, l1] + mid + ins, sep);
            var head := l0 + sep + l1;
            var tail := sep + Join(ins, sep);
            && |head| + |tail| <= |p|
            && p[..|head|] == head
            && p[|p| - |tail|..] == tail
  {
    var lines := [l0, l1] + mid + ins;
    JoinConcat([l0, l1] + mid, ins, sep);
    var front := Join([l0, l1] + mid, sep);
    assert Join(lines, sep) == front + sep + Join(ins, sep);
    assert Join([l0, l1], sep) == l0 + sep + l1;
    if |mid| == 0 {
      assert [l0, l1] + mid == [l0, l1];
    } else {
      JoinConcat([l0, l1], mid, sep);
      assert front == Join([l0, l1], sep) + sep + Join(mid, sep);
    }
  }

  /** Unfolding step for `PromptFrame`: the prompt, once every snippet has its
      payload, is the joined lines. It states no property of its own. */
  lemma PromptValue(ticket: string, snippets: seq<FusedHit>)
    requires AllHavePayload(snippets)
    ensures BuildUserPrompt(ticket, snippets).value
            == Join(["TICKET:\n" + Strip(ticket), "\nCONTEXT:"] + Flatten(Blocks(snippets, 1).value) + Instructions, "\n")
  {
    var blocks := Blocks(snippets, 1).value;
    assert PromptLines(ticket, snippets).value == ["TICKET:\n" + Strip(ticket), "\nCONTEXT:"] + Flatten(blocks) + Instructions;
  }

  /** `p` opens with the trimmed ticket and the CONTEXT header and closes with
      the numbered instructions. */
  ghost predicate Framed(p: string, ticket: string) {
    var head := "TICKET:\n" + Strip(ticket) + "\n" + "\nCONTEXT:";
    var tail := "\n" + Join(Instructions, "\n");
    && |head| + |tail| <= |p|
    && p[..|head|] == head
    && p[|p| - |tail|..] == tail
  }

  /** The prompt opens with the trimmed ticket, then the CONTEXT header, and
      closes with the four numbered instructions, whatever the snippets. */
  lemma PromptFrame(ticket: string, snippets: seq<FusedHit>)
    requires AllHavePayload(snippets)
    ensures Framed(BuildUserPrompt(ticket, snippets).value, ticket)
  {
    PromptValue(ticket, snippets);
    FrameOfLines(BuildUserPrompt(ticket, snippets).value, ticket, Flatten(Blocks(snippets, 1).value));
  }

  /** The frame of any join of the ticket line, the CONTEXT header, some
      middle lines and the instructions. */
  lemma FrameOfLines(p: string, ticket: string, mid: seq<string>)
    requires p == Join(["TICKET:\n" + Strip(ticket), "\nCONTEXT:"] + mid + Instructions, "\n")
    ensures Framed(p, ticket)
  {
    JoinFrame("TICKET:\n" + Strip(ticket), "\nCONTEXT:", mid, Instructions, "\n");
  }

  /** With no snippets the prompt is the ticket, the CONTEXT header and the
      instructions, and nothing else. */
  lemma PromptWithoutSnippets(ticket: string)
    ensures BuildUserPrompt(ticket, []) ==
            Success("TICKET:\n" + Strip(ticket) + "\n" + "\nCONTEXT:" + "\n" + Join(Instructions, "\n"))
  {
    var l0, l1 := "TICKET:\n" + Strip(ticket), "\nCONTEXT:";
    assert Flatten([]) == [];
    assert PromptLines(ticket, []).value == [l0, l1] + Instructions;
    JoinConcat([l0, l1], Instructions, "\n");
  }

  /** Every line of every block is a substring of the joined lines. */
  lemma JoinShowsBlockLine(l0: string, l1: string, blocks: seq<seq<string>>, ins: seq<string>, k: nat, j: nat)
    requires k < |blocks| && j < |blocks[k]|
    ensures Contains(Join([l0, l1] + Flatten(blocks) + ins, "\n"), blocks[k][j])
  {
    var lines := [l0, l1] + Flatten(blocks) + ins;
    FlattenHas(blocks, k, j);
    var t :| 0 <= t < |Flatten(blocks)| && Flatten(blocks)[t] == blocks[k][j];
    assert lines[2 + t] == blocks[k][j];
    JoinHasElement(lines, "\n", 2 + t);
  }

  /** Every snippet contributes its numbered header, id, title, section and
      quoted trimmed text, and its header carries the number `k + 1`. */
  lemma PromptShowsSnippet(ticket: string, snippets: seq<FusedHit>, k: nat)
    requires AllHavePayload(snippets) && k < |snippets|
    ensures var p := BuildUserPrompt(ticket, snippets).value;
            var pl := snippets[k].payload.value;
            && Contains(p, "[SNIPPET " + NatStr(k + 1) + "]")
            && Contains(p, "- id: " + snippets[k].id)
            && Contains(p, "- title: " + pl.doc.GetOr(""))
            && Contains(p, "- section: " + pl.section.GetOr(""))
            && Contains(p, "- text: \"" + Strip(pl.text.GetOr("")) + "\"\n")
            && ParseDigits(NatStr(k + 1)) == k + 1
  {
    var blocks := Blocks(snippets, 1).value;
    var l0, l1 := "TICKET:\n" + Strip(ticket), "\nCONTEXT:";
    assert blocks[k] == SnippetBlock(1 + k, snippets[k], snippets[k].payload.value);
    JoinShowsBlockLine(l0, l1, blocks, Instructions, k, 0);
    JoinShowsBlockLine(l0, l1, blocks, Instructions, k, 1);
    JoinShowsBlockLine(l0, l1, blocks, Instructions, k, 2);
    JoinShowsBlockLine(l0, l1, blocks, Instructions, k, 3);
    JoinShowsBlockLine(l0, l1, blocks, Instructions, k, 4);
    ParseNatStr(k + 1);
  }
}

=== FILE: ranking.dfy ===
/** Python's `sorted(range(n), key=lambda i: keys[i], reverse=True)` and the
    prefix slice `xs[:k]`. Python's sort is stable even with `reverse=True`,
    so equal keys keep ascending index order: the result is the ascending order
    of the strict total order `Before` below. */
module Ranking {

  /** Index `a` is ranked ahead of index `b`: a higher key, or an equal key
      and an earlier position. */
  predicate Before(keys: seq<real>, a: nat, b: nat)
    requires a < |keys| && b < |keys|
  {
    keys[a] > keys[b] || (keys[a] == keys[b] && a < b)
  }

  predicate InRange(keys: seq<real>, order: seq<nat>) {
    forall i :: 0 <= i < |order| ==> order[i] < |keys|
  }

  /** `order` lists indices of `keys` by non-increasing key, ties by position. */
  predicate StablyDescending(keys: seq<real>, order: seq<nat>) {
    && InRange(keys, order)
    && forall i, j :: 0 <= i < j < |order| ==> Before(keys, order[i], order[j])
  }

  /** Prepending an index ranked ahead of every listed one keeps the order. */
  lemma ConsStablyDescending(keys: seq<real>, h: nat, rest: seq<nat>)
    requires h < |keys| && StablyDescending(keys, rest)
    requires forall y :: y in rest ==> y < |keys| && Before(keys, h, y)
    ensures StablyDescending(keys, [h] + rest)
  {
    var r := [h] + rest;
    forall i, j | 0 <= i < j < |r| ensures Before(keys, r[i], r[j]) {
      if i == 0 {
        assert r[j] == rest[j - 1] && rest[j - 1] in rest;
      } else {
        assert r[i] == rest[i - 1] && r[j] == rest[j - 1];
      }
    }
  }

  /** Insert index `x` at its place in an already ranked list. */
  function Insert(keys: seq<real>, x: nat, sorted: seq<nat>): (r: seq<nat>)
    requires x < |keys| && StablyDescending(keys, sorted) && x !in sorted
    ensures multiset(r) == multiset(sorted) + multiset{x}
    ensures StablyDescending(keys, r)
  {
    if |sorted| == 0 then [x]
    else if Before(keys, x, sorted[0]) then
      AheadOfAll(keys, x, sorted);
      ConsStablyDescending(keys, x, sorted);
      [x] + sorted
    else
      var h := sorted[0];
      var tail := sorted[1..];
      assert sorted == [h] + tail;
      assert Before(keys, h, x);
      var rest := Insert(keys, x, tail);
      HeadStaysAhead(keys, h, tail, x, rest);
      ConsStablyDescending(keys, h, rest);
      [h] + rest
  }

  /** An index ranked ahead of the first of a ranked list is ahead of all. */
  lemma AheadOfAll(keys: seq<real>, x: nat, sorted: seq<nat>)
    requires x < |keys| && StablyDescending(keys, sorted) && |sorted| > 0 && sorted[0] < |keys|
    requires Before(keys, x, sorted[0])
    ensures forall y :: y in sorted ==> y < |keys| && Before(keys, x, y)
  {
    forall y | y in sorted ensures y < |keys| && Before(keys, x, y) {
      var t :| 0 <= t < |sorted| && sorted[t] == y;
      if t > 0 {
        assert Before(keys, sorted[0], sorted[t]);
      }
    }
  }

  /** The head of a ranked list stays ahead of its tail with `x` inserted,
      when it is ahead of `x`. */
  lemma HeadStaysAhead(keys: seq<real>, h: nat, tail: seq<nat>, x: nat, rest: seq<nat>)
    requires x < |keys| && h < |keys| && StablyDescending(keys, [h] + tail) && Before(keys, h, x)
    requires multiset(rest) == multiset(tail) + multiset{x}
    ensures forall y :: y in rest ==> y < |keys| && Before(keys, h, y)
  {
    var sorted := [h] + tail;
    forall y | y in rest ensures y < |keys| && Before(keys, h, y) {
      assert y in multiset(rest);
      if y != x {
        assert y in multiset(tail);
        var t :| 0 <= t < |tail| && tail[t] == y;
        assert sorted[0] == h && sorted[t + 1] == y;
      }
    }
  }

  /** Ranks the first `n` indices of `keys` by insertion. */
  function SortPrefix(keys: seq<real>, n: nat): (r: seq<nat>)
    requires n <= |keys|
    ensures |r| == n
    ensures forall k: nat :: k in r <==> k < n
    ensures StablyDescending(keys, r)
  {
    if n == 0 then []
    else
      var x: nat := n - 1;
      var prev := SortPrefix(keys, x);
      var r := Insert(keys, x, prev);
      forall k: nat ensures k in r <==> k < n {
        calc {
          k in r;
          k in multiset(r);
          k in multiset(prev) + multiset{x};
          k in prev || k == x;
        }
      }
      assert |r| == |multiset(r)| == |multiset(prev)| + 1;
      r
  }

  /** The full ranking: a permutation of `0..|keys|-1` in stable descending order. */
  function RankDesc(keys: seq<real>): (order: seq<nat>)
    ensures |order| == |keys|
    ensures forall k: nat :: k in order <==> k < |keys|
    ensures StablyDescending(keys, order)
  {
    SortPrefix(keys, |keys|)
  }

  /** A stably descending list never repeats an index. */
  lemma StablyDescendingDistinct(keys: seq<real>, order: seq<nat>, i: nat, j: nat)
    requires StablyDescending(keys, order)
    requires i < j < |order|
    ensures order[i] != order[j]
  {
    assert Before(keys, order[i], order[j]);
  }

  /** Python's `xs[:k]`; a negative `k` counts from the end. */
  function PyPrefix<T>(xs: seq<T>, k: int): (r: seq<T>)
    ensures |r| <= |xs| && r == xs[..|r|]
    ensures k >= 0 ==> |r| == if k < |xs| then k else |xs|
    ensures k < 0 ==> |r| == if |xs| + k > 0 then |xs| + k else 0
  {
    if k >= 0 then (if k < |xs| then xs[..k] else xs)
    else (if |xs| + k > 0 then xs[..|xs| + k] else [])
  }

  /** Cutting a stable ranking anywhere keeps its best entries: no index left
      out has a higher key than any index kept, and one with an equal key
      comes later in `keys`. */
  lemma PrefixIsTop(keys: seq<real>, order: seq<nat>, m: nat, i: nat, j: nat)
    requires StablyDescending(keys, order)
    requires forall k: nat :: k in order <==> k < |keys|
    requires m <= |order| && i < m
    requires j < |keys| && forall k :: 0 <= k < m ==> order[k] != j
    ensures keys[j] <= keys[order[i]]
    ensures Before(keys, order[i], j)
  {
    assert j in order;
    var t :| 0 <= t < |order| && order[t] == j;
    assert Before(keys, order[i], order[t]);
  }

  /** In `sorted(range(n), key=..., reverse=True)[:k]` every index kept is
      ranked ahead of every index left out. */
  lemma RankedPrefixTop(keys: seq<real>, k: int, a: nat, j: nat)
    requires a < |PyPrefix(RankDesc(keys), k)| && j < |keys| && j !in PyPrefix(RankDesc(keys), k)
    ensures PyPrefix(RankDesc(keys), k)[a] < |keys| && Before(keys, PyPrefix(RankDesc(keys), k)[a], j)
  {
    var order := RankDesc(keys);
    var top := PyPrefix(order, k);
    forall t | 0 <= t < |top| ensures order[t] != j {
      assert top[t] == order[t];
    }
    PrefixIsTop(keys, order, |top|, a, j);
  }

  /** `sorted(range(n), key=..., reverse=True)[:k]`: distinct indices of `keys`
      in ranking order, each ranked ahead of every index left out. */
  lemma RankedPrefix(keys: seq<real>, k: int)
    ensures var top := PyPrefix(RankDesc(keys), k);
            && (forall a :: 0 <= a < |top| ==> top[a] < |keys|)
            && (forall a, b :: 0 <= a < b < |top| ==>
                  top[a] != top[b] && keys[top[a]] >= keys[top[b]] && Before(keys, top[a], top[b]))
            && (forall a, j :: 0 <= a < |top| && 0 <= j < |keys| && j !in top ==>
                  keys[j] <= keys[top[a]] && Before(keys, top[a], j))
  {
    var top := PyPrefix(RankDesc(keys), k);
    assert StablyDescending(keys, top) by {
      assert top == RankDesc(keys)[..|top|];
    }
    forall a, b | 0 <= a < b < |top| ensures top[a] != top[b] {
      StablyDescendingDistinct(keys, top, a, b);
    }
    forall a, j | 0 <= a < |top| && 0 <= j < |keys| && j !in top
      ensures keys[j] <= keys[top[a]] && Before(keys, top[a], j)
    {
      RankedPrefixTop(keys, k, a, j);
    }
  }
}

=== FILE: runs.dfy ===
/** Maximal runs of characters from a class. Two Python idioms are instances:
    `re.findall(r"[a-z0-9]+", s)` (runs of token characters) and `s.split()`
    with no argument (runs of non-whitespace). */
module Runs {
  import opened Strings

  function Flush(cur: string): seq<string> {
    if |cur| == 0 then [] else [cur]
  }

  predicate AllIn(s: string, p: char -> bool) {
    forall j :: 0 <= j < |s| ==> p(s[j])
  }

  /** Left-to-right scan; `cur` is the run being read. */
  function RunsFrom(s: string, p: char -> bool, cur: string): (r: seq<string>)
    requires AllIn(cur, p)
    ensures forall k :: 0 <= k < |r| ==> |r[k]| > 0 && AllIn(r[k], p)
    decreases |s|
  {
    if |s| == 0 then Flush(cur)
    else if p(s[0]) then RunsFrom(s[1..], p, cur + [s[0]])
    else Flush(cur) + RunsFrom(s[1..], p, [])
  }

  /** The maximal runs of `p`-characters of `s`, in order: every run is
      non-empty and made of `p`-characters only. */
  function MaxRuns(s: string, p: char -> bool): (r: seq<string>)
    ensures forall k :: 0 <= k < |r| ==> |r[k]| > 0 && AllIn(r[k], p)
  {
    RunsFrom(s, p, [])
  }

  function Concat(xs: seq<string>): string {
    if |xs| == 0 then [] else xs[0] + Concat(xs[1..])
  }

  lemma ConcatAppend(xs: seq<string>, ys: seq<string>)
    ensures Concat(xs + ys) == Concat(xs) + Concat(ys)
  {
    if |xs| > 0 {
      assert (xs + ys)[0] == xs[0] && (xs + ys)[1..] == xs[1..] + ys;
      ConcatAppend(xs[1..], ys);
    } else {
      assert xs + ys == ys;
    }
  }

  /** The characters of `s` satisfying `p`, in order. */
  function Keep(s: string, p: char -> bool): string {
    if |s| == 0 then [] else (if p(s[0]) then [s[0]] else []) + Keep(s[1..], p)
  }

  /** No character is lost or invented: the runs, glued together, are exactly
      the `p`-characters of the input. */
  lemma {:induction false} RunsFromContent(s: string, p: char -> bool, cur: string)
    requires AllIn(cur, p)
    ensures Concat(RunsFrom(s, p, cur)) == cur + Keep(s, p)
    decreases |s|
  {
    if |s| == 0 {
    } else if p(s[0]) {
      RunsFromContent(s[1..], p, cur + [s[0]]);
    } else {
      RunsFromContent(s[1..], p, []);
      ConcatAppend(Flush(cur), RunsFrom(s[1..], p, []));
    }
  }

  lemma MaxRunsContent(s: string, p: char -> bool)
    ensures Concat(MaxRuns(s, p)) == Keep(s, p)
  {
    RunsFromContent(s, p, []);
  }

  /** Reading a block of `p`-characters only extends the current run. */
  lemma {:induction false} RunsFromBlock(t: string, r: string, p: char -> bool, cur: string)
    requires AllIn(cur, p) && AllIn(t, p)
    ensures RunsFrom(t + r, p, cur) == RunsFrom(r, p, cur + t)
    decreases |t|
  {
    if |t| > 0 {
      assert (t + r)[0] == t[0] && (t + r)[1..] == t[1..] + r;
      RunsFromBlock(t[1..], r, p, cur + [t[0]]);
      assert cur + [t[0]] + t[1..] == cur + t;
    } else {
      assert t + r == r;
      assert cur + t == cur;
    }
  }

  /** A character outside the class closes the current run and nothing else. */
  lemma {:induction false} RunsFromSplitAt(a: string, c: char, b: string, p: char -> bool, cur: string)
    requires AllIn(cur, p) && !p(c)
    ensures RunsFrom(a + [c] + b, p, cur) == RunsFrom(a, p, cur) + RunsFrom(b, p, [])
    decreases |a|
  {
    if |a| == 0 {
      assert a + [c] + b == [c] + b;
      assert ([c] + b)[1..] == b;
    } else {
      assert (a + [c] + b)[0] == a[0] && (a + [c] + b)[1..] == a[1..] + [c] + b;
      if p(a[0]) {
        RunsFromSplitAt(a[1..], c, b, p, cur + [a[0]]);
      } else {
        RunsFromSplitAt(a[1..], c, b, p, []);
      }
    }
  }

  lemma MaxRunsSplitAt(a: string, c: char, b: string, p: char -> bool)
    requires !p(c)
    ensures MaxRuns(a + [c] + b, p) == MaxRuns(a, p) + MaxRuns(b, p)
  {
    RunsFromSplitAt(a, c, b, p, []);
  }

  /** Joining runs with a separator outside the class and scanning again
      returns the same runs: the scan is a left inverse of the join. */
  lemma {:induction false} MaxRunsOfJoin(xs: seq<string>, c: char, p: char -> bool)
    requires !p(c)
    requires forall k :: 0 <= k < |xs| ==> |xs[k]| > 0 && AllIn(xs[k], p)
    ensures MaxRuns(Join(xs, [c]), p) == xs
  {
    if |xs| == 0 {
    } else if |xs| == 1 {
      RunsFromBlock(xs[0], [], p, []);
      assert xs[0] + [] == xs[0] && [] + xs[0] == xs[0];
      assert Join(xs, [c]) == xs[0];
    } else {
      MaxRunsOfJoin(xs[1..], c, p);
      assert Join(xs, [c]) == xs[0] + [c] + Join(xs[1..], [c]);
      MaxRunsSplitAt(xs[0], c, Join(xs[1..], [c]), p);
      RunsFromBlock(xs[0], [], p, []);
      assert xs[0] + [] == xs[0] && [] + xs[0] == xs[0];
      assert xs == [xs[0]] + xs[1..];
    }
  }

  /** Python's `s.split()`: the maximal runs of non-whitespace. */
  function Words(s: string): (r: seq<string>)
    ensures forall k :: 0 <= k < |r| ==> |r[k]| > 0 && AllIn(r[k], IsNotSpace)
  {
    MaxRuns(s, IsNotSpace)
  }

  /** `" ".join(xs)` */
  function JoinSp(xs: seq<string>): string {
    Join(xs, " ")
  }

  function FlattenWords(xs: seq<string>): seq<string> {
    if |xs| == 0 then [] else Words(xs[0]) + FlattenWords(xs[1..])
  }

  /** The words of a space-joined list are the words of its items, in order. */
  lemma {:induction false} WordsOfJoinSp(xs: seq<string>)
    ensures Words(JoinSp(xs)) == FlattenWords(xs)
  {
    if |xs| == 0 {
      assert Words([]) == [];
    } else if |xs| == 1 {
      assert FlattenWords(xs) == Words(xs[0]) + FlattenWords([]);
    } else {
      WordsOfJoinSp(xs[1..]);
      assert JoinSp(xs) == xs[0] + [' '] + JoinSp(xs[1..]);
      MaxRunsSplitAt(xs[0], ' ', JoinSp(xs[1..]), IsNotSpace);
    }
  }

  lemma FlattenWordsAppend(xs: seq<string>, ys: seq<string>)
    ensures FlattenWords(xs + ys) == FlattenWords(xs) + FlattenWords(ys)
  {
    if |xs| > 0 {
      assert (xs + ys)[0] == xs[0] && (xs + ys)[1..] == xs[1..] + ys;
      FlattenWordsAppend(xs[1..], ys);
    } else {
      assert xs + ys == ys;
    }
  }

  /** Appending one item to a space-joined buffer appends exactly its words. */
  lemma WordsOfJoinSpAppend(xs: seq<string>, x: string)
    ensures |Words(JoinSp(xs + [x]))| == |Words(JoinSp(xs))| + |Words(x)|
  {
    WordsOfJoinSp(xs + [x]);
    WordsOfJoinSp(xs);
    FlattenWordsAppend(xs, [x]);
    assert FlattenWords([x]) == Words(x) + FlattenWords([]);
  }

  /** Words are themselves whitespace-free, so joining them with spaces and
      splitting again is lossless. */
  lemma WordsOfJoinedWords(ws: seq<string>)
    requires forall k :: 0 <= k < |ws| ==> |ws[k]| > 0 && AllIn(ws[k], IsNotSpace)
    ensures Words(JoinSp(ws)) == ws
  {
    MaxRunsOfJoin(ws, ' ', IsNotSpace);
  }

  /** Leading whitespace contributes no words. */
  lemma {:induction false} WordsSpacePrefix(a: string, s: string)
    requires AllSpace(a)
    ensures Words(a + s) == Words(s)
    decreases |a|
  {
    if |a| > 0 {
      assert a + s == [] + [a[0]] + (a[1..] + s);
      MaxRunsSplitAt([], a[0], a[1..] + s, IsNotSpace);
      assert MaxRuns([], IsNotSpace) == [];
      WordsSpacePrefix(a[1..], s);
    } else {
      assert a + s == s;
    }
  }

  /** Trailing whitespace contributes no words. */
  lemma WordsSpaceSuffix(s: string, a: string)
    requires AllSpace(a)
    ensures Words(s + a) == Words(s)
  {
    if |a| > 0 {
      assert s + a == s + [a[0]] + a[1..];
      MaxRunsSplitAt(s, a[0], a[1..], IsNotSpace);
      WordsSpacePrefix(a[1..], []);
      assert a[1..] + [] == a[1..];
      assert MaxRuns([], IsNotSpace) == [];
    } else {
      assert s + a == s;
    }
  }

  /** `strip` never changes the words of a string. */
  lemma WordsOfStrip(s: string)
    ensures Words(Strip(s)) == Words(s)
  {
    var r := Strip(s);
    var i := LeadingSpaces(s);
    StripSlice(s);
    assert s == s[..i] + (r + s[i + |r|..]);
    WordsSpacePrefix(s[..i], r + s[i + |r|..]);
    WordsSpaceSuffix(r, s[i + |r|..]);
  }

  /** Joining with any non-empty run of whitespace keeps the items' words apart
      and adds none: the words of the join are the items' words in order. */
  lemma {:induction false} WordsOfSpacedJoin(xs: seq<string>, sep: string)
    requires |sep| > 0 && AllSpace(sep)
    ensures Words(Join(xs, sep)) == FlattenWords(xs)
  {
    if |xs| == 0 {
      assert Words([]) == [];
    } else if |xs| == 1 {
      assert FlattenWords(xs) == Words(xs[0]) + FlattenWords([]);
    } else {
      var rest := Join(xs[1..], sep);
      WordsOfSpacedJoin(xs[1..], sep);
      assert Join(xs, sep) == xs[0] + [sep[0]] + (sep[1..] + rest);
      MaxRunsSplitAt(xs[0], sep[0], sep[1..] + rest, IsNotSpace);
      WordsSpacePrefix(sep[1..], rest);
    }
  }
}

=== FILE: strings.dfy ===
/** Python `str` operations the core relies on, over `string` (= `seq<char>`):
    whitespace and line-break classes, ASCII lower-casing, `strip`, `join`,
    `split(sep)`, `splitlines()` and substring search. */
module Strings {
  import opened Wrappers

  /** Python's `str.isspace()`: Unicode categories Zs, and bidi classes WS, B, S. */
  predicate IsSpace(c: char) {
    || ('\t' <= c <= '\r')
    || ('\U{001C}' <= c <= '\U{001F}')
    || c == ' ' || c == '\U{0085}' || c == '\U{00A0}' || c == '\U{1680}'
    || ('\U{2000}' <= c <= '\U{200A}')
    || c == '\U{2028}' || c == '\U{2029}' || c == '\U{202F}' || c == '\U{205F}'
    || c == '\U{3000}'
  }

  predicate IsNotSpace(c: char) {
    !IsSpace(c)
  }

  /** The characters at which Python's `str.splitlines()` breaks a line. */
  predicate IsLineBreak(c: char) {
    || ('\n' <= c <= '\r')
    || ('\U{001C}' <= c <= '\U{001E}')
    || c == '\U{0085}' || c == '\U{2028}' || c == '\U{2029}'
  }

  predicate IsAsciiUpper(c: char) {
    'A' <= c <= 'Z'
  }

  function LowerChar(c: char): (d: char)
    ensures !IsAsciiUpper(d)
    ensures !IsAsciiUpper(c) ==> d == c
  {
    if IsAsciiUpper(c) then (c as int + 32) as char else c
  }

  /** `str.lower()` restricted to the ASCII letters. */
  function Lower(s: string): (r: string)
    ensures |r| == |s|
    ensures forall i :: 0 <= i < |s| ==> r[i] == LowerChar(s[i])
  {
    seq(|s|, i requires 0 <= i < |s| => LowerChar(s[i]))
  }

  predicate NoUpper(s: string) {
    forall i :: 0 <= i < |s| ==> !IsAsciiUpper(s[i])
  }

  /** Lower-casing leaves a string without upper-case letters alone, so it is idempotent. */
  lemma LowerFixesNoUpper(s: string)
    requires NoUpper(s)
    ensures Lower(s) == s
  {
  }

  lemma LowerIdempotent(s: string)
    ensures Lower(Lower(s)) == Lower(s)
  {
    LowerFixesNoUpper(Lower(s));
  }

  predicate AllSpace(s: string) {
    forall i :: 0 <= i < |s| ==> IsSpace(s[i])
  }

  /** Number of leading whitespace characters. */
  function LeadingSpaces(s: string): (n: nat)
    ensures n <= |s|
    ensures AllSpace(s[..n])
    ensures n == |s| || !IsSpace(s[n])
  {
    if |s| == 0 || !IsSpace(s[0]) then 0
    else
      var n := 1 + LeadingSpaces(s[1..]);
      assert s[..n] == [s[0]] + s[1..][..n - 1];
      n
  }

  /** Number of trailing whitespace characters. */
  function TrailingSpaces(s: string): (n: nat)
    ensures n <= |s|
    ensures AllSpace(s[|s| - n..])
    ensures n == |s| || !IsSpace(s[|s| - n - 1])
  {
    if |s| == 0 || !IsSpace(s[|s| - 1]) then 0
    else
      var n := 1 + TrailingSpaces(s[..|s| - 1]);
      assert s[|s| - n..] == s[..|s| - 1][|s| - n..] + [s[|s| - 1]];
      n
  }

  /** Python's `str.strip()`: drops whitespace at both ends and nothing else. */
  function Strip(s: string): (r: string)
    ensures |r| <= |s|
    ensures |r| == 0 || (!IsSpace(r[0]) && !IsSpace(r[|r| - 1]))
  {
    var t := s[LeadingSpaces(s)..];
    StripEdges(t);
    t[..|t| - TrailingSpaces(t)]
  }

  /** Cutting the trailing whitespace off a string that opens with a
      non-space character leaves no whitespace at either end. */
  lemma StripEdges(t: string)
    requires |t| == 0 || !IsSpace(t[0])
    ensures var r := t[..|t| - TrailingSpaces(t)];
            |r| == 0 || (!IsSpace(r[0]) && !IsSpace(r[|r| - 1]))
  {
    var n := |t| - TrailingSpaces(t);
    if n > 0 {
      assert t[..n][0] == t[0];
      assert t[..n][n - 1] == t[n - 1];
    }
  }

  /** `strip` keeps the text between the leading whitespace and the trailing
      whitespace. */
  lemma StripSlice(s: string)
    ensures LeadingSpaces(s) + |Strip(s)| <= |s|
    ensures Strip(s) == s[LeadingSpaces(s)..LeadingSpaces(s) + |Strip(s)|]
    ensures AllSpace(s[LeadingSpaces(s) + |Strip(s)|..])
  {
    var i := LeadingSpaces(s);
    var t := s[i..];
    var n := |t| - TrailingSpaces(t);
    assert Strip(s) == t[..n];
    DropTake(s, i, n);
  }

  lemma DropTake(s: string, i: nat, n: nat)
    requires i + n <= |s|
    ensures s[i..][..n] == s[i..i + n]
    ensures s[i..][n..] == s[i + n..]
  {
  }

  lemma StripNoEdgeSpace(s: string)
    requires |s| == 0 || (!IsSpace(s[0]) && !IsSpace(s[|s| - 1]))
    ensures Strip(s) == s
  {
  }

  lemma StripIdempotent(s: string)
    ensures Strip(Strip(s)) == Strip(s)
  {
    StripNoEdgeSpace(Strip(s));
  }

  /** One leading space is stripped off again. */
  lemma StripPadded(s: string)
    requires |s| == 0 || (!IsSpace(s[0]) && !IsSpace(s[|s| - 1]))
    ensures Strip(" " + s) == s
  {
    var t := " " + s;
    assert t[1..] == s;
    if |s| == 0 {
      assert LeadingSpaces(t) == 1;
    } else {
      assert LeadingSpaces(t) == 1 + LeadingSpaces(s) == 1;
      assert TrailingSpaces(s) == 0;
    }
  }

  /** A string made only of whitespace strips to "". */
  lemma StripAllSpace(s: string)
    requires AllSpace(s)
    ensures Strip(s) == []
  {
  }

  /** Only whitespace is dropped: a blank result means a blank input. */
  lemma StripEmpty(s: string)
    ensures Strip(s) == [] ==> AllSpace(s)
  {
    if Strip(s) == [] {
      StripSlice(s);
      assert s[..LeadingSpaces(s)] == s;
    }
  }

  /** A string that ends in a non-space character does not strip to "". */
  lemma StripKeepsLast(s: string)
    requires |s| > 0 && !IsSpace(s[|s| - 1])
    ensures |Strip(s)| > 0
  {
    StripEmpty(s);
  }

  /** Skipping `m` leading whitespace characters leaves the same text after
      the leading whitespace. */
  lemma {:induction false} LeadingSkip(s: string, m: nat)
    requires m <= |s| && AllSpace(s[..m])
    ensures LeadingSpaces(s) == m + LeadingSpaces(s[m..])
    decreases m
  {
    if m > 0 {
      assert IsSpace(s[..m][0]);
      assert s[1..][..m - 1] == s[1..m];
      LeadingSkip(s[1..], m - 1);
      assert s[1..][m - 1..] == s[m..];
    }
  }

  /** Leading whitespace that `strip` would remove anyway changes nothing. */
  lemma StripSkipSpaces(s: string, m: nat)
    requires m <= |s| && AllSpace(s[..m])
    ensures Strip(s[m..]) == Strip(s)
  {
    LeadingSkip(s, m);
    assert s[m..][LeadingSpaces(s[m..])..] == s[LeadingSpaces(s)..];
    StripSlice(s);
    StripSlice(s[m..]);
  }

  /** Python's `sep.join(xs)`. */
  function Join(xs: seq<string>, sep: string): string
  {
    if |xs| == 0 then []
    else if |xs| == 1 then xs[0]
    else xs[0] + sep + Join(xs[1..], sep)
  }

  lemma JoinAppend(xs: seq<string>, x: string, sep: string)
    ensures Join(xs + [x], sep) == if |xs| == 0 then x else Join(xs, sep) + sep + x
  {
    if |xs| > 1 {
      assert (xs + [x])[1..] == xs[1..] + [x];
      JoinAppend(xs[1..], x, sep);
    } else if |xs| == 1 {
      assert (xs + [x])[1..] == [x];
    }
  }

  /** Joining two non-empty lists puts one separator between their joins. */
  lemma {:induction false} JoinConcat(xs: seq<string>, ys: seq<string>, sep: string)
    requires |xs| > 0 && |ys| > 0
    ensures Join(xs + ys, sep) == Join(xs, sep) + sep + Join(ys, sep)
  {
    if |xs| == 1 {
      assert (xs + ys)[1..] == ys;
    } else {
      assert (xs + ys)[1..] == xs[1..] + ys;
      JoinConcat(xs[1..], ys, sep);
    }
  }

  /** `pat` occurs in `s` at position `i`. */
  predicate OccursAt(s: string, pat: string, i: int) {
    0 <= i && i + |pat| <= |s| && s[i..i + |pat|] == pat
  }

  ghost predicate Contains(s: string, pat: string) {
    exists i :: OccursAt(s, pat, i)
  }

  /** A substring of a string free of `pat` is free of it too. */
  lemma SubstringLacks(s: string, r: string, i: nat, pat: string)
    requires i + |r| <= |s| && r == s[i..i + |r|] && !Contains(s, pat)
    ensures !Contains(r, pat)
  {
    forall k | OccursAt(r, pat, k) ensures OccursAt(s, pat, i + k) {
      forall t | 0 <= t < |pat| ensures s[i + k..i + k + |pat|][t] == pat[t] {
        assert r[k + t] == s[i + k + t];
      }
    }
  }

  /** Every element of a join is a substring of it. */
  lemma {:induction false} JoinHasElement(xs: seq<string>, sep: string, k: nat)
    requires k < |xs|
    ensures Contains(Join(xs, sep), xs[k])
  {
    if |xs| == 1 {
      assert OccursAt(Join(xs, sep), xs[0], 0);
    } else if k == 0 {
      assert Join(xs, sep)[0..|xs[0]|] == xs[0];
      assert OccursAt(Join(xs, sep), xs[0], 0);
    } else {
      JoinHasElement(xs[1..], sep, k - 1);
      var j := Join(xs[1..], sep);
      var i :| OccursAt(j, xs[k], i);
      var off := |xs[0]| + |sep|;
      assert Join(xs, sep) == xs[0] + sep + j;
      assert Join(xs, sep)[off + i..off + i + |xs[k]|] == j[i..i + |xs[k]|];
      assert OccursAt(Join(xs, sep), xs[k], off + i);
    }
  }

  /** Leftmost occurrence of `pat` in `s` at or after `from`. */
  function FindFrom(s: string, pat: string, from: nat): (r: Option<nat>)
    ensures r.Some? ==> from <= r.value && OccursAt(s, pat, r.value)
    ensures r.Some? ==> forall k :: from <= k < r.value ==> !OccursAt(s, pat, k)
    ensures r.None? ==> forall k :: from <= k ==> !OccursAt(s, pat, k)
    decreases |s| - from
  {
    if from + |pat| > |s| then None
    else if s[from..from + |pat|] == pat then Some(from)
    else FindFrom(s, pat, from + 1)
  }

  /** Python's `pat in s`, decided by a left-to-right scan. */
  function HasSubstring(s: string, pat: string): (b: bool)
    ensures b <==> Contains(s, pat)
  {
    FindFrom(s, pat, 0).Some?
  }

  /** Python's `s.split(sep)` for a non-empty separator. */
  function Split(s: string, sep: string): (r: seq<string>)
    requires |sep| > 0
    ensures |r| > 0
    ensures forall k :: 0 <= k < |r| ==> !Contains(r[k], sep)
    decreases |s|
  {
    match FindFrom(s, sep, 0)
    case None => [s]
    case Some(i) =>
      var piece := s[..i];
      assert !Contains(piece, sep) by {
        forall k | OccursAt(piece, sep, k) ensures false {
          assert OccursAt(s, sep, k);
        }
      }
      [piece] + Split(s[i + |sep|..], sep)
  }

  /** Splitting and re-joining with the same separator gives the string back. */
  lemma {:induction false} SplitJoin(s: string, sep: string)
    requires |sep| > 0
    ensures Join(Split(s, sep), sep) == s
    decreases |s|
  {
    match FindFrom(s, sep, 0)
    case None =>
    case Some(i) =>
      var rest := s[i + |sep|..];
      SplitJoin(rest, sep);
      assert Split(s, sep) == [s[..i]] + Split(rest, sep);
      assert s == s[..i] + sep + rest;
  }

  /** Splitting a join gives the list back when the separator's first
      character occurs in no element. */
  lemma {:induction false} JoinSplit(xs: seq<string>, sep: string)
    requires |xs| > 0 && |sep| > 0
    requires forall k, j :: 0 <= k < |xs| && 0 <= j < |xs[k]| ==> xs[k][j] != sep[0]
    ensures Split(Join(xs, sep), sep) == xs
  {
    var s := Join(xs, sep);
    if |xs| == 1 {
      forall i | 0 <= i && i + |sep| <= |s| ensures !OccursAt(s, sep, i) {
        assert s[i..i + |sep|][0] == xs[0][i] != sep[0];
      }
      assert FindFrom(s, sep, 0).None?;
    } else {
      var rest := Join(xs[1..], sep);
      assert s == xs[0] + sep + rest;
      forall i | 0 <= i < |xs[0]| ensures !OccursAt(s, sep, i) {
        assert s[i] == xs[0][i];
      }
      assert s[|xs[0]|..|xs[0]| + |sep|] == sep;
      assert OccursAt(s, sep, |xs[0]|);
      assert FindFrom(s, sep, 0) == Some(|xs[0]|);
      assert s[..|xs[0]|] == xs[0];
      assert s[|xs[0]| + |sep|..] == rest;
      JoinSplit(xs[1..], sep);
    }
  }

  /** Index of the first character satisfying `p`, at or after `from`. */
  function FirstWhere(s: string, p: char -> bool, from: nat): (r: Option<nat>)
    ensures r.Some? ==> from <= r.value < |s| && p(s[r.value])
    ensures r.Some? ==> forall k :: from <= k < r.value ==> !p(s[k])
    ensures r.None? ==> forall k :: from <= k < |s| ==> !p(s[k])
    decreases |s| - from
  {
    if from >= |s| then None
    else if p(s[from]) then Some(from)
    else FirstWhere(s, p, from + 1)
  }

  /** Index of the last character satisfying `p`. */
  function LastWhere(s: string, p: char -> bool): (r: Option<nat>)
    ensures r.Some? ==> r.value < |s| && p(s[r.value])
    ensures r.Some? ==> forall k :: r.value < k < |s| ==> !p(s[k])
    ensures r.None? ==> forall k :: 0 <= k < |s| ==> !p(s[k])
  {
    if |s| == 0 then None
    else if p(s[|s| - 1]) then Some(|s| - 1)
    else LastWhere(s[..|s| - 1], p)
  }

  ghost predicate NoLineBreak(line: string) {
    forall j :: 0 <= j < |line| ==> !IsLineBreak(line[j])
  }

  /** Python's `s.splitlines()`: "\r\n" counts as one break, and a final break
      does not open an empty last line. */
  function SplitLines(s: string): (r: seq<string>)
    ensures |s| == 0 <==> |r| == 0
    ensures forall k :: 0 <= k < |r| ==> NoLineBreak(r[k])
    decreases |s|
  {
    if |s| == 0 then []
    else
      match FirstWhere(s, IsLineBreak, 0)
      case None => [s]
      case Some(i) =>
        var width := if s[i] == '\r' && i + 1 < |s| && s[i + 1] == '\n' then 2 else 1;
        [s[..i]] + SplitLines(s[i + width..])
  }

  /** A string free of line breaks is a single line. */
  lemma SplitLinesNoBreak(s: string)
    requires |s| > 0 && NoLineBreak(s)
    ensures SplitLines(s) == [s]
  {
  }
}

=== FILE: wrappers.dfy ===
/** Failure-compatible wrappers used across the model: `Option` for values that
    may be absent (a missing dictionary key, an optional payload) and `Result`
    for operations whose Python counterpart raises. */
module Wrappers {

  datatype Option<+T> = None | Some(value: T) {

    /** The wrapped value, or `default` when absent (Python's `d.get(k, default)`). */
    function GetOr(default: T): T {
      match this
      case Some(v) => v
      case None => default
    }
  }

  datatype Result<+R, +E> = Success(value: R) | Failure(error: E) {

    predicate IsFailure() {
      Failure?
    }

    function PropagateFailure<U>(): Result<U, E>
      requires Failure?
    {
      Failure(error)
    }

    function Extract(): R
      requires Success?
    {
      value
    }
  }
}
